=== FILE: README.md ===
# Shams Academy — a Dafny model of its core rules

Shams Academy is an online learning platform: a React front end (courses,
lessons, timed tests, a digital library, payments, settings) over a Django
REST back end (accounts, courses, tests, library, payments, notifications
and an AI assistant). This project models the pieces of sequential logic
underneath the pages and views, as immutable datatypes and pure functions,
and proves what those pieces promise.

One module per piece, one file per module:

- `Common` (`common.dfy`): `Option`, order-preserving `Filter`, the
  catalogue category filter, decimal rendering and parsing of naturals,
  ASCII lower-casing, substring search, and the truncating percentage
  `int(part / whole * 100)`.
- `QuizSession` (`quiz_session.dfy`): the timed quiz page's state
  (current question, index-aligned answer slots, countdown). It has
  select/next/previous steps, an explicit one-second `Tick`, the
  Finish-vs-Next rule and the scored result record.
- `TestResultsPage` (`test_results.dfy`): the `m:ss` clock, the 80/60
  score bands behind the headline, colour and recommendation, the stat
  row, and the fallback record.
- `TestGrading` (`test_grading.dfy`): the server's answer-map scorer with
  its five messages and the answer serializer, and the `submit` action
  with the rows it writes (as written and corrected).
- `CardPayment` (`card_payment.dfy`): the card-number formatter and the
  payment form's submit, pay-button and close rules.
- `BookReader` (`book_reader.dfy`): the book page's price line and the
  reader's font stepper, toggles and light-markdown renderer.
- `LibraryPage`, `TestsPage`, `CoursesPage` (`library_page.dfy`,
  `tests_page.dfy`, `courses_page.dfy`): the catalogue filters, card
  links, tags and empty-state messages.
- `LessonPanel` (`lesson_panel.dfy`): the course page's per-lesson state
  kept by id.
- `SettingsPage` (`settings_page.dfy`): the notifications switch and the
  "type DELETE to confirm" gate.
- `LibraryRules` (`library_rules.dfy`): `final_price`, purchases, the
  download permission and limits, "my books" and the book listing.
- `CourseEnrollment` (`course_enrollment.dfy`): visibility, enrolling and
  lesson progress with the enrollment's percentage.
- `AssistantService` (`assistant_service.dfy`): spam detection, the daily
  request limit and prompt assembly.
- `PaymentFlow` (`payment_flow.dfy`): initiate, verify, history and the
  provider webhook over an abstract ledger.
- `NotificationInbox` (`notification_inbox.dfy`): read flags and the
  unread count.
- `UserAccounts` (`user_accounts.dfy`): the user manager and the account
  serializers' validation.
- `AccountTokens` (`account_tokens.dfy`): expiring single-use verification
  and reset tokens, and the two login decisions.

Database tables are sequences, sets or maps; a record's id is its position
or its key. Time, random token strings and the random payment outcome are
parameters.

## Model

| member | source | states |
|---|---|---|
| QuizSession.Start | Shams-front/src/pages/TestDetail.jsx:198-200 | a new attempt is at question 0 with one empty slot per question and the full time limit, and satisfies the page invariant |
| QuizSession.Select | Shams-front/src/pages/TestDetail.jsx:229-233 | choosing writes only the current question's slot; index, clock and other slots are unchanged |
| QuizSession.SelectOverwrites | Shams-front/src/pages/TestDetail.jsx:229-233 | a second choice replaces the first |
| QuizSession.Next | Shams-front/src/pages/TestDetail.jsx:236-240 | Next advances only below the last question and otherwise changes nothing |
| QuizSession.Prev | Shams-front/src/pages/TestDetail.jsx:242-246 | Previous goes back only above the first question and otherwise changes nothing |
| QuizSession.Tick | Shams-front/src/pages/TestDetail.jsx:214-222 | a tick ends the test exactly when at most one second is left, then the clock reads 0; otherwise exactly one second goes; the clock never goes negative |
| QuizSession.PrimaryMatchesNext | Shams-front/src/pages/TestDetail.jsx:349-367 | "Finish Test" replaces "Next" exactly where Next would not move |
| QuizSession.SelectKeepsValid | Shams-front/src/pages/TestDetail.jsx:229-233 | choosing keeps the index in range and the slots aligned with the questions |
| QuizSession.NavigationKeepsValid | Shams-front/src/pages/TestDetail.jsx:236-246 | Next and Previous keep the index in [0, n-1] |
| QuizSession.TickKeepsValid | Shams-front/src/pages/TestDetail.jsx:214-222 | a tick keeps the clock within [0, time limit] and never raises it |
| QuizSession.StepKeepsValid | Shams-front/src/pages/TestDetail.jsx:214-246 | every user or timer event keeps the page invariant |
| QuizSession.Run | Shams-front/src/pages/TestDetail.jsx:214-246 | every state reachable by any run of events from a valid state is valid, with the clock no higher |
| QuizSession.TicksCountDown | Shams-front/src/pages/TestDetail.jsx:214-222 | k idle seconds with more than k left take exactly k off and do not end the test |
| QuizSession.TimesOutAtLimit | Shams-front/src/pages/TestDetail.jsx:198-222 | an untouched attempt times out after exactly time-limit ticks, clock at 0 and answers empty |
| QuizSession.RunAppendLast | Shams-front/src/pages/TestDetail.jsx:214-246 | a run with one more event is the shorter run followed by that event, unless the shorter run already ended the test |
| QuizSession.CorrectAreAnswered | Shams-front/src/pages/TestDetail.jsx:250-259 | right answers are never more than answered slots |
| QuizSession.RoundedPercentMeaning | Shams-front/src/pages/TestDetail.jsx:261 | the score is within half a point of 100·correct/n, halves rounded up, lies in [0, 100], is 0 with no right answer and 100 with all right |
| QuizSession.ResultOf | Shams-front/src/pages/TestDetail.jsx:248-272 | right, wrong and unanswered counts are non-negative and add up to n; the score is the rounded percentage; time spent is limit minus remaining, within [0, limit]; the answers are carried over |
| QuizSession.FinishTest | Shams-front/src/pages/TestDetail.jsx:248-279 | the page's one-pass counting loop builds exactly the result defined by counting |
| QuizSession.ScoreExtremes | Shams-front/src/pages/TestDetail.jsx:250-261 | all slots empty scores 0 and all slots right scores 100 |
| TestResultsPage.FormatTime | Shams-front/src/pages/TestResults.jsx:175-179 | the clock is the minutes, a colon and exactly two digits of seconds; the minutes carry no leading zero (only 0 itself starts with '0'), and the parts read back as seconds/60 and seconds%60 |
| TestResultsPage.FormatTimeRoundTrip | Shams-front/src/pages/TestResults.jsx:175-179 | reading the clock back gives the number of seconds formatted |
| TestResultsPage.FormatTimeInjective | Shams-front/src/pages/TestResults.jsx:175-179 | different durations show as different clocks |
| TestResultsPage.BandOf | Shams-front/src/pages/TestResults.jsx:220 | the bands at least 80, 60 to 79 and below 60 partition all scores |
| TestResultsPage.ViewsFollowBand | Shams-front/src/pages/TestResults.jsx:45-55 | the circle colour, the headline (line 220) and the recommendation (lines 253-268) each follow the same band, both directions |
| TestResultsPage.Stats | Shams-front/src/pages/TestResults.jsx:230-234 | right and wrong counts are always listed; the unanswered stat appears exactly when positive, with that count |
| TestResultsPage.SummaryOfFinishedQuiz | Shams-front/src/pages/TestResults.jsx:242 | for a finished quiz the shown total is the number of questions, the right count is at most that, and the clock reads back as the time spent |
| TestResultsPage.ResultsData | Shams-front/src/pages/TestResults.jsx:147-163 | a handed-over result is shown as is; otherwise the fixed sample 4 right, 1 wrong, 0 unanswered, 80, 450 s |
| TestResultsPage.FallbackIsConsistent | Shams-front/src/pages/TestResults.jsx:147-163 | the sample is what a five-question quiz produces: counts add to 5, score is the rounded 4/5, top band, shown as 7:30 |
| TestGrading.CountCorrectAll | Shams-backend/apps/tests/views.py:167-172 | the count reaches the number of questions exactly when every question's id maps to its correct letter |
| TestGrading.CountCorrectNone | Shams-backend/apps/tests/views.py:167-172 | the count is 0 exactly when no question is answered correctly; a missing key counts as wrong |
| TestGrading.ForeignKeysIgnored | Shams-backend/apps/tests/views.py:167-172 | answers under keys that are not the test's question ids do not change the count |
| TestGrading.Message | Shams-backend/apps/tests/views.py:190-200 | each of the five messages corresponds to exactly its band, the first matching lower bound winning |
| TestGrading.ParseLetter | Shams-backend/apps/tests/serializers.py:91-95 | the answer field accepts exactly the texts A, B, C and D, each read back as the letter whose text it is |
| TestGrading.Letters | Shams-backend/apps/tests/serializers.py:91-95 | the validated answers keep every key of the request, each with the letter its text names |
| TestGrading.GradeSubmission | Shams-backend/apps/tests/views.py:158-188 | answers that are missing, not an object, or hold a value other than A-D are refused (line 161) before anything is counted, also for a test without questions; with valid answers a test without questions fails on the division and stores nothing; otherwise the score is the truncated percentage of correct answers, at most 100, 100 exactly when all are right, with the band's message, and one result with that score is stored for the user and test |
| TestGrading.GradeExtremes | Shams-backend/apps/tests/views.py:167-200 | a perfect answer map earns the top message and an all-wrong one the lowest |
| TestGrading.SubmitWith | Shams-backend/apps/tests/views.py:35-97 | the checks run in order: an earlier result of the user for the test (line 40), an empty list (line 48); then a result row is started (line 55) and the pairs are stored in turn until the first one whose lookup fails (lines 64-65, not found) or whose question was already answered (line 68, the unique constraint of tests/models.py:119); a failure, or a test without questions (line 82), leaves exactly the started row and the answer rows before it; otherwise the row is graded, with right plus wrong equal to the test's question count and the truncated percentage, every answer row stored and one activity recorded (lines 86-91) |
| TestGrading.SubmitLeavesResult | Shams-backend/apps/tests/views.py:40-59 | once a submission gets past the two early refusals a result row stays whatever fails later, so every later submission of that user for the test is refused as already submitted; only a graded one records an activity |
| TestGrading.SubmitAsWritten | Shams-backend/apps/tests/views.py:62-84 | as written, the graded count is every right option submitted, whichever question it belongs to, and right plus wrong is the test's question count |
| TestGrading.SubmitAsWrittenExceedsHundred | Shams-backend/apps/tests/views.py:62-84 | a one-question test answered with a right option from another question scores 200 with -1 wrong answers |
| TestGrading.Submit | Shams-backend/apps/tests/views.py:35-97 | the same checks, order and rows; the count is the test's questions answered rightly, so wrong answers are non-negative, the score lies in [0, 100] and is 100 exactly when every question of the test is answered rightly |
| TestGrading.SubmitAgreesOnWellFormed | Shams-backend/apps/tests/views.py:62-76 | when every pair answers a distinct question of the test with that question's own option, the corrected count equals the written one |
| CardPayment.Digits | Shams-front/src/pages/Payments.jsx:235 | whitespace and every other non-digit are removed |
| CardPayment.KeptDigits | Shams-front/src/pages/Payments.jsx:236-237 | fewer than four digits keep nothing; otherwise the first sixteen digits at most are kept |
| CardPayment.FormatCardNumber | Shams-front/src/pages/Payments.jsx:234-249 | fewer than four digits return the input unchanged; otherwise the output's digits are the kept digits in order, its length is 4 to 19, every fifth position is a space and every other position a digit, and it ends in a digit |
| CardPayment.GroupLayout | Shams-front/src/pages/Payments.jsx:240-245 | in grouped digits a position holds a space exactly when it is the fifth of its group, and a digit otherwise |
| CardPayment.GroupDigits | Shams-front/src/pages/Payments.jsx:240-245 | grouping loses no digit: dropping the spaces gives the digits back |
| CardPayment.FormatIdempotent | Shams-front/src/pages/Payments.jsx:234-249 | formatting a formatted value changes nothing |
| CardPayment.FullCardLength | Shams-front/src/pages/Payments.jsx:234-249 | a formatted number is 19 characters long exactly when sixteen digits were kept |
| CardPayment.Submit | Shams-front/src/pages/Payments.jsx:207-213 | only the processing flag can change, and it is set afterwards exactly when it was already set or both the amount and the card number are filled in |
| CardPayment.Settle | Shams-front/src/pages/Payments.jsx:214-222 | processing ends and the result is shown with the outcome given; the form fields are kept |
| CardPayment.CloseResult | Shams-front/src/pages/Payments.jsx:225-232 | closing hides the result; amount, card and method are cleared after a success and kept after a failure |
| CardPayment.EnabledPayStartsProcessing | Shams-front/src/pages/Payments.jsx:314 | pressing an enabled pay button starts processing and disables the button |
| CardPayment.PayNeedsSixteenDigits | Shams-front/src/pages/Payments.jsx:314 | a formatted card enables the button only when sixteen digits were kept, or when fewer than four digits were typed and the text kept verbatim has 19 characters or more |
| CardPayment.LettersEnablePay | Shams-front/src/pages/Payments.jsx:234-249 | as written, nineteen typed letters are kept verbatim and enable the pay button with no digit in the card number (line 314) |
| CardPayment.FullPayNeedsSixteenDigits | Shams-front/src/pages/Payments.jsx:314 | with the button also asking for sixteen digits, a formatted card enables it exactly when sixteen digits were kept, an amount is given and nothing is processing |
| CardPayment.SuccessResetsForm | Shams-front/src/pages/Payments.jsx:225-232 | after a closed success the amount is empty and the button is disabled |
| BookReader.PriceLineOf | Shams-front/src/pages/BookDetail.jsx:268-277 | "Bepul" exactly for free books, original beside the offer exactly for other discounted books, otherwise the price |
| BookReader.PriceLineMatchesCardTag | Shams-front/src/pages/BookDetail.jsx:268-277 | the book page's price line and the catalogue card's tag (Library.jsx:256-272) agree: free together, an offer together with the same offer price, a plain price together with the padlock's price |
| BookReader.Larger | Shams-front/src/pages/BookDetail.jsx:234-238 | a step up moves by at most 2 and keeps the parity, is a no-op exactly at 24 and above, and keeps a size in {12, 14, …, 24} inside that range |
| BookReader.Smaller | Shams-front/src/pages/BookDetail.jsx:240-244 | a step down moves by at most 2 and keeps the parity, is a no-op exactly at 12 and below, and keeps a size in {12, 14, …, 24} inside that range |
| BookReader.StepsKeepFontSizeOk | Shams-front/src/pages/BookDetail.jsx:234-244 | both steps keep the size even and within [12, 24] |
| BookReader.DisabledAtTheEnds | Shams-front/src/pages/BookDetail.jsx:234-244 | a step does nothing exactly at its end of the range, and inside the range up and down undo each other |
| BookReader.Press | Shams-front/src/pages/BookDetail.jsx:223-244 | any sequence of presses from a reachable size (16 among them) stays even and within [12, 24] |
| BookReader.PressesReachTop | Shams-front/src/pages/BookDetail.jsx:234-238 | enough presses up reach 24 and stay there |
| BookReader.ToggleFont | Shams-front/src/pages/BookDetail.jsx:246-252 | the font is always one of the two and differs from either of them |
| BookReader.ToggleFontTwice | Shams-front/src/pages/BookDetail.jsx:246-252 | two font toggles restore the font |
| BookReader.ToggleReader | Shams-front/src/pages/BookDetail.jsx:226-228 | only the open flag changes, and it flips |
| BookReader.ToggleNight | Shams-front/src/pages/BookDetail.jsx:230-232 | only the night flag changes, and it flips |
| BookReader.TogglesAreInvolutions | Shams-front/src/pages/BookDetail.jsx:224-252 | every reader toggle undoes itself |
| BookReader.Split | Shams-front/src/pages/BookDetail.jsx:378 | splitting yields at least one piece, the first a prefix of the text |
| BookReader.SplitJoin | Shams-front/src/pages/BookDetail.jsx:378 | joining the pieces with the separator gives the text back |
| BookReader.SplitPiecesAreFree | Shams-front/src/pages/BookDetail.jsx:378 | no piece contains the separator |
| BookReader.NumberMarker | Shams-front/src/pages/BookDetail.jsx:392-398 | a match exists exactly when the paragraph starts with one or more digits followed by '. ', and then it ends right after that '. ' |
| BookReader.StripNumber | Shams-front/src/pages/BookDetail.jsx:392-398 | an item with the marker is the marker followed by the result; one without is unchanged |
| BookReader.Classify | Shams-front/src/pages/BookDetail.jsx:378-404 | each kind is chosen exactly when its marker is the first to match; headings are the marker plus the text; list items are the lines with their markers removed; a paragraph is the text |
| BookReader.Render | Shams-front/src/pages/BookDetail.jsx:378-404 | one block per blank-line-separated paragraph, in order, each classified |
| BookReader.SingleParagraph | Shams-front/src/pages/BookDetail.jsx:378-404 | text without a blank line renders as one block |
| LibraryPage.Shown | Shams-front/src/pages/Library.jsx:211-219 | "All" keeps every book; "Free" keeps exactly the free books; "Paid" keeps exactly the paid books that are not discounted; any other label keeps exactly the discounted books |
| LibraryPage.ShownKeepsOrder | Shams-front/src/pages/Library.jsx:211-219 | every shelf keeps the catalogue's order |
| LibraryPage.ShelvesDisjoint | Shams-front/src/pages/Library.jsx:211-219 | no book is on both the paid and the discounted shelf |
| LibraryPage.TagOf | Shams-front/src/pages/Library.jsx:256-272 | "Free" exactly for free books, the offer price exactly for other discounted books, the padlock with the price otherwise |
| LibraryPage.OverlayMatchesTag | Shams-front/src/pages/Library.jsx:251 | the cover is darkened exactly for paid books under the padlock tag, which are exactly the books on the "Paid" shelf |
| LibraryPage.EmptyShelf | Shams-front/src/pages/Library.jsx:293 | the empty message shows exactly when no book belongs to the shelf |
| TestsPage.Shown | Shams-front/src/pages/Tests.jsx:247-249 | "All" keeps every test; any other category keeps exactly the tests of that category |
| TestsPage.ShownKeepsOrder | Shams-front/src/pages/Tests.jsx:247-249 | the filter keeps the catalogue's order |
| TestsPage.Link | Shams-front/src/pages/Tests.jsx:279 | after /tests/ comes the id in decimal without leading zeros, reading back as the id, followed by /results exactly when the test was completed |
| TestsPage.LinkIdentifiesTest | Shams-front/src/pages/Tests.jsx:279 | equal links mean the same test id and the same completion |
| TestsPage.ResultsOf | Shams-front/src/pages/Tests.jsx:304-313 | the result line shows exactly for completed tests, with the test's counts and score |
| TestsPage.ButtonLabel | Shams-front/src/pages/Tests.jsx:315-317 | "View Results" exactly when completed, "Start Test" otherwise |
| TestsPage.CardIsConsistent | Shams-front/src/pages/Tests.jsx:279-317 | a card shows results exactly when it is labelled for them and links to /results |
| TestsPage.EmptyCategory | Shams-front/src/pages/Tests.jsx:324 | the empty message shows exactly when no test has the chosen category |
| CoursesPage.Shown | Shams-front/src/pages/Courses.jsx:237-239 | "All" keeps every course; any other category keeps exactly the courses of that category |
| CoursesPage.ShownKeepsOrder | Shams-front/src/pages/Courses.jsx:237-239 | the filter keeps the catalogue's order |
| CoursesPage.Link | Shams-front/src/pages/Courses.jsx:267 | the link is /courses/ followed by digits |
| CoursesPage.LinkIdentifiesCourse | Shams-front/src/pages/Courses.jsx:267 | the id reads back from the link, and different courses have different links |
| CoursesPage.EmptyCategory | Shams-front/src/pages/Courses.jsx:305 | the empty message shows exactly when no course has the chosen category |
| LessonPanel.InitialStates | Shams-front/src/pages/CourseDetail.jsx:237-244 | one record per lesson in the same order, with its id and completion, empty notes, editing off |
| LessonPanel.Initial | Shams-front/src/pages/CourseDetail.jsx:236-244 | the page opens on lesson 1 with the initial records |
| LessonPanel.Click | Shams-front/src/pages/CourseDetail.jsx:248-252 | a locked lesson leaves the page unchanged; an unlocked one becomes active |
| LessonPanel.ClicksCompose | Shams-front/src/pages/CourseDetail.jsx:248-252 | repeating a click changes nothing more, an unlocked click overrides earlier clicks, and a click opens its lesson exactly when the lesson does not show the padlock (lines 381-387) or was open already |
| LessonPanel.Complete | Shams-front/src/pages/CourseDetail.jsx:254-260 | only records with the id become completed; ids and order are kept |
| LessonPanel.ToggleEditNotes | Shams-front/src/pages/CourseDetail.jsx:262-268 | only records with the id flip their editing flag; ids and order are kept |
| LessonPanel.UpdateNotes | Shams-front/src/pages/CourseDetail.jsx:270-276 | only records with the id get the new notes; ids and order are kept |
| LessonPanel.UpdatesCompose | Shams-front/src/pages/CourseDetail.jsx:254-276 | completing is idempotent, toggling twice is the identity, and the last notes written win |
| LessonPanel.Find | Shams-front/src/pages/CourseDetail.jsx:278-280 | a record is found exactly when some record has the id, and it is the first record with that id |
| LessonPanel.CompleteThenFind | Shams-front/src/pages/CourseDetail.jsx:254-280 | after completing, the lesson reads completed and every other lesson reads as before |
| LessonPanel.FindUnaffected | Shams-front/src/pages/CourseDetail.jsx:254-280 | completing one id leaves every other id's lookup unchanged |
| LessonPanel.IconOf | Shams-front/src/pages/CourseDetail.jsx:381-387 | the padlock exactly when locked, the tick exactly when unlocked and completed, the play symbol otherwise |
| LessonPanel.CompletedShowsTick | Shams-front/src/pages/CourseDetail.jsx:254-260 | a completed unlocked lesson shows the tick |
| SettingsPage.ToggleNotifications | Shams-front/src/pages/Settings.jsx:203-206 | the flag flips and the toast says "enabled" exactly when it is now on |
| SettingsPage.ToggleTwice | Shams-front/src/pages/Settings.jsx:203-206 | two flips restore the setting |
| SettingsPage.TypeConfirm | Shams-front/src/pages/Settings.jsx:195 | the box shows what was typed, the delete button is enabled exactly when that is DELETE, and the switch, the panel and the toast stay as they were |
| SettingsPage.DeleteAccount | Shams-front/src/pages/Settings.jsx:208-214 | without exactly "DELETE" nothing changes; with it the panel closes, the text clears and the demo error toast shows |
| SettingsPage.Cancel | Shams-front/src/pages/Settings.jsx:339-342 | cancel closes the panel and clears the text |
| SettingsPage.DeleteGate | Shams-front/src/pages/Settings.jsx:355 | deletion acts exactly when the button is enabled, and leaves it disabled; near misses keep it disabled |
| LibraryRules.NewBook | Shams-backend/apps/library/models.py:25-35 | a new book starts with price 0.00, discount 0.00 and no downloads |
| LibraryRules.FinalPrice | Shams-backend/apps/library/models.py:54-60 | free books cost nothing, discounted books cost the price less the discount percentage, others the price |
| LibraryRules.DiscountBounds | Shams-backend/apps/library/models.py:58-59 | a discount from 0 to 100 percent keeps the final price within [0, price], 0 percent costs the price, 100 costs nothing, and a larger discount never costs more |
| LibraryRules.DownloadsOf | Shams-backend/apps/library/views.py:131-136 | the tally is zero exactly when no download of that user and book is stored |
| LibraryRules.PurchaseBook | Shams-backend/apps/library/views.py:72-103 | an unknown book is not found; a book the user owns is refused; then a form is refused exactly when its method is not payme, click or uzum or its card number is blank or longer than 16 characters (library/serializers.py:108-110); otherwise one purchase paying the final price is added |
| LibraryRules.PurchaseKeepsUnique | Shams-backend/apps/library/models.py:89 | whatever form is sent, purchasing keeps each user's purchases of a book unique and makes the book theirs |
| LibraryRules.DownloadBook | Shams-backend/apps/library/views.py:120-153 | a missing book is not found; an unpurchased non-free book is refused; otherwise three downloads are the limit, a repeated (user, book, address) record conflicts, and each remaining case downloads, adding one record and one to the book's counter |
| LibraryRules.DownloadKeepsLimit | Shams-backend/apps/library/views.py:131-147 | downloads keep every user within three per book, add one to the downloader's tally and leave all others' alone |
| LibraryRules.MyBooks | Shams-backend/apps/library/views.py:109-114 | a book is on the shelf exactly when it is free or the user bought it, once |
| LibraryRules.ShelfMatchesDownloadRight | Shams-backend/apps/library/views.py:109-128 | the download view refuses exactly the books missing from the shelf, and a purchase adds just that book to the shelf |
| LibraryRules.DownloadOnce | Shams-backend/apps/library/views.py:169-197 | inactive or missing books are refused; any earlier download refuses; otherwise one record is added and a 'book' activity naming the book is written for the user |
| LibraryRules.DownloadOnceIsOnce | Shams-backend/apps/library/views.py:174-178 | through this route the tally of a recorded download is exactly one and a second try is refused |
| LibraryRules.ListBooks | Shams-backend/apps/library/views.py:23-39 | exactly the active books matching the category, the status and the search in title or author are listed |
| LibraryRules.SearchIgnoresCase | Shams-backend/apps/library/views.py:34-38 | a search and its lower-case form list the same books |
| CourseEnrollment.VisibleCourses | Shams-backend/apps/courses/views.py:44-48 | staff see every course, others exactly the active ones |
| CourseEnrollment.VisibleLessons | Shams-backend/apps/courses/views.py:91-95 | staff see every lesson, others exactly the lessons of active courses |
| CourseEnrollment.VisibleEnrollments | Shams-backend/apps/courses/views.py:199-203 | staff see every enrollment, others exactly their own |
| CourseEnrollment.LessonsFollowCourses | Shams-backend/apps/courses/views.py:44-48 | a user who is not staff sees a lesson exactly when they see its course (lines 91-95) |
| CourseEnrollment.Enroll | Shams-backend/apps/courses/views.py:51-66 | an invisible course is not found; a second enrollment is refused; otherwise one enrollment at 0 percent is added |
| CourseEnrollment.EnrollOnce | Shams-backend/apps/courses/views.py:53-66 | enrolling adds exactly one enrollment and enrolling again is refused |
| CourseEnrollment.UpdateProgress | Shams-backend/apps/courses/views.py:98-128 | an invisible lesson is not found; without an enrollment it is refused; omitted fields keep their values; only that record and that enrollment change; the percentage is the truncated share of completed lessons |
| CourseEnrollment.ProgressPercentMeaning | Shams-backend/apps/courses/views.py:116-123 | progress records stay tied to enrollments and their course's lessons; the percentage is at most 100 and is 100 exactly when every lesson of the course is completed |
| AssistantService.ContainsLowerWindow | Shams-backend/apps/assistant/services.py:54-67 | a phrase occurs in the lower-cased text exactly when some window of the text lower-cases to it |
| AssistantService.SpamIsCaseInsensitiveMatch | Shams-backend/apps/assistant/services.py:54-67 | a text is spam exactly when a window of it matches one of the five phrases ignoring case |
| AssistantService.SpamIgnoresCase | Shams-backend/apps/assistant/services.py:66-67 | a text and its lower-cased form get the same verdict |
| AssistantService.AsChat | Shams-backend/apps/assistant/services.py:18-23 | the sender "user" speaks as the user and any other sender as the assistant, with the text kept |
| AssistantService.Prompt | Shams-backend/apps/assistant/services.py:14-24 | the system message first, then the history in order: one message more than the history |
| AssistantService.OnlyFirstIsSystem | Shams-backend/apps/assistant/services.py:14-24 | only the first message has the system role |
| AssistantService.PromptAppend | Shams-backend/apps/assistant/services.py:14-24 | appending to the history appends its message to the prompt |
| AssistantService.ChargedUser | Shams-backend/apps/assistant/services.py:29-30 | nobody is charged without history or with the id 0; otherwise the first message's user |
| AssistantService.GetResponse | Shams-backend/apps/assistant/services.py:26-41 | a charged user with 20 requests that day is refused and the counter is untouched; otherwise it goes up by one for 24 hours; the messages are the prompt followed by the new input |
| AssistantService.AskShape | Shams-backend/apps/assistant/services.py:40-41 | the new input is the last message |
| AssistantService.AtMostTwentyADay | Shams-backend/apps/assistant/services.py:31-37 | over any sequence of requests handled one after another, each answer adds one to the day's counter, a counter at 20 answers none, and from below it answers up to 20 and no more |
| PaymentFlow.History | Shams-backend/apps/payments/views.py:112-117 | exactly the ids of the requesting user's payments are listed (lines 20-21), newest first as the -created_at ordering asks (models.py:40), without repeats |
| PaymentFlow.InitiateHeadsHistory | Shams-backend/apps/payments/views.py:32-117 | a payment just started heads its payer's history and leaves every other user's history unchanged |
| PaymentFlow.Initiate | Shams-backend/apps/payments/views.py:31-82 | another kind is refused before anything is written; a missing item is not found; then a request without a provider is refused by the not-null provider column (payments/models.py:31) and nothing is written; otherwise one pending payment for the item's price naming only that item is added, with one "initiate" log entry |
| PaymentFlow.InitiateKeepsWellFormed | Shams-backend/apps/payments/views.py:51-58 | every payment names exactly the item of its kind, and earlier payments are untouched |
| PaymentFlow.Verify | Shams-backend/apps/payments/views.py:84-110 | another user's payment is not found; otherwise only one "verify" log entry is added |
| PaymentFlow.Webhook | Shams-backend/apps/payments/views.py:119-174 | the log entry is always written; a payment that is not completed changes nothing else; a completed one enrolls the user or records a book download, adds an activity and queues a notification; the grant is refused, keeping only the log entry, exactly when the user is already enrolled or the payment names no course or book for its kind (courses/models.py:115, library/models.py:102) |
| PaymentFlow.StatusOnlyChangesOutside | Shams-backend/apps/payments/views.py:84-174 | neither verify nor the webhook changes any payment's status |
| PaymentFlow.OneLogEntryPerCall | Shams-backend/apps/payments/views.py:23-29 | verify and the webhook each add exactly one log entry tagged with their name |
| PaymentFlow.FreshPaymentGrantsNothing | Shams-backend/apps/payments/views.py:142-172 | a webhook on a just-initiated (pending) payment grants nothing and writes no activity or notification |
| NotificationInbox.Unread | Shams-backend/apps/notifications/views.py:14-15 | the ids of exactly the user's own unread notifications |
| NotificationInbox.UnreadCount | Shams-backend/apps/notifications/views.py:39-47 | the count is the number of the user's unread notifications |
| NotificationInbox.MarkAsRead | Shams-backend/apps/notifications/views.py:17-27 | another user's notification is not found; otherwise only that notification becomes read |
| NotificationInbox.MarkAsReadEffect | Shams-backend/apps/notifications/views.py:17-27 | marking removes exactly that id from the unread ones, and marking again changes nothing |
| NotificationInbox.MarkAllAsRead | Shams-backend/apps/notifications/views.py:29-37 | every notification of the user becomes read; others are untouched |
| NotificationInbox.MarkAllEffect | Shams-backend/apps/notifications/views.py:29-47 | afterwards the user has nothing unread, repeating changes nothing, and other users' unread sets stay |
| NotificationInbox.MarkOneThenAll | Shams-backend/apps/notifications/views.py:17-37 | marking one and then all ends where marking all does |
| UserAccounts.CreateUser | Shams-backend/apps/accounts/models.py:7-14 | an empty email is refused; a taken username or email is refused (lines 25-26); otherwise one user with the given fields and the defaults (not staff, not verified, not OAuth, active) is added |
| UserAccounts.CreateKeepsUnique | Shams-backend/apps/accounts/models.py:25-26 | creating keeps usernames and emails unique |
| UserAccounts.SetDefault | Shams-backend/apps/accounts/models.py:17-19 | afterwards the flag is always present and reads as the caller's value, or as true when the caller gave none, whatever default a later reader uses |
| UserAccounts.CreateSuperuser | Shams-backend/apps/accounts/models.py:16-20 | an empty email is refused and a taken username or email is refused, as for `create_user`; otherwise one user is added with the given email, username, password and full name, active and not OAuth, where staff, superuser and verified default to true while given values are kept |
| UserAccounts.CreateSuperuserKeepsUnique | Shams-backend/apps/accounts/models.py:16-20 | creating a superuser keeps usernames and emails unique |
| UserAccounts.FindByEmail | Shams-backend/apps/accounts/models.py:33 | a user is found exactly when some user has the email, and it has that email |
| UserAccounts.EmailIdentifiesUser | Shams-backend/apps/accounts/models.py:26-33 | with unique emails the email names exactly one user |
| UserAccounts.Register | Shams-backend/apps/accounts/serializers.py:22-44 | the field checks come first (required non-blank username of at most 150 characters and valid email, neither in use, both passwords, full name of at most 255); then differing passwords are refused; otherwise create_user stores the user from the form without the confirmation |
| UserAccounts.RegisteredUser | Shams-backend/apps/accounts/serializers.py:36-44 | a registered user has the confirmed password and is an unverified ordinary user |
| UserAccounts.RegisterKeepsUnique | Shams-backend/apps/accounts/serializers.py:22-44 | registration succeeds exactly for a form passing the field checks with matching passwords, and keeps usernames and emails unique (models.py:25-26) |
| UserAccounts.UpdateProfile | Shams-backend/apps/accounts/serializers.py:50-63 | a request is refused exactly when a given username is blank or longer than 150 characters, a given full name is longer than 255 (accounts/models.py:25, 30), or a PUT gives no username (accounts/views.py:382-388); then a username held by another user is refused; otherwise only the user's username and full name change, each only when given |
| UserAccounts.UpdateProfileKeepsUnique | Shams-backend/apps/accounts/serializers.py:59-63 | keeping one's own username is never refused as taken and is accepted when the fields validate, and an accepted update keeps usernames and emails unique |
| UserAccounts.ApplyUserSerializer | Shams-backend/apps/accounts/serializers.py:8-20 | as a patch applied by the serializer, the verified flag is read-only and only the given username, email and full name change |
| UserAccounts.UserSerializerPatches | Shams-backend/apps/accounts/serializers.py:8-20 | applying a patch twice is applying it once, and a patch naming no writable field leaves the user as stored |
| AccountTokens.SignUp | Shams-backend/apps/accounts/views.py:292-323 | a rejected registration stores nothing; a token already stored makes the token insert fail, but the user saved before it stays; otherwise the user and a verification token expiring 24 hours later are stored |
| AccountTokens.VerifyEmail | Shams-backend/apps/accounts/views.py:325-350 | a missing token is an error; an unknown or expired one is not found; a live one verifies its user and is deleted |
| AccountTokens.VerificationIsSingleUse | Shams-backend/apps/accounts/views.py:342-346 | after use the token is refused |
| AccountTokens.VerificationWindow | Shams-backend/apps/accounts/views.py:303-309 | a sign-up token verifies the new user exactly when used within 24 hours (lines 336-340) |
| AccountTokens.RequestReset | Shams-backend/apps/accounts/views.py:390-422 | an invalid email is refused first; an unknown email is not found; otherwise a reset token for that user expiring one hour later is stored |
| AccountTokens.ConfirmReset | Shams-backend/apps/accounts/views.py:424-447 | a missing token or password is refused first; then differing passwords; then an unknown or expired token; otherwise the token's user gets the new password and the token is deleted |
| AccountTokens.ResetWindowAndSingleUse | Shams-backend/apps/accounts/views.py:402-443 | a reset token works for a non-blank password exactly within the hour, then only once, and leaves the new password set |
| AccountTokens.UserLogin | Shams-backend/apps/accounts/views.py:352-380 | an invalid email or blank password is refused first; an unknown email is not found; a wrong password is refused before verification is looked at; an unverified user is refused; only a verified user with the right password signs in |
| AccountTokens.LoginDecision | Shams-backend/apps/accounts/views.py:360-372 | with unique emails sign-in with a valid email and a password succeeds exactly for the verified owner with the right password, and a wrong password gets the same answer verified or not |
| AccountTokens.AuthLogin | Shams-backend/apps/accounts/views.py:137-163 | wrong credentials are refused; a matching inactive user is refused; an active one signs in |
| AccountTokens.LoginViewsAgree | Shams-backend/apps/accounts/views.py:137-163 | the two login views (the other at lines 352-380) differ only in the account flag each checks: a login one refuses for its credentials the other refuses too, and a verified active account gets the same answer from both |
| AccountTokens.AuthVerifyEmail | Shams-backend/apps/accounts/views.py:269-290 | an empty code is an error; a code nobody holds is not found; a code held by several users fails; the single holder is activated and the code cleared |
| AccountTokens.EmailCodeIsSingleUse | Shams-backend/apps/accounts/views.py:280-283 | after activation the same code is not found |

## Left out

- React timers and effects. The timer is the explicit `QuizSession.Tick` step. In the page, the interval calls `handleFinishTest` through the closure of the first render (TestDetail.jsx:218), so a real timeout scores the initial all-empty answers. The model finishes from the current state and does not reproduce that capture.
- The localStorage hand-off between the quiz and results pages is an `Option` value passed along.
- The quiz page's progress bar is a float percentage and is not modelled.
- `QuizSession.RoundedPercentMeaning`: `Math.round` on a float quotient is modelled as exact rounding, with halves rounded up. It can differ from the float result where the quotient is not exact.
- `TestGrading.GradeSubmission`: `int(x / y * 100)` in Python floats is modelled as exact floor (`Common.TruncPercent`). It can be one lower for some inputs, e.g. 29/100. The same applies to `TestGrading.Submit`, `TestGrading.SubmitAsWritten` and `CourseEnrollment.UpdateProgress`.
- `TestGrading.SubmitAsWritten`: the view creates `TestResult` with `time_spent` and later writes `correct_answers`, `incorrect_answers` and `is_completed`. tests/models.py declares none of these fields, and `score` has no default. The model treats the result as having those fields and stores the computed values.
- `TestGrading.SubmitWith`: a pair without `question_id` or `option_id`, or an `answers` that is not a list of such pairs, fails with a server error in the view. The model takes the request as a list of id pairs.
- The shuffling of questions in the test views is not modelled.
- `TestGrading.GradeSubmission`: the 404 for an unknown test id and the result's `completed_at` timestamp are not modelled. The caller passes the test's questions. An answer value is taken by its text, as the choice field compares `str` of the value.
- `PaymentFlow.History`: `created_at` is set on creation, so newest first is taken as reverse ledger order. Two payments created within the same clock tick could come back in either order in the database; the model fixes one.
- `LibraryRules.FinalPrice` uses `real` for Django's `Decimal`. Decimal rounding to two places on save is not modelled.
- `LibraryRules.PurchaseBook`: for the same reason the stored `paid_amount` is the exact final price, not the value rounded to two places that library/models.py:71 stores.
- `LibraryRules.ListBooks`: library/models.py:8-60 declares no `is_active` field on `Book`, so `filter(is_active=True)` at library/views.py:24 raises a field error and the listing fails as written. The model gives books an `isActive` flag, which is the evident intent.
- `LibraryRules.DownloadOnce`: for the same reason the queryset of `BookViewSet` (library/views.py:157) fails, so as written the action never reaches its checks. The model uses the `isActive` flag as above.
- `LibraryRules.DownloadOnce`: `BookViewSet.download` creates the record without an ip address. library/models.py:104 declares that column NOT NULL, so the database would refuse it. The model records the download with an absent address.
- `PaymentFlow.Webhook`: for the same reason the webhook's book download (payments/views.py:152-156) would be refused by the database even when the payment names a book. The model records it in that case. The unique key (user, book, ip_address) of library/models.py:110 does not make a second download conflict, so none is modelled.
- `PaymentFlow.Initiate`: a course's price is read from `Course.price`, which courses/models.py does not declare, so a course payment fails as written. The model takes course prices as given, which is the evident intent.
- `PaymentFlow.Initiate`: a book payment uses `book.price`, not `final_price`, and the model follows the code. The payment providers' branches are empty and are not modelled. The payment id is the ledger position rather than a UUID.
- Payment status changes come from outside the views. `PaymentFlow.StatusOnlyChangesOutside` states this. Nothing in the model completes a payment.
- `CourseEnrollment.UpdateProgress`: each database write happens separately in the view, so a failure halfway could leave a partial write. The model is all-or-nothing.
- The `progress` action of `CourseViewSet` (courses/views.py:67-79) serialises data and is not modelled.
- The query-parameter filters of `CourseListView` and `LessonListView` are not modelled.
- The generic `LessonProgress*View` classes filter on a `user` field that `LessonProgress` lacks (courses/views.py:245-297). They are not modelled.
- `CourseEnrollment.Enroll`: the enrollment row's other defaults (dates, completion) are not modelled.
- `AccountTokens.AuthLogin`: Django's default `authenticate` already refuses inactive users. Under that backend the `Inactive` branch cannot be reached, and such a user gets invalid credentials instead. The model follows the view's own check.
- `AccountTokens.AuthVerifyEmail`: `email_verification_token` is not a field of the user model. The model keeps a per-user code table as the evident intent. Several holders stand for the lookup's `MultipleObjectsReturned` failure.
- `AuthViewSet.register`, `password_reset`, `password_reset_confirm`, `social_login` and `profile_update` are not modelled. They use serializers that accounts/serializers.py does not define (`RegisterSerializer`, `SocialLoginSerializer`, `ProfileUpdateSerializer`) or the `reset_password_token` field that the user model lacks, and `social_login` uses an undefined `email`. The token flow they describe is modelled through `UserRegisterView` and the reset views.
- accounts/views.py uses `permissions.AllowAny` without importing `permissions` (line 295). The views are modelled as if the import were present.
- `AccountTokens.AuthLogin`: `LoginSerializer` (accounts/views.py:139) is not defined in accounts/serializers.py. The import at accounts/views.py:7-22 also names `RegisterSerializer`, `SocialLoginSerializer` and `ProfileUpdateSerializer`, which are not defined either, so importing the module fails and none of its views can run. Every account view (`AccountTokens.SignUp`, `VerifyEmail`, `RequestReset`, `ConfirmReset`, `UserLogin`, `AuthLogin`, `AuthVerifyEmail`) is modelled as if the import succeeded. `AuthLogin` takes the email and password its serializer evidently validates, without field checks.
- `UserAccounts.ValidEmail`: only the 254-character limit and an `@` with text on both sides are modelled. The further rules of Django's email validator on the local part and the domain are not, so the model accepts some addresses Django refuses. DRF's trimming of surrounding whitespace in text fields is not modelled either: inputs are taken as already trimmed.
- `UserAccounts.UpdateProfile`: the avatar upload and its image validation are not modelled. Text fields are taken as already trimmed of surrounding whitespace.
- `UserAccounts.ApplyUserSerializer`: no view writes through `UserSerializer` (accounts/views.py:130, 155, 195, 257, 379, 475 and 504 only read it). A write would also run the unique validators on username and email and the email format check; the model states only the read-only flag and which fields a patch changes, not those refusals.
- `AssistantService.AtMostTwentyADay`: the counter is read (services.py:32) and written (services.py:37) as two separate cache calls. Two requests of the same user handled at the same time can both read 19 and both be answered, so the bound of 20 holds only for requests handled one after another. Concurrency is not modelled.
- `LibraryRules.PurchaseBook`: the card number is taken as already trimmed of surrounding whitespace, as DRF's `CharField` does before checking it. A form sent as something other than text is not modelled.
- Mail, JWT issuing, the cache backend, Celery tasks, the OpenAI call and `normalize_email` are left out. A successful login names the user whom tokens would be issued for. An accepted assistant request yields the messages that would be sent.
- Randomness is parameterised: token strings, the simulated payment outcome (Payments.jsx:219) and the assistant's random replies. A token string that is already stored is reported as a clash, not retried.
- `AssistantService.GetResponse`: the cache entry's expiry is recorded as a lifetime, 86400 seconds. Expiry itself is modelled by keying the counter by day.
- String handling covers ASCII only. Lower-casing affects only A-Z, and Unicode case folding is not modelled.
- Presentational code (styled components, layout, theme, dashboard, landing, login and register pages, profile demo form, assistant page) is not part of this model. Nor are URL tables, admin, migrations and the duplicate front-end auth clients.

## Findings

| source | as written | input that shows it | evidently intended | confidence | as-written member | corrected member |
|---|---|---|---|---|---|---|
| Shams-backend/apps/tests/views.py:62-84 | `submit` counts every submitted option marked correct, whichever question it belongs to and then sets incorrect = total − correct and score = int(correct / total · 100) | a test with one question q1; answers [(q1, right option of q1), (q2, right option of q2 from another test)] gives correct 2, incorrect −1, score 200. A question answered twice is refused by the unique answer constraint, so only answers to other tests' questions show the error. As written, the result row created at line 55 already names fields tests/models.py lacks; the counting error shows once those fields exist | count each of the test's own questions at most once, when a submitted option of that question is right, so that 0 ≤ correct ≤ total and the score lies in [0, 100] | not executed | TestGrading.SubmitAsWrittenExceedsHundred | TestGrading.Submit |
| Shams-front/src/pages/Payments.jsx:234-249 | the formatter returns a text with fewer than four digits unchanged, and the pay button (line 314) only asks for 19 characters | typing the 19 letters "xxxxxxxxxxxxxxxxxxx" with an amount enables the pay button with no digit in the card number | the button is enabled only for a full sixteen-digit card number | not executed | CardPayment.LettersEnablePay | CardPayment.FullPayNeedsSixteenDigits |

=== FILE: account_tokens.dfy ===
/** The account views: the expiring, single-use email-verification and
    password-reset tokens, and the two login decisions. Time is a number
    of seconds passed in by the caller; token strings, which the views
    draw at random, are parameters too. Mail and JWT issuing are not
    modelled: a successful login names the user tokens are issued for. */
module AccountTokens {
  import opened Common
  import opened UserAccounts

  const Hour := 3600
  const VerificationLifetime := 24 * Hour
  const ResetLifetime := Hour

  /** A stored token: whose it is and when it stops being accepted. */
  datatype Issued = Issued(user: nat, expiresAt: int)

  /** The user table, the two token tables (each keyed by its unique token
      string) and the per-user email code the older `AuthViewSet` views
      store on the user. */
  datatype Accounts = Accounts(
    users: seq<User>,
    verifyTokens: map<string, Issued>,
    resetTokens: map<string, Issued>,
    emailCodes: map<nat, string>)

  /** Every token belongs to an existing user. */
  predicate WellFormed(a: Accounts) {
    && (forall t :: t in a.verifyTokens ==> a.verifyTokens[t].user < |a.users|)
    && (forall t :: t in a.resetTokens ==> a.resetTokens[t].user < |a.users|)
  }

  /** A token that is stored and has not expired at `now`. */
  predicate Live(tokens: map<string, Issued>, token: string, now: int) {
    token in tokens && tokens[token].expiresAt > now
  }

  // ---------------------------------------------------------------------
  // Registration and email verification

  /** `TokenClash` is the unique-token insert failing after the user was
      saved: the view does not wrap its writes in a transaction, so the
      user stays. */
  datatype Signup = SignupRejected(reason: Registered) | TokenClash(accounts: Accounts) | SignedUp(accounts: Accounts, id: nat)

  /** `UserRegisterView.create`: register the user, then store a
      verification token that expires 24 hours later. */
  function SignUp(a: Accounts, form: Registration, token: string, now: int): (o: Signup)
    ensures var r := Register(a.users, form);
            && (o.SignupRejected? <==> !r.Registered?)
            && (o.TokenClash? <==> r.Registered? && token in a.verifyTokens)
            && (o.TokenClash? ==> o.accounts == a.(users := r.users))
            && (o.SignedUp? ==>
                  && o.accounts == a.(users := r.users, verifyTokens := a.verifyTokens[token := Issued(r.id, now + VerificationLifetime)])
                  && o.id == r.id)
  {
    match Register(a.users, form)
    case Registered(us, id) =>
      if token in a.verifyTokens then TokenClash(a.(users := us))
      else SignedUp(a.(users := us, verifyTokens := a.verifyTokens[token := Issued(id, now + VerificationLifetime)]), id)
    case other => SignupRejected(other)
  }

  datatype Verification = TokenRequired | NoSuchToken | Verified(accounts: Accounts, user: nat)

  /** `EmailVerificationView.get`: a missing token is an error; an unknown
      or expired one is not found; a live one marks its user verified and
      is deleted. */
  function VerifyEmail(a: Accounts, token: string, now: int): (o: Verification)
    requires WellFormed(a)
    ensures o.TokenRequired? <==> token == ""
    ensures o.NoSuchToken? <==> token != "" && !Live(a.verifyTokens, token, now)
    ensures o.Verified? ==>
              && o.user == a.verifyTokens[token].user
              && o.accounts == a.(users := a.users[o.user := a.users[o.user].(isVerified := true)],
                                  verifyTokens := a.verifyTokens - {token})
  {
    if token == "" then TokenRequired
    else if !Live(a.verifyTokens, token, now) then NoSuchToken
    else
      var u := a.verifyTokens[token].user;
      Verified(a.(users := a.users[u := a.users[u].(isVerified := true)], verifyTokens := a.verifyTokens - {token}), u)
  }

  /** Verification keeps the tables well formed, and a token works once:
      using it again is refused. */
  lemma VerificationIsSingleUse(a: Accounts, token: string, now: int, later: int)
    requires WellFormed(a)
    ensures var o := VerifyEmail(a, token, now);
            o.Verified? ==> WellFormed(o.accounts) && VerifyEmail(o.accounts, token, later).NoSuchToken?
  {
  }

  /** A token issued at sign-up verifies the new user exactly when it is
      used less than 24 hours later. */
  lemma VerificationWindow(a: Accounts, form: Registration, token: string, issuedAt: int, now: int)
    requires WellFormed(a) && token != ""
    ensures var s := SignUp(a, form, token, issuedAt);
            s.SignedUp? ==>
              && WellFormed(s.accounts)
              && (VerifyEmail(s.accounts, token, now).Verified? <==> now < issuedAt + VerificationLifetime)
              && (VerifyEmail(s.accounts, token, now).Verified? ==>
                    VerifyEmail(s.accounts, token, now).user == s.id &&
                    VerifyEmail(s.accounts, token, now).accounts.users[s.id].isVerified)
  {
  }

  // ---------------------------------------------------------------------
  // Password reset

  datatype ResetRequest = ResetEmailInvalid | UnknownEmail | ResetClash | ResetIssued(accounts: Accounts, user: nat)

  /** `PasswordResetView.post`: the email must be valid; for a known email,
      store a reset token that expires one hour later. */
  function RequestReset(a: Accounts, email: string, token: string, now: int): (o: ResetRequest)
    ensures o.ResetEmailInvalid? <==> !ValidEmail(email)
    ensures o.UnknownEmail? <==> ValidEmail(email) && !EmailTaken(a.users, email)
    ensures o.ResetClash? <==> ValidEmail(email) && EmailTaken(a.users, email) && token in a.resetTokens
    ensures o.ResetIssued? ==>
              && o.user < |a.users| && a.users[o.user].email == email
              && o.accounts == a.(resetTokens := a.resetTokens[token := Issued(o.user, now + ResetLifetime)])
  {
    if !ValidEmail(email) then ResetEmailInvalid
    else
      match FindByEmail(a.users, email)
      case None => UnknownEmail
      case Some(u) =>
        if token in a.resetTokens then ResetClash
        else ResetIssued(a.(resetTokens := a.resetTokens[token := Issued(u, now + ResetLifetime)]), u)
  }

  datatype ResetConfirmation = ResetFieldInvalid | ResetPasswordsDiffer | ResetNotFound | PasswordChanged(accounts: Accounts, user: nat)

  /** `PasswordResetConfirmView.post`: the token and both passwords are
      required, the two passwords must match and the token must be live;
      then the token's user gets the new password and the token is
      deleted. */
  function ConfirmReset(a: Accounts, token: string, password: string, passwordConfirm: string, now: int): (o: ResetConfirmation)
    requires WellFormed(a)
    ensures o.ResetFieldInvalid? <==> !ResetFieldsPresent(token, password, passwordConfirm)
    ensures o.ResetPasswordsDiffer? <==> ResetFieldsPresent(token, password, passwordConfirm) && !ResetFormValid(password, passwordConfirm)
    ensures o.ResetNotFound? <==>
              ResetFieldsPresent(token, password, passwordConfirm) && ResetFormValid(password, passwordConfirm) && !Live(a.resetTokens, token, now)
    ensures o.PasswordChanged? ==>
              && o.user == a.resetTokens[token].user
              && o.accounts == a.(users := a.users[o.user := a.users[o.user].(password := Some(password))],
                                  resetTokens := a.resetTokens - {token})
  {
    if !ResetFieldsPresent(token, password, passwordConfirm) then ResetFieldInvalid
    else if !ResetFormValid(password, passwordConfirm) then ResetPasswordsDiffer
    else if !Live(a.resetTokens, token, now) then ResetNotFound
    else
      var u := a.resetTokens[token].user;
      PasswordChanged(a.(users := a.users[u := a.users[u].(password := Some(password))], resetTokens := a.resetTokens - {token}), u)
  }

  /** A reset token works once, and only within the hour after it was
      requested, for a non-blank password; afterwards the user's password
      is the new one. */
  lemma ResetWindowAndSingleUse(a: Accounts, email: string, token: string, issuedAt: int,
                                password: string, now: int, later: int)
    requires WellFormed(a) && Unique(a.users)
    ensures var r := RequestReset(a, email, token, issuedAt);
            r.ResetIssued? ==>
              && WellFormed(r.accounts)
              && (ConfirmReset(r.accounts, token, password, password, now).PasswordChanged? <==>
                    token != "" && password != "" && now < issuedAt + ResetLifetime)
              && (ConfirmReset(r.accounts, token, password, password, now).PasswordChanged? ==>
                    var c := ConfirmReset(r.accounts, token, password, password, now);
                    && WellFormed(c.accounts)
                    && ConfirmReset(c.accounts, token, password, password, later).ResetNotFound?
                    && c.accounts.users[r.user].password == Some(password))
  {
  }

  // ---------------------------------------------------------------------
  // Login

  /** `check_password`: an unusable password matches nothing. */
  predicate PasswordMatches(u: User, password: string) {
    u.password == Some(password)
  }

  datatype Login = LoginFieldInvalid | LoginUnknownEmail | InvalidCredentials | NotVerified | Inactive | SignedIn(user: nat)

  /** `UserLoginView.post`: a valid email and a password are required; the
      email must name a user (else not found); the password is checked
      first, and only then verification. */
  function UserLogin(a: Accounts, email: string, password: string): (o: Login)
    ensures o.LoginFieldInvalid? <==> !LoginFieldsValid(email, password)
    ensures o.LoginUnknownEmail? <==> LoginFieldsValid(email, password) && !EmailTaken(a.users, email)
    ensures !o.LoginFieldInvalid? && !o.LoginUnknownEmail? ==>
              var u := FindByEmail(a.users, email).value;
              && (o.InvalidCredentials? <==> !PasswordMatches(a.users[u], password))
              && (o.NotVerified? <==> PasswordMatches(a.users[u], password) && !a.users[u].isVerified)
              && (o.SignedIn? <==> PasswordMatches(a.users[u], password) && a.users[u].isVerified)
              && (o.SignedIn? ==> o.user == u)
    ensures !o.Inactive?
  {
    if !LoginFieldsValid(email, password) then LoginFieldInvalid
    else
      match FindByEmail(a.users, email)
      case None => LoginUnknownEmail
      case Some(u) =>
        if !PasswordMatches(a.users[u], password) then InvalidCredentials
        else if !a.users[u].isVerified then NotVerified
        else SignedIn(u)
  }

  /** With unique emails, signing in with a valid email and a password
      succeeds exactly for the verified owner of the email with the right
      password, and a wrong password gets the same answer whether or not
      the account is verified. */
  lemma LoginDecision(a: Accounts, email: string, password: string, i: nat)
    requires Unique(a.users)
    requires i < |a.users| && a.users[i].email == email
    ensures UserLogin(a, email, password) == SignedIn(i) <==>
              LoginFieldsValid(email, password) && PasswordMatches(a.users[i], password) && a.users[i].isVerified
    ensures !PasswordMatches(a.users[i], password) ==>
              UserLogin(a, email, password) == UserLogin(a.(users := a.users[i := a.users[i].(isVerified := !a.users[i].isVerified)]), email, password)
  {
    EmailIdentifiesUser(a.users, email, i);
    var flipped := a.users[i := a.users[i].(isVerified := !a.users[i].isVerified)];
    assert forall j :: 0 <= j < |flipped| ==> flipped[j].email == a.users[j].email;
    assert Unique(flipped);
    EmailIdentifiesUser(flipped, email, i);
  }

  /** `AuthViewSet.login`: credentials are checked by email and password;
      a matching but inactive user is refused. */
  function AuthLogin(a: Accounts, email: string, password: string): (o: Login)
    ensures o.InvalidCredentials? <==> !(EmailTaken(a.users, email) && PasswordMatches(a.users[FindByEmail(a.users, email).value], password))
    ensures !o.InvalidCredentials? ==>
              var u := FindByEmail(a.users, email).value;
              && (o.Inactive? <==> !a.users[u].isActive)
              && (o.SignedIn? <==> a.users[u].isActive)
              && (o.SignedIn? ==> o.user == u)
    ensures !o.LoginFieldInvalid? && !o.LoginUnknownEmail? && !o.NotVerified?
  {
    match FindByEmail(a.users, email)
    case None => InvalidCredentials
    case Some(u) =>
      if !PasswordMatches(a.users[u], password) then InvalidCredentials
      else if !a.users[u].isActive then Inactive
      else SignedIn(u)
  }

  /** The two login views agree except on the account flags each one
      checks: `UserLoginView` refuses an unverified account and
      `AuthViewSet.login` an inactive one, and a login either view refuses
      for its credentials the other refuses too. */
  lemma LoginViewsAgree(a: Accounts, email: string, password: string)
    ensures UserLogin(a, email, password).SignedIn? && a.users[UserLogin(a, email, password).user].isActive ==>
              AuthLogin(a, email, password) == UserLogin(a, email, password)
    ensures LoginFieldsValid(email, password) && AuthLogin(a, email, password).SignedIn?
              && a.users[AuthLogin(a, email, password).user].isVerified ==>
              UserLogin(a, email, password) == AuthLogin(a, email, password)
    ensures (UserLogin(a, email, password).LoginUnknownEmail? || UserLogin(a, email, password).InvalidCredentials?) <==>
              LoginFieldsValid(email, password) && AuthLogin(a, email, password).InvalidCredentials?
  {
  }

  datatype CodeCheck = CodeRequired | CodeNotFound | CodeAmbiguous | Activated(accounts: Accounts, user: nat)

  /** The users holding an email code. */
  function Holders(a: Accounts, code: string): set<nat> {
    set u | u in a.emailCodes && a.emailCodes[u] == code
  }

  /** `AuthViewSet.verify_email`: an empty code is an error; the code must
      be held by exactly one user (none is not found, several make the
      lookup fail); that user is activated and the code is cleared. */
  function AuthVerifyEmail(a: Accounts, code: string): (o: CodeCheck)
    ensures o.CodeRequired? <==> code == ""
    ensures o.CodeNotFound? <==> code != "" && Holders(a, code) == {}
    ensures o.CodeAmbiguous? <==> code != "" && |Holders(a, code)| > 1
    ensures o.Activated? ==>
              && Holders(a, code) == {o.user}
              && o.accounts.emailCodes == a.emailCodes[o.user := ""]
              && (o.user < |a.users| ==> o.accounts.users == a.users[o.user := a.users[o.user].(isActive := true)])
  {
    if code == "" then CodeRequired
    else
      var holders := Holders(a, code);
      if holders == {} then CodeNotFound
      else if |holders| > 1 then CodeAmbiguous
      else
        var u :| u in holders;
        assert holders == {u} by {
          forall v | v in holders ensures v == u {
            if v != u {
              assert {u, v} <= holders;
              SubsetCardinality({u, v}, holders);
            }
          }
        }
        var users := if u < |a.users| then a.users[u := a.users[u].(isActive := true)] else a.users;
        Activated(a.(users := users, emailCodes := a.emailCodes[u := ""]), u)
  }

  /** An email code works once: after activation the same code is not
      found. */
  lemma EmailCodeIsSingleUse(a: Accounts, code: string)
    ensures var o := AuthVerifyEmail(a, code);
            o.Activated? ==> AuthVerifyEmail(o.accounts, code).CodeNotFound?
  {
    var o := AuthVerifyEmail(a, code);
    if o.Activated? {
      forall v | v in o.accounts.emailCodes
        ensures o.accounts.emailCodes[v] != code
      {
        if v != o.user {
          assert v !in Holders(a, code);
        }
      }
      assert Holders(o.accounts, code) == {};
    }
  }
}

=== FILE: assistant_service.dfy ===
/** The AI assistant service: spam-phrase detection, the per-user daily
    request counter and the assembly of the chat prompt. The language
    model call itself is not modelled: an accepted request yields the
    messages that would be sent. */
module AssistantService {
  import opened Common

  // ---------------------------------------------------------------------
  // Spam detection

  /** The fixed phrases, all lower case. */
  const SpamPhrases: seq<string> := ["buy now", "click here", "free money", "lottery", "winner"]

  /** `detect_spam`: the lower-cased text contains one of the phrases. */
  predicate DetectSpam(text: string) {
    exists i :: 0 <= i < |SpamPhrases| && Contains(Lower(text), SpamPhrases[i])
  }

  /** Lower-casing commutes with taking a slice. */
  lemma LowerSlice(t: string, i: int, j: int)
    requires 0 <= i <= j <= |t|
    ensures Lower(t)[i..j] == Lower(t[i..j])
  {
  }

  /** The window of `t` at `i`, lower-cased, is `sub`. */
  predicate MatchesAt(t: string, sub: string, i: int) {
    0 <= i && i + |sub| <= |t| && Lower(t[i..i + |sub|]) == sub
  }

  /** `Contains` as a window search: `sub` occurs in the lower-cased text
      exactly when some window of the original text lower-cases to it. */
  lemma ContainsLowerWindow(t: string, sub: string)
    ensures Contains(Lower(t), sub) <==> exists i :: MatchesAt(t, sub, i)
  {
    if Contains(Lower(t), sub) {
      var i :| 0 <= i <= |Lower(t)| && OccursAt(Lower(t), sub, i);
      LowerSlice(t, i, i + |sub|);
      assert MatchesAt(t, sub, i);
    }
    if exists i :: MatchesAt(t, sub, i) {
      var i :| MatchesAt(t, sub, i);
      LowerSlice(t, i, i + |sub|);
      assert OccursAt(Lower(t), sub, i);
    }
  }

  /** A text is spam exactly when one of its windows, ignoring ASCII case,
      is one of the phrases. */
  lemma SpamIsCaseInsensitiveMatch(text: string)
    ensures DetectSpam(text) <==>
              exists k, i :: 0 <= k < |SpamPhrases| && MatchesAt(text, SpamPhrases[k], i)
  {
    forall k | 0 <= k < |SpamPhrases| {
      ContainsLowerWindow(text, SpamPhrases[k]);
    }
  }

  /** Lower-casing the text first does not change the verdict. */
  lemma SpamIgnoresCase(text: string)
    ensures DetectSpam(Lower(text)) == DetectSpam(text)
  {
    LowerIdempotent(text);
  }

  /** A shouted phrase is still caught; ordinary text is not. */
  lemma SpamExamples()
    ensures DetectSpam("You are a WINNER")
    ensures !DetectSpam("")
  {
    assert Lower("You are a WINNER")[10..16] == "winner";
    assert OccursAt(Lower("You are a WINNER"), SpamPhrases[4], 10);
  }

  // ---------------------------------------------------------------------
  // Prompt assembly

  datatype Role = System | User | Assistant

  datatype ChatMessage = ChatMessage(role: Role, content: string)

  /** A stored conversation message; `owner` is the id of the
      conversation's user. */
  datatype HistoryMessage = HistoryMessage(sender: string, text: string, owner: nat)

  const SystemPrompt := "You are a helpful AI assistant."

  /** A stored message as the model sees it: the sender "user" speaks as
      the user, every other sender as the assistant. */
  function AsChat(m: HistoryMessage): (c: ChatMessage)
    ensures c.content == m.text
    ensures c.role == User <==> m.sender == "user"
    ensures c.role != System
  {
    ChatMessage(if m.sender == "user" then User else Assistant, m.text)
  }

  /** `_generate_prompt`: the system message, then the history in order. */
  function Prompt(history: seq<HistoryMessage>): (ms: seq<ChatMessage>)
    ensures |ms| == |history| + 1
    ensures ms[0] == ChatMessage(System, SystemPrompt)
    ensures forall i :: 0 <= i < |history| ==> ms[i + 1] == AsChat(history[i])
  {
    [ChatMessage(System, SystemPrompt)] + seq(|history|, i requires 0 <= i < |history| => AsChat(history[i]))
  }

  /** The system message is the only one with the system role. */
  lemma OnlyFirstIsSystem(history: seq<HistoryMessage>, i: int)
    requires 0 <= i < |Prompt(history)|
    ensures Prompt(history)[i].role == System <==> i == 0
  {
    if i > 0 {
      assert Prompt(history)[i] == AsChat(history[i - 1]);
    }
  }

  /** Appending to the history appends to the prompt. */
  lemma PromptAppend(history: seq<HistoryMessage>, m: HistoryMessage)
    ensures Prompt(history + [m]) == Prompt(history) + [AsChat(m)]
  {
    var a := Prompt(history + [m]);
    var b := Prompt(history) + [AsChat(m)];
    assert |a| == |b|;
    forall i | 0 <= i < |a| ensures a[i] == b[i] {
      if 0 < i < |a| - 1 {
        assert (history + [m])[i - 1] == history[i - 1];
      }
    }
  }

  // ---------------------------------------------------------------------
  // Daily rate limit

  const DailyLimit := 20
  const DaySeconds := 86400

  /** The counter cache: one entry per user and day, with its lifetime in
      seconds. */
  datatype RateKey = RateKey(user: nat, day: nat)
  datatype Counter = Counter(count: nat, ttl: nat)
  type Cache = map<RateKey, Counter>

  function CountOf(c: Cache, k: RateKey): nat {
    if k in c then c[k].count else 0
  }

  /** The user the limit is charged to: the owner of the first history
      message. Without history, or with the falsy id 0, nobody is charged. */
  function ChargedUser(history: seq<HistoryMessage>): (u: Option<nat>)
    ensures u.Some? <==> |history| > 0 && history[0].owner != 0
    ensures u.Some? ==> u.value == history[0].owner
  {
    if |history| > 0 && history[0].owner != 0 then Some(history[0].owner) else None
  }

  datatype Reply = LimitExceeded | Ask(cache: Cache, messages: seq<ChatMessage>)

  /** `get_response` up to the model call, on day `today`: a charged user
      with 20 or more requests that day is refused and the counter is left
      alone; otherwise the counter goes up by one for another 24 hours, and
      the prompt is the history's followed by the new input. */
  function GetResponse(c: Cache, today: nat, input: string, history: seq<HistoryMessage>): (r: Reply)
    ensures ChargedUser(history).None? ==> r == Ask(c, Prompt(history) + [ChatMessage(User, input)])
    ensures ChargedUser(history).Some? ==>
              var k := RateKey(ChargedUser(history).value, today);
              && (r.LimitExceeded? <==> CountOf(c, k) >= DailyLimit)
              && (r.Ask? ==> r.cache == c[k := Counter(CountOf(c, k) + 1, DaySeconds)])
    ensures r.Ask? ==> r.messages == Prompt(history) + [ChatMessage(User, input)]
  {
    var ms := Prompt(history) + [ChatMessage(User, input)];
    match ChargedUser(history)
    case None => Ask(c, ms)
    case Some(u) =>
      var k := RateKey(u, today);
      if CountOf(c, k) >= DailyLimit then LimitExceeded
      else Ask(c[k := Counter(CountOf(c, k) + 1, DaySeconds)], ms)
  }

  /** The prompt sent has one message more than the history plus the
      system message, and ends with the new input. */
  lemma AskShape(c: Cache, today: nat, input: string, history: seq<HistoryMessage>)
    ensures var r := GetResponse(c, today, input, history);
            r.Ask? ==> |r.messages| == |history| + 2 && r.messages[|history| + 1] == ChatMessage(User, input)
  {
  }

  /** `n` requests in a row from the same history on the same day: how
      many are answered, and the cache afterwards. */
  function Requests(c: Cache, today: nat, input: string, history: seq<HistoryMessage>, n: nat): (res: (nat, Cache))
    ensures res.0 <= n
    decreases n
  {
    if n == 0 then (0, c)
    else
      match GetResponse(c, today, input, history)
      case LimitExceeded => Requests(c, today, input, history, n - 1)
      case Ask(c', _) =>
        var (served, after) := Requests(c', today, input, history, n - 1);
        (served + 1, after)
  }

  /** A charged user is answered at most 20 times a day, however many
      requests arrive: each answer raises the day's counter by one and the
      counter never passes the limit. */
  lemma {:induction false} AtMostTwentyADay(c: Cache, today: nat, input: string, history: seq<HistoryMessage>, n: nat)
    requires ChargedUser(history).Some?
    ensures var k := RateKey(ChargedUser(history).value, today);
            var res := Requests(c, today, input, history, n);
            && CountOf(res.1, k) == CountOf(c, k) + res.0
            && (CountOf(c, k) >= DailyLimit ==> res.0 == 0)
            && (CountOf(c, k) < DailyLimit ==> CountOf(res.1, k) <= DailyLimit)
            && (CountOf(c, k) <= DailyLimit && n >= DailyLimit - CountOf(c, k) ==> res.0 == DailyLimit - CountOf(c, k))
    decreases n
  {
    var k := RateKey(ChargedUser(history).value, today);
    if n > 0 {
      match GetResponse(c, today, input, history)
      case LimitExceeded =>
        AtMostTwentyADay(c, today, input, history, n - 1);
      case Ask(c', _) =>
        assert CountOf(c', k) == CountOf(c, k) + 1;
        AtMostTwentyADay(c', today, input, history, n - 1);
    }
  }
}

=== FILE: book_reader.dfy ===
/** The book page and its reader: the price line, the reader's font-size
    stepper, font and night-mode toggles, and the light markdown that turns
    the book's text into headings, lists and paragraphs. */
module BookReader {
  import opened Common
  import LibraryPage

  // ---------------------------------------------------------------------
  // Price line

  /** What the price line shows. */
  datatype PriceLine =
    | FreeLabel                                   // "Bepul"
    | StruckThrough(original: string, offer: string)
    | PlainPrice(original: string)

  /** Free books say so; discounted books show the original price struck
      through beside the offer; other books show their price. */
  function PriceLineOf(b: ShelfBook): (p: PriceLine)
    ensures p.FreeLabel? <==> b.category == "free"
    ensures p.StruckThrough? <==> b.category != "free" && b.discounted
    ensures p.StruckThrough? ==> p == StruckThrough(b.price, b.discountPrice)
    ensures p.PlainPrice? ==> p == PlainPrice(b.price)
  {
    if b.category == "free" then FreeLabel
    else if b.discounted then StruckThrough(b.price, b.discountPrice)
    else PlainPrice(b.price)
  }

  /** The book page and the catalogue card agree: the price line says
      free exactly when the card's tag does, the struck-through line
      exactly when the card shows an offer, with the same offer price, and
      the plain price exactly when the card shows the padlock, with the
      same price. */
  lemma PriceLineMatchesCardTag(b: ShelfBook)
    ensures PriceLineOf(b).FreeLabel? <==> LibraryPage.TagOf(b) == LibraryPage.FreeTag
    ensures PriceLineOf(b).StruckThrough? <==> LibraryPage.TagOf(b).OfferTag?
    ensures PriceLineOf(b).StruckThrough? ==> PriceLineOf(b).offer == LibraryPage.TagOf(b).price
    ensures PriceLineOf(b).PlainPrice? <==> LibraryPage.TagOf(b).LockedTag?
    ensures PriceLineOf(b).PlainPrice? ==> PriceLineOf(b).original == LibraryPage.TagOf(b).price
  {
  }

  // ---------------------------------------------------------------------
  // Reader controls

  const Poppins := "'Poppins', sans-serif"
  const TimesNewRoman := "'Times New Roman', serif"

  /** The reader's settings. */
  datatype Reader = Reader(open: bool, night: bool, fontSize: int, fontFamily: string)

  /** Closed, in day mode, 16px Poppins. */
  const InitialReader := Reader(false, false, 16, Poppins)

  /** The sizes the stepper can reach: even sizes from 12 to 24. */
  predicate FontSizeOk(size: int) {
    12 <= size <= 24 && size % 2 == 0
  }

  /** One step up, unless already at 24 or above: a step moves by at
      most two and keeps the parity, is a no-op exactly at the top, and
      keeps a reachable size reachable. */
  function Larger(size: int): (r: int)
    ensures size <= r <= size + 2 && r % 2 == size % 2
    ensures r == size <==> 24 <= size
    ensures FontSizeOk(size) ==> FontSizeOk(r)
  {
    if size < 24 then size + 2 else size
  }

  /** One step down, unless already at 12 or below: the mirror image. */
  function Smaller(size: int): (r: int)
    ensures size - 2 <= r <= size && r % 2 == size % 2
    ensures r == size <==> size <= 12
    ensures FontSizeOk(size) ==> FontSizeOk(r)
  {
    if size > 12 then size - 2 else size
  }

  /** Both steps keep a reachable size reachable. */
  lemma StepsKeepFontSizeOk(size: int)
    requires FontSizeOk(size)
    ensures FontSizeOk(Larger(size)) && FontSizeOk(Smaller(size))
  {
  }

  /** The buttons are disabled exactly at the ends, where their step would
      do nothing; inside the range a step up is undone by a step down. */
  lemma DisabledAtTheEnds(size: int)
    requires FontSizeOk(size)
    ensures Larger(size) == size <==> size >= 24
    ensures Smaller(size) == size <==> size <= 12
    ensures size < 24 ==> Smaller(Larger(size)) == size
    ensures size > 12 ==> Larger(Smaller(size)) == size
  {
  }

  datatype FontStep = Bigger | Tinier

  /** The size after a run of presses. */
  function Press(size: int, steps: seq<FontStep>): (r: int)
    requires FontSizeOk(size)
    ensures FontSizeOk(r)
    decreases |steps|
  {
    if |steps| == 0 then size
    else
      var next := if steps[0] == Bigger then Larger(size) else Smaller(size);
      StepsKeepFontSizeOk(size);
      Press(next, steps[1..])
  }

  /** From any reachable size, enough presses up reach the largest size
      and stay there. */
  lemma {:induction false} PressesReachTop(size: int, k: nat)
    requires FontSizeOk(size) && 24 - size <= 2 * k
    ensures Press(size, seq(k, _ => Bigger)) == 24
    decreases k
  {
    var steps := seq(k, _ => Bigger);
    if k > 0 {
      StepsKeepFontSizeOk(size);
      assert steps[1..] == seq(k - 1, _ => Bigger);
      PressesReachTop(Larger(size), k - 1);
    }
  }

  /** Swaps between the two fonts; anything else becomes Poppins. */
  function ToggleFont(f: string): (g: string)
    ensures g == Poppins || g == TimesNewRoman
    ensures g != f || (f != Poppins && f != TimesNewRoman)
  {
    if f == Poppins then TimesNewRoman else Poppins
  }

  /** Toggling twice restores either font. */
  lemma ToggleFontTwice(f: string)
    requires f == Poppins || f == TimesNewRoman
    ensures ToggleFont(ToggleFont(f)) == f
  {
  }

  function ToggleReader(r: Reader): (s: Reader)
    ensures s.open == !r.open
    ensures s.(open := r.open) == r
  {
    r.(open := !r.open)
  }

  function ToggleNight(r: Reader): (s: Reader)
    ensures s.night == !r.night
    ensures s.(night := r.night) == r
  {
    r.(night := !r.night)
  }

  /** Every toggle undoes itself, and the font stays one of the two. */
  lemma TogglesAreInvolutions(r: Reader)
    requires r.fontFamily == Poppins || r.fontFamily == TimesNewRoman
    ensures ToggleReader(ToggleReader(r)) == r
    ensures ToggleNight(ToggleNight(r)) == r
    ensures r.(fontFamily := ToggleFont(ToggleFont(r.fontFamily))) == r
  {
    ToggleFontTwice(r.fontFamily);
  }

  // ---------------------------------------------------------------------
  // Splitting text

  predicate Free(t: string, sep: string) {
    forall i :: 0 <= i <= |t| ==> !OccursAt(t, sep, i)
  }

  /** JavaScript's `split` on a non-empty separator: scanning from the
      left, every occurrence cuts the text and is dropped. */
  function Split(s: string, sep: string): (r: seq<string>)
    requires 1 <= |sep|
    ensures 1 <= |r| && r[0] <= s
    decreases |s|
  {
    if |s| < |sep| then [s]
    else if s[..|sep|] == sep then [""] + Split(s[|sep|..], sep)
    else
      var rest := Split(s[1..], sep);
      [[s[0]] + rest[0]] + rest[1..]
  }

  /** JavaScript's `join`. */
  function Join(pieces: seq<string>, sep: string): string
    requires 1 <= |pieces|
    decreases |pieces|
  {
    if |pieces| == 1 then pieces[0] else pieces[0] + sep + Join(pieces[1..], sep)
  }

  /** Prefixing the first piece with a character prefixes the joined text. */
  lemma JoinConsFirst(c: char, pieces: seq<string>, sep: string)
    requires 1 <= |pieces|
    ensures Join([[c] + pieces[0]] + pieces[1..], sep) == [c] + Join(pieces, sep)
  {
    var q := [[c] + pieces[0]] + pieces[1..];
    if |pieces| > 1 {
      assert q[1..] == pieces[1..];
    }
  }

  /** Joining the pieces with the separator gives the text back. */
  lemma {:induction false} SplitJoin(s: string, sep: string)
    requires 1 <= |sep|
    ensures Join(Split(s, sep), sep) == s
    decreases |s|
  {
    if |s| < |sep| {
    } else if s[..|sep|] == sep {
      var rest := Split(s[|sep|..], sep);
      assert Split(s, sep) == [""] + rest;
      assert ([""] + rest)[1..] == rest;
      SplitJoin(s[|sep|..], sep);
      assert s == sep + s[|sep|..];
    } else {
      var rest := Split(s[1..], sep);
      assert Split(s, sep) == [[s[0]] + rest[0]] + rest[1..];
      SplitJoin(s[1..], sep);
      JoinConsFirst(s[0], rest, sep);
      assert s == [s[0]] + s[1..];
    }
  }

  /** No piece contains the separator: every occurrence was cut. */
  lemma {:induction false} SplitPiecesAreFree(s: string, sep: string)
    requires 1 <= |sep|
    ensures forall k :: 0 <= k < |Split(s, sep)| ==> Free(Split(s, sep)[k], sep)
    decreases |s|
  {
    var r := Split(s, sep);
    if |s| < |sep| {
      forall i | 0 <= i <= |s|
        ensures !OccursAt(s, sep, i)
      {
      }
    } else if s[..|sep|] == sep {
      SplitPiecesAreFree(s[|sep|..], sep);
      assert r[1..] == Split(s[|sep|..], sep);
      assert forall k :: 1 <= k < |r| ==> r[k] == r[1..][k - 1];
    } else {
      var rest := Split(s[1..], sep);
      SplitPiecesAreFree(s[1..], sep);
      var head := [s[0]] + rest[0];
      assert r == [head] + rest[1..];
      assert head <= s;
      forall i | 0 <= i <= |head|
        ensures !OccursAt(head, sep, i)
      {
        if i == 0 {
          if |sep| <= |head| {
            assert head[..|sep|] == s[..|sep|];
          }
        } else {
          if OccursAt(head, sep, i) {
            assert head[i..i + |sep|] == rest[0][i - 1..i - 1 + |sep|];
            assert OccursAt(rest[0], sep, i - 1);
          }
        }
      }
      assert forall k :: 1 <= k < |r| ==> r[k] == rest[k];
    }
  }

  // ---------------------------------------------------------------------
  // Paragraph kinds

  /** What a paragraph renders as. */
  datatype Block =
    | H2(text: string)
    | H3(text: string)
    | H4(text: string)
    | Bullets(items: seq<string>)
    | Numbered(items: seq<string>)
    | Paragraph(text: string)

  predicate StartsWith(s: string, prefix: string) {
    |prefix| <= |s| && s[..|prefix|] == prefix
  }

  /** JavaScript's `substring(k)`: empty once `k` passes the end. */
  function DropFirst(s: string, k: nat): (t: string)
    ensures k <= |s| ==> s == s[..k] + t
    ensures |s| < k ==> t == ""
  {
    if k <= |s| then s[k..] else ""
  }

  /** `s` starts with `k` digits followed by `. `: the pattern `^\d+\. `
      matched with `k` digits. */
  predicate MarkerAt(s: string, k: nat) {
    1 <= k && k + 2 <= |s| && AllDigits(s[..k]) && s[k] == '.' && s[k + 1] == ' '
  }

  /** The length of the `^\d+\. ` match at the start of `s`, if any: the
      pattern matches exactly when some digit run followed by `. ` starts
      the text, and then it ends right after that run's `. `. */
  function NumberMarker(s: string): (m: Option<nat>)
    ensures m.Some? ==> 3 <= m.value && MarkerAt(s, m.value - 2)
    ensures m.None? <==> forall k: nat :: !MarkerAt(s, k)
  {
    var n := LeadingDigits(s);
    if 1 <= n && n + 2 <= |s| && s[n] == '.' && s[n + 1] == ' ' then
      assert AllDigits(s[..n]) by {
        assert forall i :: 0 <= i < n ==> s[..n][i] == s[i];
      }
      assert MarkerAt(s, n);
      Some(n + 2)
    else
      assert forall k: nat :: !MarkerAt(s, k) by {
        forall k: nat | MarkerAt(s, k)
          ensures false
        {
          MarkerIsTheDigitRun(s, k);
        }
      }
      None
  }

  /** A marker's digits are the whole leading digit run. */
  lemma MarkerIsTheDigitRun(s: string, k: nat)
    requires MarkerAt(s, k)
    ensures LeadingDigits(s) == k
  {
    assert s == s[..k] + s[k..];
    LeadingDigitsOfRun(s[..k], s[k..]);
  }

  /** `replace(/^\d+\. /, '')`. */
  function StripNumber(item: string): (t: string)
    ensures NumberMarker(item).Some? ==> item == item[..NumberMarker(item).value] + t
    ensures NumberMarker(item).None? ==> t == item
  {
    match NumberMarker(item)
    case Some(k) => item[k..]
    case None => item
  }

  /** The first matching rule decides: `# `, `## `, `### `, `- `, a
      leading number with a dot, or a plain paragraph. A heading keeps the
      text after its marker; list items are the lines, each with its marker
      removed. */
  function Classify(p: string): (b: Block)
    ensures b.H2? <==> StartsWith(p, "# ")
    ensures b.H3? <==> StartsWith(p, "## ")
    ensures b.H4? <==> StartsWith(p, "### ")
    ensures b.Bullets? <==> StartsWith(p, "- ")
    ensures b.Numbered? <==> NumberMarker(p).Some?
    ensures b.H2? ==> p == "# " + b.text
    ensures b.H3? ==> p == "## " + b.text
    ensures b.H4? ==> p == "### " + b.text
    ensures b.Bullets? ==> |b.items| == |Split(p, "\n")|
    ensures b.Bullets? ==> forall i :: 0 <= i < |b.items| ==> b.items[i] == DropFirst(Split(p, "\n")[i], 2)
    ensures b.Numbered? ==> |b.items| == |Split(p, "\n")|
    ensures b.Numbered? ==> forall i :: 0 <= i < |b.items| ==> b.items[i] == StripNumber(Split(p, "\n")[i])
    ensures b.Paragraph? ==> b.text == p
  {
    MarkersExclusive(p);
    if StartsWith(p, "# ") then
      assert p == p[..2] + p[2..];
      H2(p[2..])
    else if StartsWith(p, "## ") then
      assert p == p[..3] + p[3..];
      H3(p[3..])
    else if StartsWith(p, "### ") then
      assert p == p[..4] + p[4..];
      H4(p[4..])
    else if StartsWith(p, "- ") then
      var lines := Split(p, "\n");
      Bullets(seq(|lines|, i requires 0 <= i < |lines| => DropFirst(lines[i], 2)))
    else if NumberMarker(p).Some? then
      var lines := Split(p, "\n");
      Numbered(seq(|lines|, i requires 0 <= i < |lines| => StripNumber(lines[i])))
    else Paragraph(p)
  }

  /** The heading markers exclude one another: the second character of
      `# ` is a space, of the others a `#`. */
  lemma MarkersExclusive(p: string)
    ensures StartsWith(p, "# ") ==> !StartsWith(p, "## ") && !StartsWith(p, "### ")
    ensures StartsWith(p, "## ") ==> !StartsWith(p, "### ")
  {
    if StartsWith(p, "# ") {
      assert p[1] == p[..2][1] == ' ';
    }
    if StartsWith(p, "## ") {
      assert p[2] == p[..3][2] == ' ';
    }
  }

  /** The reader's content: one block per `\n\n`-separated paragraph. */
  function Render(content: string): (bs: seq<Block>)
    ensures |bs| == |Split(content, "\n\n")|
    ensures forall i :: 0 <= i < |bs| ==> bs[i] == Classify(Split(content, "\n\n")[i])
  {
    var ps := Split(content, "\n\n");
    seq(|ps|, i requires 0 <= i < |ps| => Classify(ps[i]))
  }

  /** Whenever the text splits, the first cut sits right after the first
      piece. */
  lemma SplitCutsAtOccurrence(s: string, sep: string)
    requires 1 <= |sep|
    ensures 1 < |Split(s, sep)| ==> OccursAt(s, sep, |Split(s, sep)[0]|)
  {
    var ps := Split(s, sep);
    if 1 < |ps| {
      SplitJoin(s, sep);
      assert s == ps[0] + sep + Join(ps[1..], sep);
      assert s[|ps[0]|..|ps[0]| + |sep|] == sep;
    }
  }

  /** A text without blank-line breaks is a single block. */
  lemma SingleParagraph(content: string)
    requires Free(content, "\n\n")
    ensures Render(content) == [Classify(content)]
  {
    SplitCutsAtOccurrence(content, "\n\n");
    SplitJoin(content, "\n\n");
  }
}

=== FILE: card_payment.dfy ===
/** The payment form: the card-number normaliser that keeps up to sixteen
    digits in groups of four, and the form's submit, pay-button and
    close-result rules. */
module CardPayment {
  import opened Common

  function Min(a: int, b: int): int {
    if a <= b then a else b
  }

  /** The digits of the input, in order; everything else (spaces included)
      is dropped. */
  function Digits(value: string): (d: string)
    ensures AllDigits(d) && |d| <= |value|
  {
    var d := Filter(value, IsDigit);
    assert forall i :: 0 <= i < |d| ==> d[i] in d;
    d
  }

  /** The digits the formatter keeps: the first match of four to sixteen
      digits in the digit string, i.e. its first sixteen digits when there
      are at least four, and nothing otherwise. */
  function KeptDigits(value: string): (k: string)
    ensures AllDigits(k) && |k| <= 16
    ensures |Digits(value)| < 4 <==> |k| == 0
    ensures 4 <= |Digits(value)| ==> k == Digits(value)[..Min(16, |Digits(value)|)]
  {
    var d := Digits(value);
    if |d| < 4 then [] else d[..Min(16, |d|)]
  }

  /** Groups of four characters joined by single spaces; the last group
      holds the one to four characters left over. */
  function Group(s: string): (r: string)
    requires 1 <= |s|
    ensures |r| == |s| + (|s| - 1) / 4
    decreases |s|
  {
    if |s| <= 4 then s else s[..4] + " " + Group(s[4..])
  }

  /** In a grouped digit string the spaces sit exactly at every fifth
      position and every other position holds a digit. */
  lemma {:induction false} GroupLayout(s: string)
    requires 1 <= |s| && AllDigits(s)
    ensures forall i :: 0 <= i < |Group(s)| ==> (Group(s)[i] == ' ' <==> i % 5 == 4) && (IsDigit(Group(s)[i]) <==> i % 5 != 4)
    decreases |s|
  {
    if |s| > 4 {
      var rest := Group(s[4..]);
      GroupLayout(s[4..]);
      var r := Group(s);
      assert r == s[..4] + " " + rest;
      forall i | 0 <= i < |r|
        ensures (r[i] == ' ' <==> i % 5 == 4) && (IsDigit(r[i]) <==> i % 5 != 4)
      {
        if i >= 5 {
          var j := i - 5;
          assert r[i] == rest[j];
          assert (rest[j] == ' ' <==> j % 5 == 4) && (IsDigit(rest[j]) <==> j % 5 != 4);
          assert j % 5 == i % 5;
        } else if i < 4 {
          assert r[i] == s[i] && IsDigit(s[i]);
        } else {
          assert r[i] == ' ';
        }
      }
    }
  }

  /** Dropping the spaces of a grouped digit string gives back the digits. */
  lemma {:induction false} GroupDigits(s: string)
    requires 1 <= |s| && AllDigits(s)
    ensures Filter(Group(s), IsDigit) == s
    decreases |s|
  {
    if |s| <= 4 {
      FilterAllKept(s, IsDigit);
    } else {
      var rest := Group(s[4..]);
      GroupDigits(s[4..]);
      FilterAppend(s[..4] + " ", rest, IsDigit);
      FilterAppend(s[..4], " ", IsDigit);
      FilterAllKept(s[..4], IsDigit);
      assert s == s[..4] + s[4..];
    }
  }

  /** For four to sixteen characters the grouped length is at most 19
      and its last position is not a space position. */
  lemma GroupedLength(n: int)
    requires 4 <= n <= 16
    ensures n + (n - 1) / 4 <= 19
    ensures (n + (n - 1) / 4 - 1) % 5 != 4
  {
    var m := n - 1;
    assert m == 4 * (m / 4) + m % 4;
    assert m + m / 4 == 5 * (m / 4) + m % 4;
    assert (m + m / 4) % 5 == m % 4;
  }

  /** The shape of a grouped run of four to sixteen digits: nineteen
      characters at most, spaces exactly at every fifth position, and a
      digit at the end. */
  lemma GroupedShape(k: string)
    requires 4 <= |k| <= 16 && AllDigits(k)
    ensures 4 <= |Group(k)| <= 19 && IsDigit(Group(k)[|Group(k)| - 1])
    ensures forall i :: 0 <= i < |Group(k)| ==> (Group(k)[i] == ' ' <==> i % 5 == 4) && (IsDigit(Group(k)[i]) <==> i % 5 != 4)
  {
    GroupLayout(k);
    GroupedLength(|k|);
    var last := |Group(k)| - 1;
    assert last % 5 != 4;
    assert IsDigit(Group(k)[last]);
  }

  /** `formatCardNumber`: the kept digits, grouped, or the input itself
      when fewer than four digits were typed. A formatted number holds
      the kept digits in order, a space at every fifth position and a
      digit everywhere else, ending in a digit. */
  function FormatCardNumber(value: string): (r: string)
    ensures |Digits(value)| < 4 ==> r == value
    ensures 4 <= |Digits(value)| ==> Digits(r) == KeptDigits(value)
    ensures 4 <= |Digits(value)| ==> 4 <= |r| <= 19 && IsDigit(r[|r| - 1])
    ensures 4 <= |Digits(value)| ==> forall i :: 0 <= i < |r| ==> (r[i] == ' ' <==> i % 5 == 4)
    ensures 4 <= |Digits(value)| ==> forall i :: 0 <= i < |r| ==> (IsDigit(r[i]) <==> i % 5 != 4)
  {
    var k := KeptDigits(value);
    if |k| == 0 then value
    else
      GroupDigits(k);
      GroupedShape(k);
      Group(k)
  }

  /** Reformatting a formatted value changes nothing, so the formatter can
      run on every keystroke. */
  lemma FormatIdempotent(value: string)
    ensures FormatCardNumber(FormatCardNumber(value)) == FormatCardNumber(value)
  {
    if 4 <= |Digits(value)| {
      var f := FormatCardNumber(value);
      var k := KeptDigits(value);
      FormatOfKept(value);
      assert Digits(f) == k && 4 <= |k| <= 16;
      assert k[..Min(16, |k|)] == k;
      assert KeptDigits(f) == k;
      FormatOfKept(f);
    }
  }

  /** With four digits or more the formatter groups the kept digits. */
  lemma FormatOfKept(value: string)
    requires 4 <= |Digits(value)|
    ensures FormatCardNumber(value) == Group(KeptDigits(value))
  {
  }

  /** A formatted value reaches the 19 characters the pay button asks for
      exactly when sixteen digits were kept. */
  lemma FullCardLength(value: string)
    requires 4 <= |Digits(value)|
    ensures |FormatCardNumber(value)| == 19 <==> |KeptDigits(value)| == 16
  {
  }

  // ---------------------------------------------------------------------
  // The form

  /** The form's state. `provider` is the chosen payment method, if any. */
  datatype Form = Form(
    provider: Option<string>,
    amount: string,
    card: string,
    processing: bool,
    showResult: bool,
    success: bool)

  /** The state the page opens with. */
  const Initial := Form(None, "", "", false, false, false)

  /** Submitting with an empty amount or card number does nothing;
      otherwise processing starts. Only the processing flag can change,
      and it is set afterwards exactly when it was set before or both
      fields were filled in. */
  function Submit(f: Form): (g: Form)
    ensures g.processing <==> f.processing || (f.amount != "" && f.card != "")
    ensures g == f.(processing := g.processing)
  {
    if f.amount == "" || f.card == "" then f else f.(processing := true)
  }

  /** The end of processing, with the outcome the page draws at random
      passed in. */
  function Settle(f: Form, success: bool): (g: Form)
    ensures !g.processing && g.showResult && g.success == success
    ensures g.amount == f.amount && g.card == f.card && g.provider == f.provider
  {
    f.(processing := false, success := success, showResult := true)
  }

  /** Closing the result hides it; after a success the amount, the card
      number and the provider are cleared, after a failure they are kept
      for another try. */
  function CloseResult(f: Form): (g: Form)
    ensures !g.showResult && g.processing == f.processing && g.success == f.success
    ensures f.success ==> g.amount == "" && g.card == "" && g.provider == None
    ensures !f.success ==> g.amount == f.amount && g.card == f.card && g.provider == f.provider
  {
    var g := f.(showResult := false);
    if f.success then g.(amount := "", card := "", provider := None) else g
  }

  /** The pay button is disabled without an amount, without a full
      nineteen-character card number, or while processing. */
  predicate PayDisabled(f: Form) {
    f.amount == "" || f.card == "" || |f.card| < 19 || f.processing
  }

  /** A press of an enabled pay button always starts processing, and the
      button is disabled while it runs. */
  lemma EnabledPayStartsProcessing(f: Form)
    requires !PayDisabled(f)
    ensures Submit(f).processing && PayDisabled(Submit(f))
  {
  }

  /** A card typed through the formatter enables the button only when it
      holds sixteen digits, or when fewer than four digits were typed and
      the text, which the formatter then keeps verbatim, is at least
      nineteen characters long. */
  lemma PayNeedsSixteenDigits(f: Form, typed: string)
    requires f.card == FormatCardNumber(typed)
    requires !PayDisabled(f)
    ensures |KeptDigits(typed)| == 16 || (|Digits(typed)| < 4 && 19 <= |typed|)
  {
    if 4 <= |Digits(typed)| {
      FullCardLength(typed);
    }
  }

  /** A text without digits has no digits to keep. */
  lemma {:induction false} NoDigits(s: string)
    requires forall i :: 0 <= i < |s| ==> !IsDigit(s[i])
    ensures Filter(s, IsDigit) == ""
    decreases |s|
  {
    if |s| > 0 {
      NoDigits(s[1..]);
    }
  }

  /** As written, nineteen letters enable the pay button: the formatter
      hands back a text without digits unchanged. */
  lemma LettersEnablePay()
    ensures var typed := seq(19, _ => 'x');
            var f := Form(Some("visa"), "10", FormatCardNumber(typed), false, false, false);
            !PayDisabled(f) && Digits(f.card) == ""
  {
    var typed: string := seq(19, _ => 'x');
    NoDigits(typed);
    var f := Form(Some("visa"), "10", FormatCardNumber(typed), false, false, false);
    assert f.card == typed;
  }

  /** The pay button as evidently intended: it also asks for the sixteen
      digits of a full card number. */
  predicate PayDisabledFull(f: Form) {
    PayDisabled(f) || |Digits(f.card)| < 16
  }

  /** With the corrected button, a card typed through the formatter
      enables it exactly when sixteen digits were kept, an amount is
      given and no payment is running. */
  lemma FullPayNeedsSixteenDigits(f: Form, typed: string)
    requires f.card == FormatCardNumber(typed)
    ensures !PayDisabledFull(f) <==> f.amount != "" && !f.processing && |KeptDigits(typed)| == 16
  {
    if 4 <= |Digits(typed)| {
      FullCardLength(typed);
    }
  }

  /** A successful payment, once its result is closed, leaves the pay button
      disabled until the form is filled in again. */
  lemma SuccessResetsForm(f: Form)
    ensures PayDisabled(CloseResult(Settle(Submit(f), true)))
    ensures CloseResult(Settle(Submit(f), true)).amount == ""
  {
  }
}

=== FILE: common.dfy ===
/** Small shared vocabulary: an optional value, order-preserving filtering
    and decimal rendering of natural numbers. */
module Common {

  /** A value that may be absent (JavaScript's `null`, Python's `None`). */
  datatype Option<T> = None | Some(value: T)

  /** The value given, or the fallback when it was left out. */
  function OrElse<T>(given: Option<T>, fallback: T): (v: T)
    ensures given.Some? ==> v == given.value
    ensures given.None? ==> v == fallback
  {
    if given.Some? then given.value else fallback
  }

  /** A book as the catalogue and book pages list it. `discounted` is false
      when the record leaves the flag out. */
  datatype ShelfBook = ShelfBook(
    id: nat,
    category: string,
    price: string,
    discounted: bool,
    discountPrice: string)

  /** Keeps the elements of `xs` that satisfy `p`, in their original order,
      as JavaScript's `Array.prototype.filter` and Django's `filter` do. */
  function Filter<T>(xs: seq<T>, p: T -> bool): (r: seq<T>)
    ensures |r| <= |xs|
    ensures forall x :: x in r ==> x in xs && p(x)
    ensures forall x :: x in xs && p(x) ==> x in r
  {
    if |xs| == 0 then []
    else
      var rest := Filter(xs[1..], p);
      if p(xs[0]) then [xs[0]] + rest else rest
  }

  /** Filtering distributes over concatenation: the kept elements keep
      their relative order. */
  lemma {:induction false} FilterAppend<T>(a: seq<T>, b: seq<T>, p: T -> bool)
    ensures Filter(a + b, p) == Filter(a, p) + Filter(b, p)
    decreases |a|
  {
    if |a| == 0 {
      assert a + b == b;
    } else {
      assert (a + b)[1..] == a[1..] + b;
      FilterAppend(a[1..], b, p);
    }
  }

  /** Filters that agree on the elements give the same result. */
  lemma {:induction false} FilterCongruent<T>(xs: seq<T>, p: T -> bool, q: T -> bool)
    requires forall x :: x in xs ==> p(x) == q(x)
    ensures Filter(xs, p) == Filter(xs, q)
    decreases |xs|
  {
    if |xs| > 0 {
      FilterCongruent(xs[1..], p, q);
    }
  }

  /** A filter that every element passes returns the input unchanged. */
  lemma {:induction false} FilterAllKept<T>(xs: seq<T>, p: T -> bool)
    requires forall x :: x in xs ==> p(x)
    ensures Filter(xs, p) == xs
    decreases |xs|
  {
    if |xs| > 0 {
      FilterAllKept(xs[1..], p);
    }
  }

  /** A catalogue page's category filter: the label "All" keeps every
      item; any other label keeps the items whose category equals it. */
  function ByCategory<T>(xs: seq<T>, active: string, category: T -> string): (r: seq<T>)
    ensures active == "All" ==> r == xs
    ensures active != "All" ==> r == Filter(xs, x => category(x) == active)
    ensures forall x :: x in r ==> x in xs && (active == "All" || category(x) == active)
    ensures forall x :: x in xs && (active == "All" || category(x) == active) ==> x in r
  {
    if active == "All" then xs else Filter(xs, x => category(x) == active)
  }

  /** The category filter keeps the catalogue's order. */
  lemma ByCategoryAppend<T>(a: seq<T>, b: seq<T>, active: string, category: T -> string)
    ensures ByCategory(a + b, active, category) == ByCategory(a, active, category) + ByCategory(b, active, category)
  {
    if active != "All" {
      FilterAppend(a, b, x => category(x) == active);
    }
  }

  /** The decimal digit for `d`. */
  function DigitChar(d: nat): (c: char)
    requires d < 10
    ensures '0' <= c <= '9'
    ensures c as int - '0' as int == d
  {
    ('0' as int + d) as char
  }

  predicate IsDigit(c: char) {
    '0' <= c <= '9'
  }

  predicate AllDigits(s: string) {
    forall i :: 0 <= i < |s| ==> IsDigit(s[i])
  }

  /** The number of leading decimal digits. */
  function LeadingDigits(s: string): (n: nat)
    ensures n <= |s|
    ensures forall i :: 0 <= i < n ==> IsDigit(s[i])
    ensures n < |s| ==> !IsDigit(s[n])
  {
    if |s| == 0 || !IsDigit(s[0]) then 0 else 1 + LeadingDigits(s[1..])
  }

  /** A digit run followed by nothing or by a non-digit is read back whole. */
  lemma {:induction false} LeadingDigitsOfRun(d: string, rest: string)
    requires AllDigits(d) && (|rest| == 0 || !IsDigit(rest[0]))
    ensures LeadingDigits(d + rest) == |d|
    decreases |d|
  {
    if |d| > 0 {
      assert (d + rest)[1..] == d[1..] + rest;
      LeadingDigitsOfRun(d[1..], rest);
    } else {
      assert d + rest == rest;
    }
  }

  /** A digit run followed by a non-digit tail splits in one way only. */
  lemma DigitRunSplit(d1: string, r1: string, d2: string, r2: string)
    requires AllDigits(d1) && (|r1| == 0 || !IsDigit(r1[0]))
    requires AllDigits(d2) && (|r2| == 0 || !IsDigit(r2[0]))
    requires d1 + r1 == d2 + r2
    ensures d1 == d2 && r1 == r2
  {
    LeadingDigitsOfRun(d1, r1);
    LeadingDigitsOfRun(d2, r2);
    assert d1 == (d1 + r1)[..|d1|];
    assert d2 == (d2 + r2)[..|d2|];
    assert r1 == (d1 + r1)[|d1|..];
    assert r2 == (d2 + r2)[|d2|..];
  }

  /** `sub` occurs in `t` starting at position `i`. */
  predicate OccursAt(t: string, sub: string, i: int) {
    0 <= i && i + |sub| <= |t| && t[i..i + |sub|] == sub
  }

  /** Python's `sub in t`, JavaScript's `t.includes(sub)`. */
  predicate Contains(t: string, sub: string) {
    exists i :: 0 <= i <= |t| && OccursAt(t, sub, i)
  }

  /** Lower-casing of one character, for the ASCII letters. */
  function LowerChar(c: char): (d: char)
    ensures 'A' <= c <= 'Z' ==> d as int == c as int + 32
    ensures !('A' <= c <= 'Z') ==> d == c
    ensures !('A' <= d <= 'Z')
  {
    if 'A' <= c <= 'Z' then (c as int + 32) as char else c
  }

  /** Python's `str.lower()` on ASCII text. */
  function Lower(s: string): (t: string)
    ensures |t| == |s| && forall i :: 0 <= i < |s| ==> t[i] == LowerChar(s[i])
  {
    seq(|s|, i requires 0 <= i < |s| => LowerChar(s[i]))
  }

  /** Lower-casing twice is lower-casing once. */
  lemma LowerIdempotent(s: string)
    ensures Lower(Lower(s)) == Lower(s)
  {
  }

  /** Decimal rendering without leading zeros, as JavaScript's template
      literals and Python's f-strings print a non-negative integer. */
  function NatToString(n: nat): (s: string)
    ensures 1 <= |s|
    ensures AllDigits(s)
    ensures n < 10 <==> |s| == 1
    ensures s[0] == '0' <==> n == 0
    decreases n
  {
    if n < 10 then [DigitChar(n)] else NatToString(n / 10) + [DigitChar(n % 10)]
  }

  /** The value of a string of decimal digits. */
  function ParseNat(s: string): nat
    requires AllDigits(s)
  {
    if |s| == 0 then 0
    else ParseNat(s[..|s| - 1]) * 10 + (s[|s| - 1] as int - '0' as int)
  }

  /** Decimal rendering is inverted by parsing. */
  lemma {:induction false} ParseNatToString(n: nat)
    ensures ParseNat(NatToString(n)) == n
    decreases n
  {
    var s := NatToString(n);
    if n >= 10 {
      ParseNatToString(n / 10);
      assert s[..|s| - 1] == NatToString(n / 10);
    }
  }

  /** Distinct numbers render differently, so ids printed into links are
      unambiguous. */
  lemma NatToStringInjective(m: nat, n: nat)
    requires NatToString(m) == NatToString(n)
    ensures m == n
  {
    ParseNatToString(m);
    ParseNatToString(n);
  }

  /** A subset is no larger than its superset. */
  lemma SubsetCardinality<T>(a: set<T>, b: set<T>)
    requires a <= b
    ensures |a| <= |b|
  {
    assert b == a + (b - a);
    assert a * (b - a) == {};
  }

  /** A subset as large as its superset is the superset. */
  lemma FullSubset<T>(a: set<T>, b: set<T>)
    requires a <= b
    ensures |a| == |b| <==> a == b
  {
    if |a| == |b| && a != b {
      var x :| x in b && x !in a;
      SubsetCardinality(a, b - {x});
    }
  }

  /** `int(part / whole * 100)` for non-negative counts: the whole
      percentage, truncated. It brackets the exact percentage from below,
      stays within [0, 100] for a part of the whole, and is 100 exactly
      when the part is the whole. */
  function TruncPercent(part: nat, whole: nat): (r: nat)
    requires 0 < whole
    ensures whole * r <= 100 * part < whole * r + whole
    ensures part <= whole ==> r <= 100
    ensures part <= whole ==> (r == 100 <==> part == whole)
    ensures part == 0 ==> r == 0
  {
    TruncPercentFacts(part, whole);
    (100 * part) / whole
  }

  lemma TruncPercentFacts(part: nat, whole: nat)
    requires 0 < whole
    ensures var r := (100 * part) / whole;
            && whole * r <= 100 * part < whole * r + whole
            && (part <= whole ==> r <= 100)
            && (part <= whole ==> (r == 100 <==> part == whole))
            && (part == 0 ==> r == 0)
  {
    var r := (100 * part) / whole;
    DivBounds(100 * part, whole);
    if part <= whole {
      assert whole * r <= whole * 100;
      MulCancel(whole, r, 100);
      if part == whole {
        assert whole * 100 < whole * (r + 1);
        MulCancelStrict(whole, 100, r + 1);
      } else {
        assert whole * r < whole * 100;
        MulCancelStrict(whole, r, 100);
      }
    }
    if part == 0 {
      assert whole * r <= whole * 0;
      MulCancel(whole, r, 0);
    }
  }

  /** Euclidean division brackets its dividend. */
  lemma DivBounds(a: int, d: int)
    requires 0 < d
    ensures d * (a / d) <= a < d * (a / d) + d
  {
  }

  lemma MulMonotone(a: nat, b: int, c: int)
    requires b <= c
    ensures a * b <= a * c
  {
  }

  lemma MulStrictlyMonotone(a: int, b: int, c: int)
    requires 0 < a && b < c
    ensures a * b < a * c
  {
  }

  lemma MulCancel(a: int, b: int, c: int)
    requires 0 < a && a * b <= a * c
    ensures b <= c
  {
    if b > c {
      MulStrictlyMonotone(a, c, b);
    }
  }

  lemma MulCancelStrict(a: int, b: int, c: int)
    requires 0 < a && a * b < a * c
    ensures b < c
  {
    if b >= c {
      MulMonotone(a, c, b);
    }
  }
}

=== FILE: course_enrollment.dfy ===
/** Course enrollment on the server: who sees which courses, lessons and
    enrollments, enrolling once per course, and recording lesson progress
    with the enrollment's completion percentage. */
module CourseEnrollment {
  import opened Common

  datatype Course = Course(isActive: bool)
  datatype Lesson = Lesson(course: nat)

  /** An enrollment is identified by its user and course, which the
      database keeps unique. */
  datatype EnrollmentKey = EnrollmentKey(user: nat, course: nat)
  datatype Enrollment = Enrollment(progress: nat)

  /** A lesson-progress record is identified by its enrollment and
      lesson, which the database keeps unique. */
  datatype ProgressKey = ProgressKey(user: nat, course: nat, lesson: nat)
  datatype LessonProgress = LessonProgress(isCompleted: bool, lastPosition: nat)

  datatype School = School(
    courses: map<nat, Course>,
    lessons: map<nat, Lesson>,
    enrollments: map<EnrollmentKey, Enrollment>,
    progress: map<ProgressKey, LessonProgress>)

  // ---------------------------------------------------------------------
  // Visibility

  /** Staff see every course; others only the active ones. */
  function VisibleCourses(s: School, isStaff: bool): (cs: set<nat>)
    ensures forall c :: c in cs <==> c in s.courses && (isStaff || s.courses[c].isActive)
  {
    set c | c in s.courses && (isStaff || s.courses[c].isActive)
  }

  /** Staff see every lesson; others only lessons of active courses. */
  function VisibleLessons(s: School, isStaff: bool): (ls: set<nat>)
    ensures forall l :: l in ls <==>
              (l in s.lessons && (isStaff || (s.lessons[l].course in s.courses && s.courses[s.lessons[l].course].isActive)))
  {
    set l | l in s.lessons && (isStaff || (s.lessons[l].course in s.courses && s.courses[s.lessons[l].course].isActive))
  }

  /** Staff see every enrollment; others only their own. */
  function VisibleEnrollments(s: School, user: nat, isStaff: bool): (es: set<EnrollmentKey>)
    ensures forall k :: k in es <==> k in s.enrollments && (isStaff || k.user == user)
  {
    set k | k in s.enrollments && (isStaff || k.user == user)
  }

  /** A user who is not staff sees a lesson only when they can see its
      course. */
  lemma LessonsFollowCourses(s: School, l: nat)
    requires l in s.lessons
    ensures l in VisibleLessons(s, false) <==> s.lessons[l].course in VisibleCourses(s, false)
  {
  }

  // ---------------------------------------------------------------------
  // Enrolling

  datatype EnrollOutcome = CourseNotFound | AlreadyEnrolled | Enrolled(school: School)

  /** `enroll`: the course must be visible to the user; a second
      enrollment in the same course is refused; otherwise one enrollment is
      created at 0 percent. */
  function Enroll(s: School, user: nat, course: nat, isStaff: bool): (o: EnrollOutcome)
    ensures o.CourseNotFound? <==> course !in VisibleCourses(s, isStaff)
    ensures o.AlreadyEnrolled? <==> course in VisibleCourses(s, isStaff) && EnrollmentKey(user, course) in s.enrollments
    ensures o.Enrolled? ==>
              && EnrollmentKey(user, course) !in s.enrollments
              && o.school == s.(enrollments := s.enrollments[EnrollmentKey(user, course) := Enrollment(0)])
  {
    if course !in VisibleCourses(s, isStaff) then CourseNotFound
    else if EnrollmentKey(user, course) in s.enrollments then AlreadyEnrolled
    else Enrolled(s.(enrollments := s.enrollments[EnrollmentKey(user, course) := Enrollment(0)]))
  }

  /** Enrolling adds exactly one enrollment, and enrolling again is
      refused. */
  lemma EnrollOnce(s: School, user: nat, course: nat, isStaff: bool)
    ensures var o := Enroll(s, user, course, isStaff);
            o.Enrolled? ==>
              && |o.school.enrollments| == |s.enrollments| + 1
              && Enroll(o.school, user, course, isStaff).AlreadyEnrolled?
  {
    var o := Enroll(s, user, course, isStaff);
    if o.Enrolled? {
      assert o.school.enrollments.Keys == s.enrollments.Keys + {EnrollmentKey(user, course)};
    }
  }

  // ---------------------------------------------------------------------
  // Lesson progress

  /** The lessons of a course. */
  function LessonsOf(s: School, course: nat): set<nat> {
    set l | l in s.lessons && s.lessons[l].course == course
  }

  /** The lessons the user's enrollment in `course` has completed, as
      recorded. */
  function CompletedOf(s: School, user: nat, course: nat): set<nat> {
    set k | k in s.progress && k.user == user && k.course == course && s.progress[k].isCompleted :: k.lesson
  }

  /** Every progress record belongs to an enrollment and names a lesson of
      that enrollment's course, as `update_progress` creates them. */
  predicate Consistent(s: School) {
    forall k :: k in s.progress ==>
      EnrollmentKey(k.user, k.course) in s.enrollments && k.lesson in s.lessons && s.lessons[k.lesson].course == k.course
  }

  datatype ProgressOutcome = LessonNotFound | NotEnrolled | ProgressSaved(school: School, record: LessonProgress)

  /** `update_progress`: the lesson must be visible and the user enrolled
      in its course. The lesson's record is fetched or created (not
      completed, position 0), each field the request leaves out keeps its
      value, and the enrollment's progress becomes the truncated
      percentage of completed records over the course's lessons. */
  function UpdateProgress(s: School, user: nat, lesson: nat, isStaff: bool,
                          isCompleted: Option<bool>, lastPosition: Option<nat>): (o: ProgressOutcome)
    ensures o.LessonNotFound? <==> lesson !in VisibleLessons(s, isStaff)
    ensures o.NotEnrolled? <==>
              lesson in VisibleLessons(s, isStaff) && EnrollmentKey(user, s.lessons[lesson].course) !in s.enrollments
    ensures o.ProgressSaved? ==>
              var c := s.lessons[lesson].course;
              var k := ProgressKey(user, c, lesson);
              var before := if k in s.progress then s.progress[k] else LessonProgress(false, 0);
              && o.record.isCompleted == OrElse(isCompleted, before.isCompleted)
              && o.record.lastPosition == OrElse(lastPosition, before.lastPosition)
              && o.school.progress == s.progress[k := o.record]
              && o.school.courses == s.courses && o.school.lessons == s.lessons
              && o.school.enrollments.Keys == s.enrollments.Keys
              && (forall e :: e in s.enrollments && e != EnrollmentKey(user, c) ==> o.school.enrollments[e] == s.enrollments[e])
              && 0 < |LessonsOf(s, c)|
              && o.school.enrollments[EnrollmentKey(user, c)].progress
                 == TruncPercent(|CompletedOf(o.school, user, c)|, |LessonsOf(s, c)|)
  {
    if lesson !in VisibleLessons(s, isStaff) then LessonNotFound
    else
      var c := s.lessons[lesson].course;
      var e := EnrollmentKey(user, c);
      if e !in s.enrollments then NotEnrolled
      else
        var k := ProgressKey(user, c, lesson);
        var before := if k in s.progress then s.progress[k] else LessonProgress(false, 0);
        var record := LessonProgress(OrElse(isCompleted, before.isCompleted), OrElse(lastPosition, before.lastPosition));
        var s1 := s.(progress := s.progress[k := record]);
        assert lesson in LessonsOf(s, c);
        var total := |LessonsOf(s, c)|;
        var done := |CompletedOf(s1, user, c)|;
        ProgressSaved(s1.(enrollments := s.enrollments[e := Enrollment(TruncPercent(done, total))]), record)
  }

  /** Saving progress keeps the records consistent; then the enrollment's
      percentage lies in [0, 100] and is 100 exactly when every lesson of
      the course has a completed record. */
  lemma ProgressPercentMeaning(s: School, user: nat, lesson: nat, isStaff: bool,
                               isCompleted: Option<bool>, lastPosition: Option<nat>)
    requires Consistent(s)
    ensures var o := UpdateProgress(s, user, lesson, isStaff, isCompleted, lastPosition);
            o.ProgressSaved? ==>
              var c := s.lessons[lesson].course;
              var p := o.school.enrollments[EnrollmentKey(user, c)].progress;
              && Consistent(o.school)
              && p <= 100
              && (p == 100 <==> CompletedOf(o.school, user, c) == LessonsOf(s, c))
  {
    var o := UpdateProgress(s, user, lesson, isStaff, isCompleted, lastPosition);
    if o.ProgressSaved? {
      var c := s.lessons[lesson].course;
      var done := CompletedOf(o.school, user, c);
      var all := LessonsOf(s, c);
      assert done <= all;
      SubsetCardinality(done, all);
      FullSubset(done, all);
    }
  }
}

=== FILE: courses_page.dfy ===
/** The courses catalogue page: the category filter, the link of each card
    and the empty-category message. */
module CoursesPage {
  import opened Common

  datatype CourseCard = CourseCard(id: nat, category: string)

  /** The cards under the category button `active`, in catalogue order. */
  function Shown(courses: seq<CourseCard>, active: string): (r: seq<CourseCard>)
    ensures active == "All" ==> r == courses
    ensures forall c :: c in r ==> c in courses && (active == "All" || c.category == active)
    ensures forall c :: c in courses && (active == "All" || c.category == active) ==> c in r
  {
    ByCategory(courses, active, (c: CourseCard) => c.category)
  }

  /** Filtering keeps the catalogue's order. */
  lemma ShownKeepsOrder(a: seq<CourseCard>, b: seq<CourseCard>, active: string)
    ensures Shown(a + b, active) == Shown(a, active) + Shown(b, active)
  {
    ByCategoryAppend(a, b, active, (c: CourseCard) => c.category);
  }

  function Link(c: CourseCard): (l: string)
    ensures 9 <= |l| && l[..9] == "/courses/" && AllDigits(l[9..])
  {
    "/courses/" + NatToString(c.id)
  }

  /** Each course has its own link, and the id reads back from it. */
  lemma LinkIdentifiesCourse(a: CourseCard, b: CourseCard)
    ensures ParseNat(Link(a)[9..]) == a.id
    ensures Link(a) == Link(b) ==> a.id == b.id
  {
    assert Link(a)[9..] == NatToString(a.id);
    ParseNatToString(a.id);
    if Link(a) == Link(b) {
      assert Link(b)[9..] == NatToString(b.id);
      NatToStringInjective(a.id, b.id);
    }
  }

  /** The "No courses found" message shows exactly when no course of the
      catalogue carries the chosen category. */
  lemma EmptyCategory(courses: seq<CourseCard>, active: string)
    ensures |Shown(courses, active)| == 0 <==>
              forall c :: c in courses ==> active != "All" && c.category != active
  {
    var r := Shown(courses, active);
    if |r| != 0 {
      assert r[0] in r;
    }
    if active == "All" && |courses| != 0 {
      assert courses[0] in courses;
    }
  }
}

=== FILE: lesson_panel.dfy ===
/** The course page's lesson list: which lesson is open, and each lesson's
    completion mark, notes and note-editing flag, all kept per lesson id. */
module LessonPanel {
  import opened Common

  /** A lesson as the course data lists it. */
  datatype Lesson = Lesson(id: int, isCompleted: bool, isLocked: bool)

  /** The page's own record for one lesson. */
  datatype LessonState = LessonState(id: int, isCompleted: bool, notes: string, isEditingNotes: bool)

  /** The open lesson and the per-lesson records. */
  datatype Panel = Panel(activeLessonId: int, states: seq<LessonState>)

  function Ids(states: seq<LessonState>): (ids: seq<int>)
    ensures |ids| == |states| && forall i :: 0 <= i < |states| ==> ids[i] == states[i].id
  {
    seq(|states|, i requires 0 <= i < |states| => states[i].id)
  }

  /** One record per lesson, in the same order, with the lesson's id and
      completion, empty notes and editing off. */
  function InitialStates(lessons: seq<Lesson>): (states: seq<LessonState>)
    ensures |states| == |lessons|
    ensures forall i :: 0 <= i < |lessons| ==>
              states[i] == LessonState(lessons[i].id, lessons[i].isCompleted, "", false)
  {
    seq(|lessons|, i requires 0 <= i < |lessons| => LessonState(lessons[i].id, lessons[i].isCompleted, "", false))
  }

  /** The page opens on lesson 1. */
  function Initial(lessons: seq<Lesson>): (p: Panel)
    ensures p.activeLessonId == 1 && p.states == InitialStates(lessons)
  {
    Panel(1, InitialStates(lessons))
  }

  /** A click opens an unlocked lesson; a click on a locked one does
      nothing. */
  function Click(p: Panel, lessonId: int, isLocked: bool): (q: Panel)
    ensures q.states == p.states
    ensures isLocked ==> q == p
    ensures !isLocked ==> q.activeLessonId == lessonId
  {
    if isLocked then p else p.(activeLessonId := lessonId)
  }

  /** Clicks never touch the records; repeating a click changes nothing
      more; a click on an unlocked lesson overrides whatever was clicked
      before; and a click opens its lesson exactly when the lesson does
      not show the padlock, or it was open already. */
  lemma ClicksCompose(p: Panel, a: int, lockedA: bool, b: int, lockedB: bool, completed: bool)
    ensures Click(Click(p, a, lockedA), a, lockedA) == Click(p, a, lockedA)
    ensures Click(Click(p, a, lockedA), b, false) == Click(p, b, false)
    ensures Click(p, a, lockedA).activeLessonId == a <==> IconOf(lockedA, completed) != LockIcon || p.activeLessonId == a
  {
  }

  /** `map` over the records, applying `f` to those with the given id. */
  function Update(states: seq<LessonState>, id: int, f: LessonState -> LessonState): (r: seq<LessonState>)
    ensures |r| == |states|
    ensures forall i :: 0 <= i < |states| && states[i].id == id ==> r[i] == f(states[i])
    ensures forall i :: 0 <= i < |states| && states[i].id != id ==> r[i] == states[i]
    decreases |states|
  {
    if |states| == 0 then []
    else [if states[0].id == id then f(states[0]) else states[0]] + Update(states[1..], id, f)
  }

  function Complete(states: seq<LessonState>, id: int): (r: seq<LessonState>)
    ensures Ids(r) == Ids(states)
    ensures forall i :: 0 <= i < |states| ==>
              r[i] == if states[i].id == id then states[i].(isCompleted := true) else states[i]
  {
    Update(states, id, (s: LessonState) => s.(isCompleted := true))
  }

  function ToggleEditNotes(states: seq<LessonState>, id: int): (r: seq<LessonState>)
    ensures Ids(r) == Ids(states)
    ensures forall i :: 0 <= i < |states| ==>
              r[i] == if states[i].id == id then states[i].(isEditingNotes := !states[i].isEditingNotes) else states[i]
  {
    Update(states, id, (s: LessonState) => s.(isEditingNotes := !s.isEditingNotes))
  }

  function UpdateNotes(states: seq<LessonState>, id: int, notes: string): (r: seq<LessonState>)
    ensures Ids(r) == Ids(states)
    ensures forall i :: 0 <= i < |states| ==>
              r[i] == if states[i].id == id then states[i].(notes := notes) else states[i]
  {
    Update(states, id, (s: LessonState) => s.(notes := notes))
  }

  /** Completing twice is completing once; toggling the editor twice
      restores the records; writing notes twice keeps the second text. */
  lemma UpdatesCompose(states: seq<LessonState>, id: int, a: string, b: string)
    ensures Complete(Complete(states, id), id) == Complete(states, id)
    ensures ToggleEditNotes(ToggleEditNotes(states, id), id) == states
    ensures UpdateNotes(UpdateNotes(states, id, a), id, b) == UpdateNotes(states, id, b)
  {
  }

  /** `getLessonState`: the first record with the id. */
  function Find(states: seq<LessonState>, id: int): (r: Option<LessonState>)
    ensures r.Some? <==> id in Ids(states)
    ensures r.Some? ==> r.value in states && r.value.id == id
    ensures r.Some? ==> exists i :: 0 <= i < |states| && states[i] == r.value && NoneBefore(states, i, id)
    decreases |states|
  {
    if |states| == 0 then None
    else if states[0].id == id then
      assert NoneBefore(states, 0, id);
      Some(states[0])
    else
      assert Ids(states) == [states[0].id] + Ids(states[1..]);
      var r := Find(states[1..], id);
      if r.Some? then
        var i :| 0 <= i < |states[1..]| && states[1..][i] == r.value && NoneBefore(states[1..], i, id);
        assert states[i + 1] == r.value;
        assert NoneBefore(states, i + 1, id) by {
          forall j | 0 <= j < i + 1 ensures states[j].id != id {
            if j > 0 { assert states[j] == states[1..][j - 1]; }
          }
        }
        r
      else r
  }

  /** No record before position `i` has the id. */
  predicate NoneBefore(states: seq<LessonState>, i: nat, id: int)
    requires i <= |states|
  {
    forall j :: 0 <= j < i ==> states[j].id != id
  }

  /** After completing a lesson its record reads completed, and the record
      of every other lesson reads as before. */
  lemma CompleteThenFind(states: seq<LessonState>, id: int, other: int)
    requires id in Ids(states)
    ensures Find(Complete(states, id), id).Some? && Find(Complete(states, id), id).value.isCompleted
    ensures other != id ==> Find(Complete(states, id), other) == Find(states, other)
  {
    var r := Complete(states, id);
    var v := Find(r, id).value;
    var i :| 0 <= i < |r| && r[i] == v;
    assert states[i].id == id;
    if other != id {
      FindUnaffected(states, id, other);
    }
  }

  /** Completing `id` leaves the lookup of any other id as it was. */
  lemma {:induction false} FindUnaffected(states: seq<LessonState>, id: int, other: int)
    requires other != id
    ensures Find(Complete(states, id), other) == Find(states, other)
    decreases |states|
  {
    if |states| > 0 {
      assert Complete(states, id)[1..] == Complete(states[1..], id);
      FindUnaffected(states[1..], id, other);
    }
  }

  datatype Icon = LockIcon | CheckIcon | PlayIcon

  /** A padlock on locked lessons, then a tick on completed ones, then the
      play symbol. */
  function IconOf(isLocked: bool, isCompleted: bool): (i: Icon)
    ensures i == LockIcon <==> isLocked
    ensures i == CheckIcon <==> !isLocked && isCompleted
    ensures i == PlayIcon <==> !isLocked && !isCompleted
  {
    if isLocked then LockIcon else if isCompleted then CheckIcon else PlayIcon
  }

  /** A completed unlocked lesson shows the tick from then on. */
  lemma CompletedShowsTick(states: seq<LessonState>, id: int)
    requires id in Ids(states)
    ensures IconOf(false, Find(Complete(states, id), id).value.isCompleted) == CheckIcon
  {
    CompleteThenFind(states, id, id);
  }
}

=== FILE: library_page.dfy ===
/** The digital-library catalogue page: the four shelf buttons, the price
    tag and the dark overlay on each card, and the empty-shelf message. */
module LibraryPage {
  import opened Common

  /** Whether a book stays on the shelf chosen by `active`. "Free" and
      "Paid" look at the category and the discount flag; every other label
      ("Discounted" among them) keeps the discounted books, whatever their
      category. */
  predicate OnShelf(active: string, b: ShelfBook) {
    if active == "Free" then b.category == "free"
    else if active == "Paid" then b.category == "paid" && !b.discounted
    else b.discounted
  }

  /** The books shown under the shelf button `active`, in catalogue
      order. */
  function Shown(books: seq<ShelfBook>, active: string): (r: seq<ShelfBook>)
    ensures active == "All" ==> r == books
    ensures active != "All" ==> forall b :: b in r ==> b in books && OnShelf(active, b)
    ensures active != "All" ==> forall b :: b in books && OnShelf(active, b) ==> b in r
    ensures active == "Free" ==> forall b :: b in r ==> b.category == "free"
    ensures active == "Paid" ==> forall b :: b in r ==> b.category == "paid" && !b.discounted
    ensures active == "Discounted" ==> forall b :: b in r ==> b.discounted
  {
    if active == "All" then books else Filter(books, b => OnShelf(active, b))
  }

  /** Shelving keeps the catalogue's order: shelving two runs of books is
      shelving each run and putting the results side by side. */
  lemma ShownKeepsOrder(a: seq<ShelfBook>, b: seq<ShelfBook>, active: string)
    ensures Shown(a + b, active) == Shown(a, active) + Shown(b, active)
  {
    if active != "All" {
      FilterAppend(a, b, x => OnShelf(active, x));
    }
  }

  /** The paid and discounted shelves never share a book, and every paid
      or free book appears on "All". */
  lemma ShelvesDisjoint(books: seq<ShelfBook>)
    ensures forall b :: b in Shown(books, "Paid") ==> b !in Shown(books, "Discounted")
    ensures forall b :: b in Shown(books, "Free") ==> b in Shown(books, "All")
  {
  }

  /** The corner tag of a card. */
  datatype PriceTag = FreeTag | OfferTag(price: string) | LockedTag(price: string)

  function TagOf(b: ShelfBook): (t: PriceTag)
    ensures t == FreeTag <==> b.category == "free"
    ensures t.OfferTag? <==> b.category != "free" && b.discounted
    ensures t.OfferTag? ==> t.price == b.discountPrice
    ensures t.LockedTag? ==> t.price == b.price && !b.discounted
  {
    if b.category == "free" then FreeTag
    else if b.discounted then OfferTag(b.discountPrice)
    else LockedTag(b.price)
  }

  /** The cover is darkened for paid books that are not on offer. */
  predicate Overlay(b: ShelfBook) {
    b.category == "paid" && !b.discounted
  }

  /** A darkened cover always carries the padlock tag with the full price,
      and a paid book with the padlock tag is darkened. The darkened books
      are exactly those on the "Paid" shelf. */
  lemma OverlayMatchesTag(b: ShelfBook)
    ensures Overlay(b) <==> b.category == "paid" && TagOf(b).LockedTag?
    ensures Overlay(b) ==> TagOf(b) == LockedTag(b.price)
    ensures Overlay(b) <==> OnShelf("Paid", b)
  {
  }

  /** The "No books found" message shows exactly when the shelf is empty,
      that is, when no catalogue book belongs to it. */
  lemma EmptyShelf(books: seq<ShelfBook>, active: string)
    ensures |Shown(books, active)| == 0 <==>
              forall b :: b in books ==> active != "All" && !OnShelf(active, b)
  {
    var r := Shown(books, active);
    if |r| != 0 {
      assert r[0] in r;
    }
    if active == "All" && |books| != 0 {
      assert books[0] in books;
    }
  }
}

=== FILE: library_rules.dfy ===
/** The library back end: a book's final price by sale status, and the
    purchase, download, "my books" and listing rules over the stored
    purchases and downloads. */
module LibraryRules {
  import opened Common

  /** A stored book. Prices are exact decimals. */
  datatype Book = Book(
    title: string,
    author: string,
    category: string,
    status: string,
    price: real,
    discount: real,
    downloadCount: nat,
    isActive: bool)

  /** A book as created without price, discount or download count: both
      amounts start at 0.00 and nobody has downloaded it. */
  function NewBook(title: string, author: string, category: string, status: string): (b: Book)
    ensures b.price == 0.0 && b.discount == 0.0 && b.downloadCount == 0
    ensures b.title == title && b.author == author && b.category == category && b.status == status
  {
    Book(title, author, category, status, 0.0, 0.0, 0, true)
  }

  /** `final_price`: nothing for free books, the price less the discount
      percentage for discounted books, the price for every other status. */
  function FinalPrice(b: Book): (p: real)
    ensures b.status == "free" ==> p == 0.0
    ensures b.status == "discounted" ==> p == b.price - b.price * b.discount / 100.0
    ensures b.status != "free" && b.status != "discounted" ==> p == b.price
  {
    if b.status == "free" then 0.0
    else if b.status == "discounted" then b.price * (1.0 - b.discount / 100.0)
    else b.price
  }

  /** For a discounted book a discount from 0 to 100 percent puts the final
      price between nothing and the full price: 0 percent leaves the price,
      100 percent makes it free, and a larger discount never costs more. */
  lemma DiscountBounds(b: Book, d: real)
    requires b.status == "discounted" && 0.0 <= b.price && 0.0 <= b.discount <= 100.0
    requires b.discount <= d <= 100.0
    ensures 0.0 <= FinalPrice(b) <= b.price
    ensures b.discount == 0.0 ==> FinalPrice(b) == b.price
    ensures b.discount == 100.0 ==> FinalPrice(b) == 0.0
    ensures FinalPrice(b.(discount := d)) <= FinalPrice(b)
  {
    var f := 1.0 - b.discount / 100.0;
    assert 0.0 <= f <= 1.0;
    RealScale(b.price, f);
    var g := 1.0 - d / 100.0;
    assert g <= f;
    RealMonotone(b.price, g, f);
  }

  lemma RealScale(p: real, f: real)
    requires 0.0 <= p && 0.0 <= f <= 1.0
    ensures 0.0 <= p * f <= p
  {
  }

  lemma RealMonotone(p: real, g: real, f: real)
    requires 0.0 <= p && g <= f
    ensures p * g <= p * f
  {
  }

  // ---------------------------------------------------------------------
  // Purchases and downloads

  datatype Purchase = Purchase(user: nat, book: nat, paidAmount: real, paymentMethod: string)

  /** A download record. The address is absent when the view does not
      pass one. */
  datatype Download = Download(user: nat, book: nat, ip: Option<string>)

  /** The stored books by id, and the purchase and download records. */
  datatype Library = Library(books: map<nat, Book>, purchases: seq<Purchase>, downloads: seq<Download>)

  predicate Owns(lib: Library, user: nat, book: nat) {
    exists i :: 0 <= i < |lib.purchases| && lib.purchases[i].user == user && lib.purchases[i].book == book
  }

  /** How many times `user` has downloaded `book`. */
  function DownloadsOf(ds: seq<Download>, user: nat, book: nat): (n: nat)
    ensures n <= |ds|
    ensures n == 0 <==> forall i :: 0 <= i < |ds| ==> !(ds[i].user == user && ds[i].book == book)
  {
    if |ds| == 0 then 0
    else DownloadsOf(ds[..|ds| - 1], user, book)
         + (if ds[|ds| - 1].user == user && ds[|ds| - 1].book == book then 1 else 0)
  }

  /** Appending one record adds one to its own user and book and nothing
      to any other pair. */
  lemma DownloadsOfAppend(ds: seq<Download>, d: Download, user: nat, book: nat)
    ensures DownloadsOf(ds + [d], user, book)
            == DownloadsOf(ds, user, book) + (if d.user == user && d.book == book then 1 else 0)
  {
    assert (ds + [d])[..|ds|] == ds;
  }

  datatype PurchaseOutcome = PurchaseNotFound | AlreadyPurchased | PurchaseFieldInvalid | Bought(lib: Library)

  /** The purchase form: the method is one of the three gateways and the
      card number is present, non-blank and at most 16 characters. */
  predicate PurchaseFormValid(paymentMethod: string, cardNumber: string)
  {
    (paymentMethod == "payme" || paymentMethod == "click" || paymentMethod == "uzum")
    && cardNumber != "" && |cardNumber| <= 16
  }

  /** `BookPurchaseView.create`: refuses a book the user already bought,
      then a form that does not validate; otherwise records one purchase
      paying the book's final price. */
  function PurchaseBook(lib: Library, user: nat, book: nat, paymentMethod: string, cardNumber: string): (o: PurchaseOutcome)
    ensures o.PurchaseNotFound? <==> book !in lib.books
    ensures o.AlreadyPurchased? <==> book in lib.books && Owns(lib, user, book)
    ensures o.PurchaseFieldInvalid? <==>
              book in lib.books && !Owns(lib, user, book) && !PurchaseFormValid(paymentMethod, cardNumber)
    ensures o.Bought? ==>
              o.lib == lib.(purchases := lib.purchases + [Purchase(user, book, FinalPrice(lib.books[book]), paymentMethod)])
  {
    if book !in lib.books then PurchaseNotFound
    else if Owns(lib, user, book) then AlreadyPurchased
    else if !PurchaseFormValid(paymentMethod, cardNumber) then PurchaseFieldInvalid
    else Bought(lib.(purchases := lib.purchases + [Purchase(user, book, FinalPrice(lib.books[book]), paymentMethod)]))
  }

  /** No user holds two purchases of one book. */
  predicate UniquePurchases(lib: Library) {
    forall i, j :: 0 <= i < j < |lib.purchases| ==>
      !(lib.purchases[i].user == lib.purchases[j].user && lib.purchases[i].book == lib.purchases[j].book)
  }

  /** Purchasing keeps purchases unique and makes the book the user's. */
  lemma PurchaseKeepsUnique(lib: Library, user: nat, book: nat, paymentMethod: string, cardNumber: string)
    requires UniquePurchases(lib)
    ensures var o := PurchaseBook(lib, user, book, paymentMethod, cardNumber);
            o.Bought? ==> UniquePurchases(o.lib) && Owns(o.lib, user, book)
  {
    var o := PurchaseBook(lib, user, book, paymentMethod, cardNumber);
    if o.Bought? {
      var ps := o.lib.purchases;
      assert ps[|ps| - 1].user == user && ps[|ps| - 1].book == book;
    }
  }

  datatype DownloadOutcome =
    | DownloadNotFound
    | NeedsPurchase          // 403
    | LimitReached           // 400
    | DuplicateRecord        // the same user, book and address already stored
    | Downloaded(lib: Library)

  /** The book exists and is free or bought by the user. */
  predicate MayDownload(lib: Library, user: nat, book: nat) {
    book in lib.books && (lib.books[book].status == "free" || Owns(lib, user, book))
  }

  /** `BookDownloadView.create`: a book that is not free needs a purchase;
      three downloads per user and book are the limit; a download adds one
      record and one to the book's counter. The record's user, book and
      address must be new, since the database keeps them unique. */
  function DownloadBook(lib: Library, user: nat, book: nat, ip: string): (o: DownloadOutcome)
    ensures o.DownloadNotFound? <==> book !in lib.books
    ensures o.NeedsPurchase? <==> book in lib.books && lib.books[book].status != "free" && !Owns(lib, user, book)
    ensures o.LimitReached? <==> MayDownload(lib, user, book) && 3 <= DownloadsOf(lib.downloads, user, book)
    ensures o.DuplicateRecord? <==>
              MayDownload(lib, user, book) && DownloadsOf(lib.downloads, user, book) < 3
              && Download(user, book, Some(ip)) in lib.downloads
    ensures o.Downloaded? <==>
              MayDownload(lib, user, book) && DownloadsOf(lib.downloads, user, book) < 3
              && Download(user, book, Some(ip)) !in lib.downloads
    ensures o.Downloaded? ==>
              && o.lib.downloads == lib.downloads + [Download(user, book, Some(ip))]
              && o.lib.purchases == lib.purchases
              && o.lib.books == lib.books[book := lib.books[book].(downloadCount := lib.books[book].downloadCount + 1)]
  {
    if book !in lib.books then DownloadNotFound
    else
      var b := lib.books[book];
      if b.status != "free" && !Owns(lib, user, book) then NeedsPurchase
      else if DownloadsOf(lib.downloads, user, book) >= 3 then LimitReached
      else if Download(user, book, Some(ip)) in lib.downloads then DuplicateRecord
      else Downloaded(lib.(downloads := lib.downloads + [Download(user, book, Some(ip))],
                           books := lib.books[book := b.(downloadCount := b.downloadCount + 1)]))
  }

  /** Nobody holds more than three downloads of a book. */
  ghost predicate WithinLimit(lib: Library) {
    forall u: nat, b: nat :: DownloadsOf(lib.downloads, u, b) <= 3
  }

  /** Downloading keeps every user within the limit, adds exactly one to
      the downloader's tally, and leaves everyone else's unchanged. */
  lemma DownloadKeepsLimit(lib: Library, user: nat, book: nat, ip: string)
    requires WithinLimit(lib)
    ensures var o := DownloadBook(lib, user, book, ip);
            o.Downloaded? ==>
              && WithinLimit(o.lib)
              && DownloadsOf(o.lib.downloads, user, book) == DownloadsOf(lib.downloads, user, book) + 1
              && forall u: nat, b: nat :: (u, b) != (user, book) ==>
                   DownloadsOf(o.lib.downloads, u, b) == DownloadsOf(lib.downloads, u, b)
  {
    var o := DownloadBook(lib, user, book, ip);
    if o.Downloaded? {
      forall u: nat, b: nat
        ensures DownloadsOf(o.lib.downloads, u, b)
                == DownloadsOf(lib.downloads, u, b) + (if (u, b) == (user, book) then 1 else 0)
      {
        DownloadsOfAppend(lib.downloads, Download(user, book, Some(ip)), u, b);
      }
    }
  }

  /** The set of books `user` may read: every free book and every book
      they bought, each once. */
  function MyBooks(lib: Library, user: nat): (s: set<nat>)
    ensures forall b :: b in s <==> b in lib.books && (lib.books[b].status == "free" || Owns(lib, user, b))
  {
    set b | b in lib.books && (lib.books[b].status == "free" || Owns(lib, user, b))
  }

  /** The download view refuses with 403 exactly the stored books missing
      from the user's shelf, and a purchase puts the book on it. */
  lemma ShelfMatchesDownloadRight(lib: Library, user: nat, book: nat, ip: string, paymentMethod: string, cardNumber: string)
    requires book in lib.books
    ensures DownloadBook(lib, user, book, ip).NeedsPurchase? <==> book !in MyBooks(lib, user)
    ensures var o := PurchaseBook(lib, user, book, paymentMethod, cardNumber);
            o.Bought? ==> MyBooks(o.lib, user) == MyBooks(lib, user) + {book}
  {
    var o := PurchaseBook(lib, user, book, paymentMethod, cardNumber);
    if o.Bought? {
      var ps := o.lib.purchases;
      assert ps[|ps| - 1].user == user && ps[|ps| - 1].book == book;
      forall b | b in lib.books && Owns(lib, user, b)
        ensures Owns(o.lib, user, b)
      {
        var i :| 0 <= i < |lib.purchases| && lib.purchases[i].user == user && lib.purchases[i].book == b;
        assert ps[i] == lib.purchases[i];
      }
      forall b | b in o.lib.books && Owns(o.lib, user, b) && b != book
        ensures Owns(lib, user, b)
      {
        var i :| 0 <= i < |ps| && ps[i].user == user && ps[i].book == b;
        assert i < |lib.purchases|;
        assert lib.purchases[i] == ps[i];
      }
    }
  }

  /** A `UserActivity` row: whose it is, its type and its title. */
  datatype Activity = Activity(user: nat, kind: string, title: string, description: string)

  datatype SingleDownloadOutcome = InactiveOrMissing | AlreadyDownloaded | Recorded(lib: Library, activity: Activity)

  /** `BookViewSet.download`: only active books; any earlier download of
      the book by the user refuses; otherwise one record is added, without
      an address and without touching the counter, and a "book" activity
      naming the book is written for the user. */
  function DownloadOnce(lib: Library, user: nat, book: nat): (o: SingleDownloadOutcome)
    ensures o.InactiveOrMissing? <==> book !in lib.books || !lib.books[book].isActive
    ensures o.AlreadyDownloaded? <==> book in lib.books && lib.books[book].isActive && 0 < DownloadsOf(lib.downloads, user, book)
    ensures o.Recorded? ==> o.lib == lib.(downloads := lib.downloads + [Download(user, book, None)])
    ensures o.Recorded? ==>
              && o.activity.user == user && o.activity.kind == "book"
              && o.activity.title == "Kitob yuklandi: " + lib.books[book].title
  {
    if book !in lib.books || !lib.books[book].isActive then InactiveOrMissing
    else if exists i :: 0 <= i < |lib.downloads| && lib.downloads[i].user == user && lib.downloads[i].book == book then AlreadyDownloaded
    else
      var title := lib.books[book].title;
      Recorded(lib.(downloads := lib.downloads + [Download(user, book, None)]),
               Activity(user, "book", "Kitob yuklandi: " + title, "Siz " + title + " kitobini yukladingiz"))
  }

  /** Through this route a user downloads a book at most once: after a
      recorded download the tally is exactly one. */
  lemma DownloadOnceIsOnce(lib: Library, user: nat, book: nat)
    ensures var o := DownloadOnce(lib, user, book);
            o.Recorded? ==> DownloadsOf(o.lib.downloads, user, book) == 1 && DownloadOnce(o.lib, user, book).AlreadyDownloaded?
  {
    var o := DownloadOnce(lib, user, book);
    if o.Recorded? {
      DownloadsOfAppend(lib.downloads, Download(user, book, None), user, book);
    }
  }

  // ---------------------------------------------------------------------
  // Listing

  /** `icontains`: a case-insensitive substring test. */
  predicate IContains(field: string, search: string) {
    Contains(Lower(field), Lower(search))
  }

  /** One listing filter: active books only, then the category and the
      status when given (an empty parameter means not given), then the
      search text in the title or the author. */
  predicate Listed(b: Book, category: string, status: string, search: string) {
    && b.isActive
    && (category == "" || b.category == category)
    && (status == "" || b.status == status)
    && (search == "" || IContains(b.title, search) || IContains(b.author, search))
  }

  /** `BookListView.get_queryset`, over the books in their stored order. */
  function ListBooks(books: seq<Book>, category: string, status: string, search: string): (r: seq<Book>)
    ensures forall b :: b in r ==> b in books && b.isActive
    ensures forall b :: b in r && category != "" ==> b.category == category
    ensures forall b :: b in r && status != "" ==> b.status == status
    ensures forall b :: b in r && search != "" ==> IContains(b.title, search) || IContains(b.author, search)
    ensures forall b :: b in books && Listed(b, category, status, search) ==> b in r
  {
    Filter(books, b => Listed(b, category, status, search))
  }

  /** Searching ignores letter case: a search finds what its lower-case
      form finds. */
  lemma SearchIgnoresCase(books: seq<Book>, category: string, status: string, search: string)
    ensures ListBooks(books, category, status, Lower(search)) == ListBooks(books, category, status, search)
  {
    LowerIdempotent(search);
    assert |Lower(search)| == |search|;
    FilterCongruent(books, b => Listed(b, category, status, Lower(search)), b => Listed(b, category, status, search));
  }
}

=== FILE: notification_inbox.dfy ===
/** The notifications API: each user works only on their own
    notifications, marking one or all of them read and counting the unread
    ones. A notification's id is its position in the store. */
module NotificationInbox {

  datatype Notification = Notification(user: nat, kind: string, title: string, isRead: bool)

  /** A notification the requesting user may see: one of their own. */
  predicate Visible(ns: seq<Notification>, user: nat, id: int) {
    0 <= id < |ns| && ns[id].user == user
  }

  /** The ids of the user's unread notifications. */
  function Unread(ns: seq<Notification>, user: nat): (ids: set<nat>)
    ensures forall id: nat :: id in ids <==> Visible(ns, user, id) && !ns[id].isRead
  {
    set id: nat | id < |ns| && ns[id].user == user && !ns[id].isRead
  }

  /** The unread ids among the first `n` notifications. */
  function UnreadBelow(ns: seq<Notification>, user: nat, n: nat): set<nat>
    requires n <= |ns|
  {
    set id: nat | id < n && ns[id].user == user && !ns[id].isRead
  }

  /** `unread_count`, counted one notification at a time. */
  method UnreadCount(ns: seq<Notification>, user: nat) returns (count: nat)
    ensures count == |Unread(ns, user)|
  {
    count := 0;
    var i := 0;
    while i < |ns|
      invariant 0 <= i <= |ns|
      invariant count == |UnreadBelow(ns, user, i)|
    {
      if ns[i].user == user && !ns[i].isRead {
        assert UnreadBelow(ns, user, i + 1) == UnreadBelow(ns, user, i) + {i};
        count := count + 1;
      } else {
        assert UnreadBelow(ns, user, i + 1) == UnreadBelow(ns, user, i);
      }
      i := i + 1;
    }
    assert UnreadBelow(ns, user, |ns|) == Unread(ns, user);
  }

  datatype Marked = NotFound | Marked(store: seq<Notification>)

  /** `mark_as_read`: the one notification becomes read; nothing else
      changes. Another user's notification is not found. */
  function MarkAsRead(ns: seq<Notification>, user: nat, id: int): (o: Marked)
    ensures o.NotFound? <==> !Visible(ns, user, id)
    ensures o.Marked? ==>
              && |o.store| == |ns|
              && o.store[id] == ns[id].(isRead := true)
              && forall j :: 0 <= j < |ns| && j != id ==> o.store[j] == ns[j]
  {
    if !Visible(ns, user, id) then NotFound
    else Marked(ns[id := ns[id].(isRead := true)])
  }

  /** Marking one notification removes exactly that id from the unread
      ones, and marking it again changes nothing. */
  lemma MarkAsReadEffect(ns: seq<Notification>, user: nat, id: int)
    requires Visible(ns, user, id)
    ensures Unread(MarkAsRead(ns, user, id).store, user) == Unread(ns, user) - {id}
    ensures MarkAsRead(MarkAsRead(ns, user, id).store, user, id) == MarkAsRead(ns, user, id)
  {
    var after := MarkAsRead(ns, user, id).store;
    assert after[id := after[id].(isRead := true)] == after;
  }

  /** `mark_all_as_read`: every notification of the user becomes read;
      other users' notifications are untouched. */
  function MarkAllAsRead(ns: seq<Notification>, user: nat): (ms: seq<Notification>)
    ensures |ms| == |ns|
    ensures forall j :: 0 <= j < |ns| ==> ms[j] == (if ns[j].user == user then ns[j].(isRead := true) else ns[j])
  {
    seq(|ns|, j requires 0 <= j < |ns| => if ns[j].user == user then ns[j].(isRead := true) else ns[j])
  }

  /** After marking all, nothing of the user's is unread; marking all again
      changes nothing; no other user's unread set moves. */
  lemma MarkAllEffect(ns: seq<Notification>, user: nat, other: nat)
    requires other != user
    ensures Unread(MarkAllAsRead(ns, user), user) == {}
    ensures MarkAllAsRead(MarkAllAsRead(ns, user), user) == MarkAllAsRead(ns, user)
    ensures Unread(MarkAllAsRead(ns, user), other) == Unread(ns, other)
  {
  }

  /** Marking one is never undone by marking all: both orders end in the
      same store. */
  lemma MarkOneThenAll(ns: seq<Notification>, user: nat, id: int)
    requires Visible(ns, user, id)
    ensures MarkAllAsRead(MarkAsRead(ns, user, id).store, user) == MarkAllAsRead(ns, user)
  {
  }
}

=== FILE: payment_flow.dfy ===
/** The payments API: starting a payment for a course or a book, checking
    it, and the provider's webhook, each leaving one log entry. Payment
    providers are not contacted (their branches are empty); the state is
    an abstract ledger. */
module PaymentFlow {
  import opened Common

  datatype Status = Pending | Completed | Failed | Cancelled

  /** A payment; its id is its position in the ledger. Exactly one of
      `course` and `book` is set, matching `kind`. */
  datatype Payment = Payment(
    user: nat,
    kind: string,
    course: Option<nat>,
    book: Option<nat>,
    amount: real,
    provider: string,
    status: Status)

  datatype LogEntry = LogEntry(payment: nat, action: string, data: string)

  /** What a completed payment grants, and the activity feed and
      notification queue it writes to. */
  datatype Grant = Grant(user: nat, item: nat)
  datatype Activity = Activity(user: nat, kind: string, amount: real)

  datatype Ledger = Ledger(
    coursePrices: map<nat, real>,
    bookPrices: map<nat, real>,
    payments: seq<Payment>,
    logs: seq<LogEntry>,
    enrollments: set<Grant>,
    downloads: seq<Grant>,
    activities: seq<Activity>,
    notices: seq<Grant>)

  /** The payment names the item its kind says, and only that one. */
  predicate PaymentWellFormed(p: Payment) {
    || (p.kind == "course" && p.course.Some? && p.book.None?)
    || (p.kind == "book" && p.book.Some? && p.course.None?)
  }

  predicate LedgerWellFormed(l: Ledger) {
    forall i :: 0 <= i < |l.payments| ==> PaymentWellFormed(l.payments[i])
  }

  /** A payment the requesting user may see: one of their own. */
  predicate Visible(l: Ledger, user: nat, id: nat) {
    id < |l.payments| && l.payments[id].user == user
  }

  /** Strictly decreasing, hence without repeats. */
  predicate Descending(ids: seq<nat>) {
    forall i, j :: 0 <= i < j < |ids| ==> ids[i] > ids[j]
  }

  lemma ConsDescending(x: nat, rest: seq<nat>)
    requires Descending(rest)
    requires forall y :: y in rest ==> y < x
    ensures Descending([x] + rest)
  {
    var ids := [x] + rest;
    forall i, j | 0 <= i < j < |ids|
      ensures ids[i] > ids[j]
    {
      assert ids[j] == rest[j - 1] && rest[j - 1] in rest;
      if i > 0 {
        assert ids[i] == rest[i - 1];
      }
    }
  }

  /** The ids below `n` of the user's payments, highest first. */
  function NewestFirst(ps: seq<Payment>, user: nat, n: nat): (ids: seq<nat>)
    requires n <= |ps|
    ensures forall id: nat :: id in ids <==> id < n && ps[id].user == user
    ensures Descending(ids)
    decreases n
  {
    if n == 0 then []
    else
      var rest := NewestFirst(ps, user, n - 1);
      if ps[n - 1].user == user then
        ConsDescending(n - 1, rest);
        [n - 1] + rest
      else rest
  }

  /** Only the payments below `n` decide the list, so appending to the
      ledger leaves it alone. */
  lemma {:induction false} NewestFirstPrefix(ps: seq<Payment>, qs: seq<Payment>, user: nat, n: nat)
    requires n <= |ps| && n <= |qs| && ps[..n] == qs[..n]
    ensures NewestFirst(ps, user, n) == NewestFirst(qs, user, n)
    decreases n
  {
    if n > 0 {
      assert ps[..n - 1] == ps[..n][..n - 1] && qs[..n - 1] == qs[..n][..n - 1];
      assert ps[n - 1] == ps[..n][n - 1] && qs[n - 1] == qs[..n][n - 1];
      NewestFirstPrefix(ps, qs, user, n - 1);
    }
  }

  /** `history`: the ids of the user's own payments, newest first, as the
      model's `-created_at` ordering asks; a payment created later sits
      further along the ledger. */
  function History(l: Ledger, user: nat): (ids: seq<nat>)
    ensures forall id: nat :: id in ids <==> Visible(l, user, id)
    ensures Descending(ids)
  {
    NewestFirst(l.payments, user, |l.payments|)
  }

  /** A payment just started heads its payer's history; everyone else's
      history is unchanged. */
  lemma InitiateHeadsHistory(l: Ledger, user: nat, kind: string, courseId: Option<nat>, bookId: Option<nat>,
                             provider: Option<string>, data: string, other: nat)
    ensures var o := Initiate(l, user, kind, courseId, bookId, provider, data);
            o.Initiated? ==>
              && History(o.ledger, user) == [o.id] + History(l, user)
              && (other != user ==> History(o.ledger, other) == History(l, other))
  {
    var o := Initiate(l, user, kind, courseId, bookId, provider, data);
    if o.Initiated? {
      var n := |l.payments|;
      assert o.ledger.payments[..n] == l.payments[..n];
      NewestFirstPrefix(o.ledger.payments, l.payments, user, n);
      NewestFirstPrefix(o.ledger.payments, l.payments, other, n);
    }
  }

  // ---------------------------------------------------------------------
  // initiate

  /** `ProviderMissing` is the payment insert failing: the request named
      no provider and the provider column is not nullable. It comes after
      the item lookup, and nothing is written. */
  datatype InitiateOutcome = BadKind | ItemNotFound | ProviderMissing | Initiated(ledger: Ledger, id: nat)

  /** `initiate`: a payment for an existing course or book, for that
      item's price, pending, with one "initiate" log entry. Any other kind
      is refused before anything is written, and so is a request without
      a provider. */
  function Initiate(l: Ledger, user: nat, kind: string, courseId: Option<nat>, bookId: Option<nat>,
                    provider: Option<string>, data: string): (o: InitiateOutcome)
    ensures o.BadKind? <==> kind != "course" && kind != "book"
    ensures o.ItemNotFound? <==>
              || (kind == "course" && !(courseId.Some? && courseId.value in l.coursePrices))
              || (kind == "book" && !(bookId.Some? && bookId.value in l.bookPrices))
    ensures o.ProviderMissing? <==> provider.None? && !o.BadKind? && !o.ItemNotFound?
    ensures o.Initiated? ==>
              && o.id == |l.payments|
              && |o.ledger.payments| == o.id + 1
              && o.ledger.payments[..o.id] == l.payments
              && o.ledger.logs == l.logs + [LogEntry(o.id, "initiate", data)]
              && o.ledger.enrollments == l.enrollments && o.ledger.downloads == l.downloads
              && o.ledger.activities == l.activities && o.ledger.notices == l.notices
              && o.ledger.coursePrices == l.coursePrices && o.ledger.bookPrices == l.bookPrices
    ensures o.Initiated? ==>
              var p := o.ledger.payments[o.id];
              && p.user == user && p.kind == kind && provider == Some(p.provider) && p.status == Pending
              && PaymentWellFormed(p)
              && (kind == "course" ==> courseId.Some? && courseId.value in l.coursePrices &&
                                         p.course == courseId && p.amount == l.coursePrices[courseId.value])
              && (kind == "book" ==> bookId.Some? && bookId.value in l.bookPrices &&
                                       p.book == bookId && p.amount == l.bookPrices[bookId.value])
  {
    if kind == "course" then
      if courseId.None? || courseId.value !in l.coursePrices then ItemNotFound
      else if provider.None? then ProviderMissing
      else
        var p := Payment(user, kind, courseId, None, l.coursePrices[courseId.value], provider.value, Pending);
        Initiated(l.(payments := l.payments + [p], logs := l.logs + [LogEntry(|l.payments|, "initiate", data)]), |l.payments|)
    else if kind == "book" then
      if bookId.None? || bookId.value !in l.bookPrices then ItemNotFound
      else if provider.None? then ProviderMissing
      else
        var p := Payment(user, kind, None, bookId, l.bookPrices[bookId.value], provider.value, Pending);
        Initiated(l.(payments := l.payments + [p], logs := l.logs + [LogEntry(|l.payments|, "initiate", data)]), |l.payments|)
    else BadKind
  }

  /** Starting a payment keeps every payment well formed and leaves the
      earlier payments alone. */
  lemma InitiateKeepsWellFormed(l: Ledger, user: nat, kind: string, courseId: Option<nat>, bookId: Option<nat>,
                                provider: Option<string>, data: string)
    requires LedgerWellFormed(l)
    ensures var o := Initiate(l, user, kind, courseId, bookId, provider, data);
            o.Initiated? ==> LedgerWellFormed(o.ledger) && o.ledger.payments[..|l.payments|] == l.payments
  {
  }

  // ---------------------------------------------------------------------
  // verify

  datatype Checked = PaymentNotFound | Logged(ledger: Ledger)

  /** `verify`: logs the check and changes nothing else. */
  function Verify(l: Ledger, user: nat, id: nat, data: string): (o: Checked)
    ensures o.PaymentNotFound? <==> !Visible(l, user, id)
    ensures o.Logged? ==> o.ledger == l.(logs := l.logs + [LogEntry(id, "verify", data)])
  {
    if !Visible(l, user, id) then PaymentNotFound
    else Logged(l.(logs := l.logs + [LogEntry(id, "verify", data)]))
  }

  // ---------------------------------------------------------------------
  // webhook

  datatype WebhookOutcome =
    | HookNotFound
    | Processed(ledger: Ledger)
      /** The database refuses the grant: the user is already enrolled in
          the course and the unique constraint refuses a second
          enrollment, or the payment names no course or book for its kind
          and the not-null column refuses the row. The log entry written
          before stays. */
    | GrantConflict(ledger: Ledger)

  /** `webhook`: logs the call; for a completed payment it enrolls the
      user in the course or records a download of the book, records an
      activity and queues a notification. A payment in any other status
      changes nothing but the log. */
  function Webhook(l: Ledger, user: nat, id: nat, data: string): (o: WebhookOutcome)
    ensures o.HookNotFound? <==> !Visible(l, user, id)
    ensures !o.HookNotFound? ==>
              var logged := l.(logs := l.logs + [LogEntry(id, "webhook", data)]);
              && (o.GrantConflict? ==> o.ledger == logged)
              && (o.GrantConflict? <==> GrantRefused(l, l.payments[id]))
              && (l.payments[id].status != Completed ==> o == Processed(logged))
    ensures o.Processed? && l.payments[id].status == Completed && PaymentWellFormed(l.payments[id]) ==>
              var p := l.payments[id];
              && o.ledger.payments == l.payments
              && o.ledger.logs == l.logs + [LogEntry(id, "webhook", data)]
              && o.ledger.activities == l.activities + [Activity(p.user, p.kind, p.amount)]
              && o.ledger.notices == l.notices + [Grant(p.user, id)]
              && (p.kind == "course" ==>
                    Grant(p.user, p.course.value) !in l.enrollments &&
                    o.ledger.enrollments == l.enrollments + {Grant(p.user, p.course.value)} &&
                    o.ledger.downloads == l.downloads)
              && (p.kind == "book" ==>
                    o.ledger.downloads == l.downloads + [Grant(p.user, p.book.value)] &&
                    o.ledger.enrollments == l.enrollments)
  {
    if !Visible(l, user, id) then HookNotFound
    else
      var logged := l.(logs := l.logs + [LogEntry(id, "webhook", data)]);
      var p := l.payments[id];
      if p.status != Completed then Processed(logged)
      else
        var finish := (g: Ledger) => g.(activities := g.activities + [Activity(p.user, p.kind, p.amount)],
                                        notices := g.notices + [Grant(p.user, id)]);
        if p.kind == "course" then
          if p.course.None? then GrantConflict(logged)
          else
            var g := Grant(p.user, p.course.value);
            if g in l.enrollments then GrantConflict(logged)
            else Processed(finish(logged.(enrollments := l.enrollments + {g})))
        else if p.kind == "book" then
          if p.book.None? then GrantConflict(logged)
          else Processed(finish(logged.(downloads := l.downloads + [Grant(p.user, p.book.value)])))
        else Processed(finish(logged))
  }

  /** When the webhook's grant for a payment is refused by the database:
      the payment is completed and either is for a course it names none
      of or the user already has, or is for a book it names none of. */
  predicate GrantRefused(l: Ledger, p: Payment)
  {
    && p.status == Completed
    && ((p.kind == "course" && (p.course.None? || Grant(p.user, p.course.value) in l.enrollments))
        || (p.kind == "book" && p.book.None?))
  }

  /** No operation of the API changes a payment's status: payments start
      pending and only something outside these views can complete them. */
  lemma StatusOnlyChangesOutside(l: Ledger, user: nat, id: nat, i: nat, data: string)
    requires i < |l.payments|
    ensures var v := Verify(l, user, id, data);
            v.Logged? ==> v.ledger.payments[i].status == l.payments[i].status
    ensures var w := Webhook(l, user, id, data);
            !w.HookNotFound? ==> w.ledger.payments[i].status == l.payments[i].status
  {
  }

  /** Every call that finds its payment adds exactly one log entry, tagged
      with the call's name. */
  lemma OneLogEntryPerCall(l: Ledger, user: nat, id: nat, data: string)
    ensures var v := Verify(l, user, id, data);
            v.Logged? ==> |v.ledger.logs| == |l.logs| + 1 && v.ledger.logs[|l.logs|].action == "verify"
    ensures var w := Webhook(l, user, id, data);
            !w.HookNotFound? ==> |w.ledger.logs| == |l.logs| + 1 && w.ledger.logs[|l.logs|].action == "webhook"
  {
  }

  /** A webhook for a payment that has just been started grants nothing. */
  lemma FreshPaymentGrantsNothing(l: Ledger, user: nat, kind: string, courseId: Option<nat>, bookId: Option<nat>,
                                  provider: Option<string>, data: string, hookData: string)
    ensures var o := Initiate(l, user, kind, courseId, bookId, provider, data);
            o.Initiated? ==>
              var w := Webhook(o.ledger, user, o.id, hookData);
              && w.Processed?
              && w.ledger.enrollments == l.enrollments && w.ledger.downloads == l.downloads
              && w.ledger.activities == l.activities && w.ledger.notices == l.notices
  {
  }
}

=== FILE: quiz_session.dfy ===
/** The timed quiz page: one attempt at a test, with a current question,
    index-aligned answer slots, a countdown in seconds and, at the end, a
    scored result handed to the results page. The one-second timer is an
    explicit `Tick` step. */
module QuizSession {
  import opened Common

  /** A multiple-choice question; `correctAnswer` is the index of the right option. */
  datatype Question = Question(id: int, text: string, options: seq<string>, correctAnswer: int)

  /** A test as the page holds it; `timeLimit` is in seconds. */
  datatype Quiz = Quiz(id: int, title: string, timeLimit: int, questions: seq<Question>)

  /** The page state: the current question, one slot per question
      (`None` for `null`, otherwise the chosen option index) and the
      seconds left on the clock. */
  datatype Session = Session(index: int, answers: seq<Option<int>>, remaining: int)

  /** The record stored for the results page; `testId` is the route parameter. */
  datatype QuizResult = QuizResult(
    testId: string,
    correct: int,
    incorrect: int,
    unanswered: int,
    score: int,
    answers: seq<Option<int>>,
    timeSpent: int)

  /** What a tick produces: the new state, and whether it ended the test. */
  datatype TickOutcome = TickOutcome(session: Session, timedOut: bool)

  /** The button shown to the right of "Previous". */
  datatype PrimaryAction = NextButton | FinishButton

  /** The invariant every reachable page state keeps. */
  predicate Valid(quiz: Quiz, s: Session) {
    && 1 <= |quiz.questions|
    && |s.answers| == |quiz.questions|
    && 0 <= s.index < |quiz.questions|
    && 0 <= s.remaining <= quiz.timeLimit
  }

  /** The state the page mounts with. */
  function Start(quiz: Quiz): (s: Session)
    ensures s.index == 0
    ensures |s.answers| == |quiz.questions|
    ensures forall i :: 0 <= i < |s.answers| ==> s.answers[i] == None
    ensures s.remaining == quiz.timeLimit
    ensures 1 <= |quiz.questions| && 0 <= quiz.timeLimit ==> Valid(quiz, s)
  {
    Session(0, seq(|quiz.questions|, _ => None), quiz.timeLimit)
  }

  /** Choosing an option writes the current question's slot only. */
  function Select(s: Session, option: int): (r: Session)
    requires 0 <= s.index < |s.answers|
    ensures r.index == s.index && r.remaining == s.remaining
    ensures |r.answers| == |s.answers|
    ensures r.answers[s.index] == Some(option)
    ensures forall j :: 0 <= j < |s.answers| && j != s.index ==> r.answers[j] == s.answers[j]
  {
    s.(answers := s.answers[s.index := Some(option)])
  }

  /** Re-answering a question replaces the earlier choice. */
  lemma SelectOverwrites(s: Session, first: int, second: int)
    requires 0 <= s.index < |s.answers|
    ensures Select(Select(s, first), second) == Select(s, second)
  {
  }

  /** "Next" moves forward only below the last question. */
  function Next(quiz: Quiz, s: Session): (r: Session)
    ensures r.answers == s.answers && r.remaining == s.remaining
    ensures s.index < |quiz.questions| - 1 ==> r.index == s.index + 1
    ensures s.index >= |quiz.questions| - 1 ==> r == s
  {
    if s.index < |quiz.questions| - 1 then s.(index := s.index + 1) else s
  }

  /** "Previous" moves back only above the first question. */
  function Prev(s: Session): (r: Session)
    ensures r.answers == s.answers && r.remaining == s.remaining
    ensures s.index > 0 ==> r.index == s.index - 1
    ensures s.index <= 0 ==> r == s
  {
    if s.index > 0 then s.(index := s.index - 1) else s
  }

  /** One second of the countdown: at one second or less the clock stops at
      zero and the test is finished; otherwise exactly one second goes. */
  function Tick(s: Session): (r: TickOutcome)
    ensures r.session.index == s.index && r.session.answers == s.answers
    ensures r.timedOut <==> s.remaining <= 1
    ensures r.timedOut ==> r.session.remaining == 0
    ensures !r.timedOut ==> r.session.remaining == s.remaining - 1
    ensures 0 <= r.session.remaining
  {
    if s.remaining <= 1 then TickOutcome(s.(remaining := 0), true)
    else TickOutcome(s.(remaining := s.remaining - 1), false)
  }

  /** "Finish Test" takes the place of "Next" on the last question. */
  function Primary(quiz: Quiz, s: Session): PrimaryAction {
    if s.index == |quiz.questions| - 1 then FinishButton else NextButton
  }

  /** The button rule agrees with the navigation guard: "Next" is offered
      exactly when pressing it moves forward, and "Finish Test" exactly on
      the last question, where "Next" would do nothing. */
  lemma PrimaryMatchesNext(quiz: Quiz, s: Session)
    requires Valid(quiz, s)
    ensures Primary(quiz, s) == NextButton <==> Next(quiz, s).index == s.index + 1
    ensures Primary(quiz, s) == FinishButton <==> Next(quiz, s) == s
  {
  }

  lemma SelectKeepsValid(quiz: Quiz, s: Session, option: int)
    requires Valid(quiz, s)
    ensures Valid(quiz, Select(s, option))
  {
  }

  lemma NavigationKeepsValid(quiz: Quiz, s: Session)
    requires Valid(quiz, s)
    ensures Valid(quiz, Next(quiz, s))
    ensures Valid(quiz, Prev(s))
  {
  }

  /** A tick keeps the invariant and never increases the remaining time. */
  lemma TickKeepsValid(quiz: Quiz, s: Session)
    requires Valid(quiz, s)
    ensures Valid(quiz, Tick(s).session)
    ensures Tick(s).session.remaining <= s.remaining
  {
  }

  // ---------------------------------------------------------------------
  // Runs of user and timer events

  datatype Event = Choose(option: int) | GoNext | GoPrev | Second

  /** The effect of one event; only a second can end the test. */
  function Step(quiz: Quiz, s: Session, e: Event): TickOutcome
    requires 0 <= s.index < |s.answers|
  {
    match e
    case Choose(o) => TickOutcome(Select(s, o), false)
    case GoNext => TickOutcome(Next(quiz, s), false)
    case GoPrev => TickOutcome(Prev(s), false)
    case Second => Tick(s)
  }

  lemma StepKeepsValid(quiz: Quiz, s: Session, e: Event)
    requires Valid(quiz, s)
    ensures Valid(quiz, Step(quiz, s, e).session)
    ensures Step(quiz, s, e).session.remaining <= s.remaining
  {
  }

  /** Applies events in order until a tick ends the test; events after
      that are never delivered because the page has moved on. Every state
      reachable this way from a valid state is valid: the index stays in
      [0, n-1], the slots stay index-aligned and the clock stays within
      [0, timeLimit] and never goes up. */
  function Run(quiz: Quiz, s: Session, events: seq<Event>): (r: TickOutcome)
    requires Valid(quiz, s)
    ensures Valid(quiz, r.session)
    ensures r.session.remaining <= s.remaining
    decreases |events|
  {
    if |events| == 0 then TickOutcome(s, false)
    else
      var o := Step(quiz, s, events[0]);
      StepKeepsValid(quiz, s, events[0]);
      if o.timedOut then o else Run(quiz, o.session, events[1..])
  }

  /** `k` seconds with no other input. */
  function Seconds(k: nat): (es: seq<Event>)
    ensures |es| == k
    ensures forall i :: 0 <= i < k ==> es[i] == Second
  {
    seq(k, _ => Second)
  }

  /** Fewer ticks than seconds left take exactly that many seconds off the
      clock and do not end the test. */
  lemma {:induction false} TicksCountDown(quiz: Quiz, s: Session, k: nat)
    requires Valid(quiz, s)
    requires k == 0 || k < s.remaining
    ensures Run(quiz, s, Seconds(k)) == TickOutcome(s.(remaining := s.remaining - k), false)
    decreases k
  {
    if k > 0 {
      var s' := s.(remaining := s.remaining - 1);
      assert Step(quiz, s, Second) == TickOutcome(s', false);
      assert Seconds(k)[1..] == Seconds(k - 1);
      TicksCountDown(quiz, s', k - 1);
    }
  }

  /** With no input at all, the test times out after exactly `timeLimit`
      ticks (one tick for a limit of zero), with the clock at zero and the
      answers untouched. */
  lemma TimesOutAtLimit(quiz: Quiz)
    requires 1 <= |quiz.questions|
    requires 0 <= quiz.timeLimit
    ensures var k := if quiz.timeLimit == 0 then 1 else quiz.timeLimit;
            Run(quiz, Start(quiz), Seconds(k)) == TickOutcome(Start(quiz).(remaining := 0), true)
  {
    var s := Start(quiz);
    var k := if quiz.timeLimit == 0 then 1 else quiz.timeLimit;
    TicksCountDown(quiz, s, k - 1);
    var before := s.(remaining := s.remaining - (k - 1));
    assert Seconds(k) == Seconds(k - 1) + [Second];
    RunAppendLast(quiz, s, Seconds(k - 1), Second);
  }

  /** A run split before its last event. */
  lemma {:induction false} RunAppendLast(quiz: Quiz, s: Session, events: seq<Event>, e: Event)
    requires Valid(quiz, s)
    ensures var o := Run(quiz, s, events);
            Run(quiz, s, events + [e]) == if o.timedOut then o else Step(quiz, o.session, e)
    decreases |events|
  {
    if |events| == 0 {
      assert events + [e] == [e];
    } else {
      assert (events + [e])[0] == events[0];
      assert (events + [e])[1..] == events[1..] + [e];
      StepKeepsValid(quiz, s, events[0]);
      var o := Step(quiz, s, events[0]);
      if !o.timedOut {
        RunAppendLast(quiz, o.session, events[1..], e);
      }
    }
  }

  // ---------------------------------------------------------------------
  // Scoring

  /** Whether a slot holds the question's right option. */
  predicate IsCorrect(q: Question, a: Option<int>) {
    a == Some(q.correctAnswer)
  }

  /** Number of slots among the first `i` that hold the right option. */
  function CorrectCount(qs: seq<Question>, answers: seq<Option<int>>): (c: nat)
    requires |answers| == |qs|
    ensures c <= |qs|
  {
    if |qs| == 0 then 0
    else
      CorrectCount(qs[..|qs| - 1], answers[..|qs| - 1])
        + (if IsCorrect(qs[|qs| - 1], answers[|qs| - 1]) then 1 else 0)
  }

  /** Number of slots that hold any option at all. */
  function AnsweredCount(answers: seq<Option<int>>): (c: nat)
    ensures c <= |answers|
  {
    if |answers| == 0 then 0
    else AnsweredCount(answers[..|answers| - 1]) + (if answers[|answers| - 1].Some? then 1 else 0)
  }

  /** A right answer is in particular an answer. */
  lemma {:induction false} CorrectAreAnswered(qs: seq<Question>, answers: seq<Option<int>>)
    requires |answers| == |qs|
    ensures CorrectCount(qs, answers) <= AnsweredCount(answers)
    decreases |qs|
  {
    if |qs| > 0 {
      CorrectAreAnswered(qs[..|qs| - 1], answers[..|qs| - 1]);
    }
  }

  /** `Math.round(correct / n * 100)`: the nearest whole percentage, with
      halves rounded up. */
  function RoundedPercent(correct: nat, n: nat): (r: int)
    requires 0 < n
  {
    (200 * correct + n) / (2 * n)
  }

  /** The rounded score is within half a point of the exact percentage
      `100 * correct / n`, a half going up (stated without division:
      `r - 1/2 <= 100 * correct / n < r + 1/2`), and lies in [0, 100]; no
      right answer gives 0 and all right answers give 100. */
  lemma RoundedPercentMeaning(correct: nat, n: nat)
    requires 0 < n && correct <= n
    ensures var r := RoundedPercent(correct, n);
            && 2 * n * r - n <= 200 * correct < 2 * n * r + n
            && 0 <= r <= 100
            && (correct == 0 ==> r == 0)
            && (correct == n ==> r == 100)
  {
    var r := RoundedPercent(correct, n);
    var d := 2 * n;
    DivBounds(200 * correct + n, d);
    assert d * r <= 200 * correct + n < d * r + d;
    PercentAtMostHundred(correct, n);
    if correct == 0 && r >= 1 {
      MulMonotone(d, 1, r);
    }
    if correct == n {
      assert 200 * correct + n == d * 100 + n;
      if r <= 99 {
        MulMonotone(d, r, 99);
      }
    }
  }

  lemma PercentAtMostHundred(correct: nat, n: nat)
    requires 0 < n && correct <= n
    ensures RoundedPercent(correct, n) <= 100
  {
    var q := RoundedPercent(correct, n);
    DivBounds(200 * correct + n, 2 * n);
    assert 2 * n * q <= 200 * correct + n <= 2 * n * 100 + n < 2 * n * 101;
    if q >= 101 {
      MulMonotone(2 * n, 101, q);
    }
  }

  /** The result of finishing in state `s`, defined from the counting
      functions: each slot is right, wrong (answered but not right) or
      empty, and the three counts add up to the number of questions. */
  function ResultOf(quiz: Quiz, routeId: string, s: Session): (r: QuizResult)
    requires 1 <= |quiz.questions|
    requires |s.answers| == |quiz.questions|
    ensures r.testId == routeId
    ensures r.correct == CorrectCount(quiz.questions, s.answers)
    ensures r.correct + r.incorrect == AnsweredCount(s.answers)
    ensures r.unanswered == |s.answers| - AnsweredCount(s.answers)
    ensures 0 <= r.correct && 0 <= r.incorrect && 0 <= r.unanswered
    ensures r.correct + r.incorrect + r.unanswered == |quiz.questions|
    ensures 0 <= r.score <= 100
    ensures 2 * |quiz.questions| * r.score - |quiz.questions| <= 200 * r.correct < 2 * |quiz.questions| * r.score + |quiz.questions|
    ensures r.answers == s.answers
    ensures r.timeSpent == quiz.timeLimit - s.remaining
    ensures Valid(quiz, s) ==> 0 <= r.timeSpent <= quiz.timeLimit
  {
    var n := |quiz.questions|;
    var correct := CorrectCount(quiz.questions, s.answers);
    var incorrect := AnsweredCount(s.answers) - correct;
    CorrectAreAnswered(quiz.questions, s.answers);
    RoundedPercentMeaning(correct, n);
    QuizResult(routeId, correct, incorrect, n - correct - incorrect,
               RoundedPercent(correct, n), s.answers, quiz.timeLimit - s.remaining)
  }

  /** `handleFinishTest`: one pass over the slots as the page's `forEach`
      does, counting a slot right when it equals the right option and wrong
      when it is set but different; it builds exactly `ResultOf`. */
  method FinishTest(quiz: Quiz, routeId: string, s: Session) returns (r: QuizResult)
    requires 1 <= |quiz.questions|
    requires |s.answers| == |quiz.questions|
    ensures r == ResultOf(quiz, routeId, s)
  {
    var qs := quiz.questions;
    var n := |qs|;
    var correct := 0;
    var incorrect := 0;
    var i := 0;
    while i < n
      invariant 0 <= i <= n
      invariant correct == CorrectCount(qs[..i], s.answers[..i])
      invariant correct + incorrect == AnsweredCount(s.answers[..i])
    {
      assert qs[..i + 1][..i] == qs[..i];
      assert s.answers[..i + 1][..i] == s.answers[..i];
      var selected := s.answers[i];
      if selected == Some(qs[i].correctAnswer) {
        correct := correct + 1;
      } else if selected != None {
        incorrect := incorrect + 1;
      }
      i := i + 1;
    }
    assert qs[..n] == qs;
    assert s.answers[..n] == s.answers;
    var score := RoundedPercent(correct, n);
    r := QuizResult(routeId, correct, incorrect, n - correct - incorrect, score, s.answers, quiz.timeLimit - s.remaining);
  }

  /** An attempt with every slot empty scores 0; one with every slot right scores 100. */
  lemma ScoreExtremes(quiz: Quiz, routeId: string, s: Session)
    requires 1 <= |quiz.questions|
    requires |s.answers| == |quiz.questions|
    ensures (forall i :: 0 <= i < |s.answers| ==> s.answers[i] == None) ==> ResultOf(quiz, routeId, s).score == 0
    ensures (forall i :: 0 <= i < |s.answers| ==> IsCorrect(quiz.questions[i], s.answers[i])) ==>
              ResultOf(quiz, routeId, s).score == 100
  {
    RoundedPercentMeaning(0, |quiz.questions|);
    RoundedPercentMeaning(|quiz.questions|, |quiz.questions|);
    if forall i :: 0 <= i < |s.answers| ==> s.answers[i] == None {
      NoneAnswered(s.answers);
      CorrectAreAnswered(quiz.questions, s.answers);
    }
    if forall i :: 0 <= i < |s.answers| ==> IsCorrect(quiz.questions[i], s.answers[i]) {
      AllCorrectCount(quiz.questions, s.answers);
    }
  }

  lemma {:induction false} AllCorrectCount(qs: seq<Question>, answers: seq<Option<int>>)
    requires |answers| == |qs|
    requires forall i :: 0 <= i < |answers| ==> IsCorrect(qs[i], answers[i])
    ensures CorrectCount(qs, answers) == |qs|
    decreases |qs|
  {
    if |qs| > 0 {
      AllCorrectCount(qs[..|qs| - 1], answers[..|qs| - 1]);
    }
  }

  lemma {:induction false} NoneAnswered(answers: seq<Option<int>>)
    requires forall i :: 0 <= i < |answers| ==> answers[i] == None
    ensures AnsweredCount(answers) == 0
    decreases |answers|
  {
    if |answers| > 0 {
      NoneAnswered(answers[..|answers| - 1]);
    }
  }
}

=== FILE: settings_page.dfy ===
/** The settings page's notification switch and its "type DELETE to
    confirm" account-deletion panel. */
module SettingsPage {
  import opened Common

  datatype ToastKind = SuccessToast | ErrorToast
  datatype Toast = Toast(kind: ToastKind, message: string)

  datatype Settings = Settings(
    notifications: bool,
    showDeleteConfirm: bool,
    deleteConfirmText: string,
    toast: Option<Toast>)

  /** Notifications on, the panel closed and empty, no toast. */
  const Initial := Settings(true, false, "", None)

  const ConfirmWord := "DELETE"

  /** The switch flips the flag and announces the new setting. */
  function ToggleNotifications(s: Settings): (t: Settings)
    ensures t.notifications == !s.notifications
    ensures t.toast.Some? && t.toast.value.kind == SuccessToast
    ensures t.toast.value.message == "Notifications enabled" <==> t.notifications
    ensures t.toast.value.message == "Notifications disabled" <==> !t.notifications
    ensures t.showDeleteConfirm == s.showDeleteConfirm && t.deleteConfirmText == s.deleteConfirmText
  {
    var on := !s.notifications;
    s.(notifications := on,
       toast := Some(Toast(SuccessToast, "Notifications " + (if on then "enabled" else "disabled"))))
  }

  /** Two flips restore the setting. */
  lemma ToggleTwice(s: Settings)
    ensures ToggleNotifications(ToggleNotifications(s)).notifications == s.notifications
  {
  }

  /** The delete button is greyed out and disabled until the exact word is
      typed. */
  predicate DeleteDisabled(s: Settings) {
    s.deleteConfirmText != ConfirmWord
  }

  /** Typing into the confirmation box: the box shows what was typed, the
      delete button becomes enabled exactly when that is the word, and
      the switch, the panel and the toast stay as they were. */
  function TypeConfirm(s: Settings, text: string): (t: Settings)
    ensures DeleteDisabled(t) <==> text != ConfirmWord
    ensures t.deleteConfirmText == text
    ensures t.notifications == s.notifications && t.showDeleteConfirm == s.showDeleteConfirm && t.toast == s.toast
  {
    s.(deleteConfirmText := text)
  }

  /** Without the exact word nothing happens; with it the page explains
      that the demo cannot delete accounts, closes the panel and clears the
      box. */
  function DeleteAccount(s: Settings): (t: Settings)
    ensures s.deleteConfirmText != ConfirmWord ==> t == s
    ensures s.deleteConfirmText == ConfirmWord ==>
              !t.showDeleteConfirm && t.deleteConfirmText == ""
              && t.toast == Some(Toast(ErrorToast, "This is a demo. Your account cannot be deleted."))
              && t.notifications == s.notifications
  {
    if s.deleteConfirmText != ConfirmWord then s
    else s.(toast := Some(Toast(ErrorToast, "This is a demo. Your account cannot be deleted.")),
            showDeleteConfirm := false,
            deleteConfirmText := "")
  }

  /** Cancel closes the panel and clears the box. */
  function Cancel(s: Settings): (t: Settings)
    ensures !t.showDeleteConfirm && t.deleteConfirmText == ""
    ensures t.notifications == s.notifications && t.toast == s.toast
  {
    s.(showDeleteConfirm := false, deleteConfirmText := "")
  }

  /** The deletion acts exactly when its button is enabled, and afterwards
      the button is disabled again, so one confirmation acts once. Any
      text other than the word, "delete" and "DELETE " included, keeps it
      disabled. */
  lemma DeleteGate(s: Settings)
    ensures DeleteAccount(s) != s <==> !DeleteDisabled(s)
    ensures DeleteDisabled(DeleteAccount(s))
    ensures DeleteDisabled(Cancel(s))
    ensures DeleteDisabled(TypeConfirm(s, "delete")) && DeleteDisabled(TypeConfirm(s, "DELETE "))
  {
    if !DeleteDisabled(s) {
      assert DeleteAccount(s).deleteConfirmText != s.deleteConfirmText;
    }
  }
}

=== FILE: test_grading.dfy ===
/** Server-side grading of a submitted test: the answer-map scorer with its
    truncating percentage and five-band message, and the `submit` action
    that grades a list of chosen options. */
module TestGrading {
  import opened Common

  // ---------------------------------------------------------------------
  // The answer-map scorer

  /** The four option letters a question can name as correct. */
  datatype Letter = A | B | C | D

  /** A stored question: its id (as the string the answer map is keyed by)
      and its correct letter. */
  datatype ServerQuestion = ServerQuestion(id: string, correctOption: Letter)

  /** A question is answered correctly when its id is a key of the answer
      map and the letter stored under it is the correct one. */
  predicate Answered(q: ServerQuestion, answers: map<string, Letter>) {
    q.id in answers && answers[q.id] == q.correctOption
  }

  /** How many of `qs` are answered correctly. */
  function CountCorrect(qs: seq<ServerQuestion>, answers: map<string, Letter>): (c: nat)
    ensures c <= |qs|
  {
    if |qs| == 0 then 0
    else CountCorrect(qs[..|qs| - 1], answers) + (if Answered(qs[|qs| - 1], answers) then 1 else 0)
  }

  /** Every question is answered correctly exactly when the count reaches
      the number of questions. */
  lemma {:induction false} CountCorrectAll(qs: seq<ServerQuestion>, answers: map<string, Letter>)
    ensures CountCorrect(qs, answers) == |qs| <==> forall i :: 0 <= i < |qs| ==> Answered(qs[i], answers)
  {
    if |qs| > 0 {
      var init := qs[..|qs| - 1];
      CountCorrectAll(init, answers);
      assert forall i :: 0 <= i < |init| ==> init[i] == qs[i];
      if CountCorrect(qs, answers) == |qs| {
        assert CountCorrect(init, answers) == |init|;
      }
    }
  }

  /** No question is answered correctly exactly when the count is 0; in
      particular an empty answer map scores nothing. */
  lemma {:induction false} CountCorrectNone(qs: seq<ServerQuestion>, answers: map<string, Letter>)
    ensures CountCorrect(qs, answers) == 0 <==> forall i :: 0 <= i < |qs| ==> !Answered(qs[i], answers)
  {
    if |qs| > 0 {
      var init := qs[..|qs| - 1];
      CountCorrectNone(init, answers);
      assert forall i :: 0 <= i < |init| ==> init[i] == qs[i];
    }
  }

  /** Keys that name none of the test's questions do not change the count:
      only the test's own questions are looked up. */
  lemma {:induction false} ForeignKeysIgnored(qs: seq<ServerQuestion>, answers: map<string, Letter>, key: string, l: Letter)
    requires forall i :: 0 <= i < |qs| ==> qs[i].id != key
    ensures CountCorrect(qs, answers[key := l]) == CountCorrect(qs, answers)
  {
    if |qs| > 0 {
      ForeignKeysIgnored(qs[..|qs| - 1], answers, key, l);
    }
  }

  /** The five feedback messages. A score gets the first band whose lower
      bound it reaches: 90, 80, 70, 60, or none. */
  function Message(score: int): (m: string)
    ensures m == "Ajoyib natija!" <==> 90 <= score
    ensures m == "Yaxshi natija!" <==> 80 <= score < 90
    ensures m == "Yaxshi!" <==> 70 <= score < 80
    ensures m == "Qoniqarli!" <==> 60 <= score < 70
    ensures m == "Qayta urinib ko'ring!" <==> score < 60
  {
    if score >= 90 then "Ajoyib natija!"
    else if score >= 80 then "Yaxshi natija!"
    else if score >= 70 then "Yaxshi!"
    else if score >= 60 then "Qoniqarli!"
    else "Qayta urinib ko'ring!"
  }

  /** What the scorer answers: a refused payload, a crash when the test
      has no questions (the percentage divides by the question count), or
      the grade. */
  datatype Graded =
    | InvalidAnswers
    | DivisionByZero
    | Graded(score: nat, total: nat, correct: nat, message: string)

  /** The text of each letter, as the request carries it. */
  function LetterText(l: Letter): string {
    match l
    case A => "A"
    case B => "B"
    case C => "C"
    case D => "D"
  }

  /** The answer serializer's choice field: exactly the four letter texts
      are accepted. */
  function ParseLetter(t: string): (r: Option<Letter>)
    ensures r.Some? <==> t == "A" || t == "B" || t == "C" || t == "D"
    ensures r.Some? ==> LetterText(r.value) == t
    ensures forall l: Letter :: t == LetterText(l) ==> r == Some(l)
  {
    if t == "A" then Some(A)
    else if t == "B" then Some(B)
    else if t == "C" then Some(C)
    else if t == "D" then Some(D)
    else None
  }

  /** The request's `answers`: `None` when it is missing or not an object,
      otherwise each key's value as text. */
  type AnswerPayload = Option<map<string, string>>

  /** The serializer accepts the answers exactly when they are an object
      and every value names a letter. */
  predicate ValidAnswers(payload: AnswerPayload) {
    payload.Some? && forall key :: key in payload.value ==> ParseLetter(payload.value[key]).Some?
  }

  /** The validated answer map: the same keys, each with its letter. */
  function Letters(raw: map<string, string>): (m: map<string, Letter>)
    requires forall key :: key in raw ==> ParseLetter(raw[key]).Some?
    ensures m.Keys == raw.Keys
    ensures forall key :: key in m ==> LetterText(m[key]) == raw[key]
  {
    map key | key in raw :: ParseLetter(raw[key]).value
  }

  /** A stored `TestResult`: who took which test and the percentage; its
      feedback stays blank. */
  datatype StoredResult = StoredResult(user: nat, test: nat, score: nat)

  /** `TestSubmitView.create`: a payload the serializer refuses is a 400
      before anything is counted; otherwise it counts the correctly
      answered questions of the test, stores a result with the truncated
      percentage for the user, and reports it with its message. A refusal
      or a crash stores nothing. */
  method GradeSubmission(qs: seq<ServerQuestion>, payload: AnswerPayload,
                         results: seq<StoredResult>, user: nat, test: nat)
    returns (g: Graded, stored: seq<StoredResult>)
    ensures g.InvalidAnswers? <==> !ValidAnswers(payload)
    ensures g.DivisionByZero? <==> ValidAnswers(payload) && |qs| == 0
    ensures !g.Graded? ==> stored == results
    ensures g.Graded? ==> stored == results + [StoredResult(user, test, g.score)]
    ensures g.Graded? ==> ValidAnswers(payload) && g.total == |qs| && g.correct == CountCorrect(qs, Letters(payload.value))
    ensures g.Graded? ==> g.total * g.score <= 100 * g.correct < g.total * g.score + g.total
    ensures g.Graded? ==> g.score <= 100 && (g.score == 100 <==> g.correct == g.total)
    ensures g.Graded? ==> g.message == Message(g.score)
  {
    if !ValidAnswers(payload) {
      return InvalidAnswers, results;
    }
    var answers := Letters(payload.value);
    var correct := 0;
    var i := 0;
    while i < |qs|
      invariant 0 <= i <= |qs|
      invariant correct == CountCorrect(qs[..i], answers)
    {
      assert qs[..i + 1][..i] == qs[..i];
      if qs[i].id in answers && answers[qs[i].id] == qs[i].correctOption {
        correct := correct + 1;
      }
      i := i + 1;
    }
    assert qs[..i] == qs;
    if |qs| == 0 {
      return DivisionByZero, results;
    }
    var score := TruncPercent(correct, |qs|);
    g := Graded(score, |qs|, correct, Message(score));
    stored := results + [StoredResult(user, test, score)];
  }

  /** A perfect answer map earns the top message and an empty one the
      lowest, whatever the number of questions. */
  lemma GradeExtremes(qs: seq<ServerQuestion>, answers: map<string, Letter>)
    requires 0 < |qs|
    ensures (forall i :: 0 <= i < |qs| ==> Answered(qs[i], answers)) ==>
              Message(TruncPercent(CountCorrect(qs, answers), |qs|)) == "Ajoyib natija!"
    ensures (forall i :: 0 <= i < |qs| ==> !Answered(qs[i], answers)) ==>
              Message(TruncPercent(CountCorrect(qs, answers), |qs|)) == "Qayta urinib ko'ring!"
  {
    CountCorrectAll(qs, answers);
    CountCorrectNone(qs, answers);
  }

  // ---------------------------------------------------------------------
  // The `submit` action

  /** A stored answer option: the question it belongs to and whether it is
      a right answer. */
  datatype ServerOption = ServerOption(questionId: string, isCorrect: bool)

  /** One submitted pair of ids. */
  datatype ChosenOption = ChosenOption(questionId: string, optionId: int)

  /** What the database holds that `submit` reads: the ids of every stored
      question, every stored option by id, and the question ids of the test
      being submitted. */
  datatype Catalogue = Catalogue(
    questionIds: set<string>,
    options: map<int, ServerOption>,
    testQuestions: set<string>)

  /** A stored `TestResult` row of `submit`: the row created before the
      answers are stored, and the same row once it is graded. */
  datatype ResultRow =
    | Started(user: nat, test: nat)
    | Completed(user: nat, test: nat, correct: int, incorrect: int, score: int)

  /** A stored `UserAnswer`: the result row it belongs to (its position),
      the question, the option and whether the option is a right one. */
  datatype AnswerRow = AnswerRow(result: nat, questionId: string, optionId: int, isCorrect: bool)

  /** The `UserActivity` recorded for a graded test. */
  datatype TestActivity = TestActivity(user: nat, test: nat, score: int)

  /** The rows `submit` writes to. */
  datatype Store = Store(results: seq<ResultRow>, answers: seq<AnswerRow>, activities: seq<TestActivity>)

  /** The outcome of `submit`. Every outcome after the two early refusals
      carries the store as the action leaves it: nothing runs in a
      transaction, so the rows written before a failure stay. */
  datatype SubmitOutcome =
    | AlreadySubmitted
    | NoAnswers
    | NotFound(store: Store)
    | DuplicateAnswer(store: Store)
    | ZeroQuestions(store: Store)
    | Submitted(store: Store, correct: int, incorrect: int, score: int)

  /** The user already has a result row for the test. */
  predicate HasResult(results: seq<ResultRow>, user: nat, test: nat) {
    exists i :: 0 <= i < |results| && results[i].user == user && results[i].test == test
  }

  /** Both lookups of a submitted pair succeed. */
  predicate PairResolves(db: Catalogue, a: ChosenOption) {
    a.questionId in db.questionIds && a.optionId in db.options
  }

  /** Every submitted pair names a stored question and a stored option, so
      no lookup fails. */
  predicate Resolves(db: Catalogue, chosen: seq<ChosenOption>) {
    forall k :: 0 <= k < |chosen| ==> PairResolves(db, chosen[k])
  }

  /** An earlier pair of the list names the same question as pair `k`. */
  predicate Repeats(chosen: seq<ChosenOption>, k: nat)
    requires k < |chosen|
  {
    exists j :: 0 <= j < k && chosen[j].questionId == chosen[k].questionId
  }

  /** Pair `k` is stored: both lookups succeed and the unique (result,
      question) constraint admits its answer row. */
  predicate Storable(db: Catalogue, chosen: seq<ChosenOption>, k: nat)
    requires k < |chosen|
  {
    PairResolves(db, chosen[k]) && !Repeats(chosen, k)
  }

  /** The position of the first pair from `i` on that is not stored, or
      the length when all are. */
  function FirstFailureFrom(db: Catalogue, chosen: seq<ChosenOption>, i: nat): (k: nat)
    requires i <= |chosen|
    ensures i <= k <= |chosen|
    ensures forall j :: i <= j < k ==> Storable(db, chosen, j)
    ensures k < |chosen| ==> !Storable(db, chosen, k)
    decreases |chosen| - i
  {
    if i == |chosen| || !Storable(db, chosen, i) then i
    else FirstFailureFrom(db, chosen, i + 1)
  }

  /** Where the answer loop stops: the first pair that is not stored. */
  function FirstFailure(db: Catalogue, chosen: seq<ChosenOption>): (k: nat)
    ensures k <= |chosen|
    ensures forall j :: 0 <= j < k ==> Storable(db, chosen, j)
    ensures k < |chosen| ==> !Storable(db, chosen, k)
  {
    FirstFailureFrom(db, chosen, 0)
  }

  /** When no pair fails, every lookup succeeds and no question repeats. */
  lemma NoFailureResolves(db: Catalogue, chosen: seq<ChosenOption>)
    requires FirstFailure(db, chosen) == |chosen|
    ensures Resolves(db, chosen)
    ensures forall j, k :: 0 <= j < k < |chosen| ==> chosen[j].questionId != chosen[k].questionId
  {
    forall k | 0 <= k < |chosen|
      ensures PairResolves(db, chosen[k]) && !Repeats(chosen, k)
    {
      assert Storable(db, chosen, k);
    }
  }

  /** The answer rows stored for the pairs, all under result row `rid`. */
  function AnswerRows(db: Catalogue, rid: nat, pairs: seq<ChosenOption>): (rows: seq<AnswerRow>)
    ensures |rows| == |pairs|
    ensures forall i :: 0 <= i < |pairs| ==>
              && rows[i].result == rid && rows[i].questionId == pairs[i].questionId
              && rows[i].optionId == pairs[i].optionId
              && (rows[i].isCorrect <==> pairs[i].optionId in db.options && db.options[pairs[i].optionId].isCorrect)
  {
    seq(|pairs|, i requires 0 <= i < |pairs| =>
      AnswerRow(rid, pairs[i].questionId, pairs[i].optionId,
                pairs[i].optionId in db.options && db.options[pairs[i].optionId].isCorrect))
  }

  /** How the right answers are counted: every right option submitted, as
      the action is written, or each of the test's questions once. */
  datatype Counting = EveryRightOption | TestQuestionsOnce

  /** `TestViewSet.submit` with the given counting. The checks run in
      order: an earlier result of this user for the test, an empty list.
      Then the result row is created, and each pair in turn is looked up
      and stored until one fails a lookup or repeats a question; a failure
      leaves the result row and the answers stored before it. With every
      pair stored, an empty test fails on the division, still leaving
      those rows; otherwise the result is graded and an activity recorded. */
  function SubmitWith(counting: Counting, db: Catalogue, s: Store, user: nat, test: nat,
                      chosen: seq<ChosenOption>): (o: SubmitOutcome)
    ensures o.AlreadySubmitted? <==> HasResult(s.results, user, test)
    ensures o.NoAnswers? <==> !HasResult(s.results, user, test) && |chosen| == 0
    ensures var k := FirstFailure(db, chosen);
            && (o.NotFound? <==>
                  !HasResult(s.results, user, test) && k < |chosen| && !PairResolves(db, chosen[k]))
            && (o.DuplicateAnswer? <==>
                  !HasResult(s.results, user, test) && k < |chosen| && PairResolves(db, chosen[k]))
            && (o.ZeroQuestions? <==>
                  !HasResult(s.results, user, test) && 0 < |chosen| && k == |chosen| && |db.testQuestions| == 0)
            && (o.NotFound? || o.DuplicateAnswer? || o.ZeroQuestions? ==>
                  o.store == s.(results := s.results + [Started(user, test)],
                                answers := s.answers + AnswerRows(db, |s.results|, chosen[..k])))
    ensures o.Submitted? ==>
              && Resolves(db, chosen)
              && o.store.results == s.results + [Completed(user, test, o.correct, o.incorrect, o.score)]
              && o.store.answers == s.answers + AnswerRows(db, |s.results|, chosen)
              && o.store.activities == s.activities + [TestActivity(user, test, o.score)]
              && o.correct + o.incorrect == |db.testQuestions|
              && |db.testQuestions| * o.score <= 100 * o.correct < |db.testQuestions| * o.score + |db.testQuestions|
  {
    if HasResult(s.results, user, test) then AlreadySubmitted
    else if |chosen| == 0 then NoAnswers
    else
      var k := FirstFailure(db, chosen);
      var rid := |s.results|;
      var started := s.(results := s.results + [Started(user, test)],
                        answers := s.answers + AnswerRows(db, rid, chosen[..k]));
      if k < |chosen| then
        if !PairResolves(db, chosen[k]) then NotFound(started) else DuplicateAnswer(started)
      else
        assert chosen[..k] == chosen;
        NoFailureResolves(db, chosen);
        var total := |db.testQuestions|;
        if total == 0 then ZeroQuestions(started)
        else
          var correct := if counting.EveryRightOption? then CorrectOptionCount(db, chosen)
                         else |RightQuestions(db, chosen)|;
          var score := TruncPercent(correct, total);
          Submitted(started.(results := s.results + [Completed(user, test, correct, total - correct, score)],
                             activities := s.activities + [TestActivity(user, test, score)]),
                    correct, total - correct, score)
  }

  /** A submission leaves a result row whenever it gets past the two early
      refusals, whatever happens after; every later submission of the user
      for the test is then refused as already submitted. Only a graded
      submission records an activity. */
  lemma {:induction false} SubmitLeavesResult(counting: Counting, db: Catalogue, s: Store, user: nat, test: nat,
                                              chosen: seq<ChosenOption>, again: seq<ChosenOption>)
    ensures var o := SubmitWith(counting, db, s, user, test, chosen);
            && (!o.AlreadySubmitted? && !o.NoAnswers? ==>
                  && HasResult(o.store.results, user, test)
                  && SubmitWith(counting, db, o.store, user, test, again).AlreadySubmitted?)
            && (o.NotFound? || o.DuplicateAnswer? || o.ZeroQuestions? ==> o.store.activities == s.activities)
  {
    var o := SubmitWith(counting, db, s, user, test, chosen);
    if !o.AlreadySubmitted? && !o.NoAnswers? {
      var last := |s.results|;
      assert o.store.results[last].user == user && o.store.results[last].test == test;
    }
  }

  /** `TestViewSet.submit` as written: every right option submitted counts
      one, whichever question it belongs to; the rest of the test's
      questions count as wrong. */
  function SubmitAsWritten(db: Catalogue, s: Store, user: nat, test: nat, chosen: seq<ChosenOption>): (o: SubmitOutcome)
    ensures o.Submitted? ==> Resolves(db, chosen) && o.correct == CorrectOptionCount(db, chosen)
    ensures o.Submitted? ==> o.correct + o.incorrect == |db.testQuestions|
    ensures o.Submitted? ==> |o.store.results| == |s.results| + 1 && o.store.results[|s.results|] == Completed(user, test, o.correct, o.incorrect, o.score)
  {
    SubmitWith(EveryRightOption, db, s, user, test, chosen)
  }

  /** As written, the count is the number of submitted options that are
      right answers, whichever question they belong to. */
  function CorrectOptionCount(db: Catalogue, chosen: seq<ChosenOption>): (c: nat)
    requires Resolves(db, chosen)
    ensures c <= |chosen|
  {
    if |chosen| == 0 then 0
    else
      var last := chosen[|chosen| - 1];
      CorrectOptionCount(db, chosen[..|chosen| - 1]) + (if db.options[last.optionId].isCorrect then 1 else 0)
  }

  /** The as-written count is not confined to the test: a one-question test
      answered with a right option of its own question and a right option of
      a question from another test is scored 200 with -1 wrong answers. */
  lemma SubmitAsWrittenExceedsHundred()
    ensures var db := Catalogue({"q1", "q2"}, map[1 := ServerOption("q1", true), 2 := ServerOption("q2", true)], {"q1"});
            var o := SubmitAsWritten(db, Store([], [], []), 0, 0, [ChosenOption("q1", 1), ChosenOption("q2", 2)]);
            o.Submitted? && o.score == 200 && o.incorrect == -1
  {
    var db := Catalogue({"q1", "q2"}, map[1 := ServerOption("q1", true), 2 := ServerOption("q2", true)], {"q1"});
    var chosen := [ChosenOption("q1", 1), ChosenOption("q2", 2)];
    assert !Repeats(chosen, 1);
    assert FirstFailure(db, chosen) == 2;
    assert chosen[..1][..0] == [];
    assert CorrectOptionCount(db, chosen[..1]) == 1;
    assert CorrectOptionCount(db, chosen) == 2;
  }

  /** A submitted pair that gives a right answer to one of the test's
      questions: the question is the test's and the option is that
      question's own right option. */
  predicate RightForTest(db: Catalogue, a: ChosenOption) {
    && a.questionId in db.testQuestions
    && a.optionId in db.options
    && db.options[a.optionId].questionId == a.questionId
    && db.options[a.optionId].isCorrect
  }

  /** The questions of the test that received a right answer. */
  function RightQuestions(db: Catalogue, chosen: seq<ChosenOption>): (qs: set<string>)
    ensures qs <= db.testQuestions
    ensures forall k :: 0 <= k < |chosen| && RightForTest(db, chosen[k]) ==> chosen[k].questionId in qs
  {
    set k | 0 <= k < |chosen| && RightForTest(db, chosen[k]) :: chosen[k].questionId
  }

  /** `submit` with the count confined to the test: each of the test's
      questions counts once if some submitted pair answers it rightly. The
      checks, their order and the rows written are those of the written
      action. */
  function Submit(db: Catalogue, s: Store, user: nat, test: nat, chosen: seq<ChosenOption>): (o: SubmitOutcome)
    ensures o.Submitted? ==> o.correct == |RightQuestions(db, chosen)|
    ensures o.Submitted? ==> o.correct + o.incorrect == |db.testQuestions|
    ensures o.Submitted? ==> 0 <= o.incorrect && 0 <= o.score <= 100
    ensures o.Submitted? ==> (o.score == 100 <==> RightQuestions(db, chosen) == db.testQuestions)
    ensures o.Submitted? ==> |o.store.results| == |s.results| + 1 && o.store.results[|s.results|] == Completed(user, test, o.correct, o.incorrect, o.score)
  {
    var right := RightQuestions(db, chosen);
    SubsetCardinality(right, db.testQuestions);
    FullSubset(right, db.testQuestions);
    SubmitWith(TestQuestionsOnce, db, s, user, test, chosen)
  }

  /** A well-formed submission: every pair answers one of the test's
      stored questions with one of that question's own options, and no
      question is answered twice. */
  predicate WellFormed(db: Catalogue, chosen: seq<ChosenOption>) {
    && db.testQuestions <= db.questionIds
    && (forall k :: 0 <= k < |chosen| ==>
          && chosen[k].questionId in db.testQuestions
          && chosen[k].optionId in db.options
          && db.options[chosen[k].optionId].questionId == chosen[k].questionId)
    && (forall j, k :: 0 <= j < k < |chosen| ==> chosen[j].questionId != chosen[k].questionId)
  }

  /** The right questions of a list grow by the last pair's question when
      that pair is right. */
  lemma RightQuestionsSnoc(db: Catalogue, chosen: seq<ChosenOption>)
    requires |chosen| > 0
    ensures var last := chosen[|chosen| - 1];
            RightQuestions(db, chosen) ==
              RightQuestions(db, chosen[..|chosen| - 1]) + (if RightForTest(db, last) then {last.questionId} else {})
  {
    var init := chosen[..|chosen| - 1];
    assert forall k :: 0 <= k < |init| ==> init[k] == chosen[k];
  }

  /** On well-formed submissions the confined count agrees with the written
      one, so the correction changes only the submissions the written
      action mis-scores. */
  lemma {:induction false} SubmitAgreesOnWellFormed(db: Catalogue, chosen: seq<ChosenOption>)
    requires WellFormed(db, chosen)
    ensures Resolves(db, chosen)
    ensures CorrectOptionCount(db, chosen) == |RightQuestions(db, chosen)|
  {
    if |chosen| > 0 {
      var init := chosen[..|chosen| - 1];
      var last := chosen[|chosen| - 1];
      assert forall k :: 0 <= k < |init| ==> init[k] == chosen[k];
      assert WellFormed(db, init);
      SubmitAgreesOnWellFormed(db, init);
      RightQuestionsSnoc(db, chosen);
      assert last.questionId !in RightQuestions(db, init) by {
        forall k | 0 <= k < |init| ensures init[k].questionId != last.questionId {
          assert chosen[k].questionId != chosen[|chosen| - 1].questionId;
        }
      }
    }
  }
}

=== FILE: test_results.dfy ===
/** The results page shown after a quiz: the `m:ss` clock format, the
    80/60 score bands behind the headline, the score-circle colour and the
    recommendation, the stat items, and the record it falls back to when
    nothing was handed over. */
module TestResultsPage {
  import opened Common
  import opened QuizSession

  /** `formatTime`: whole minutes, a colon, then the seconds padded to two
      digits. The string splits back into the minutes and the seconds. */
  function FormatTime(seconds: nat): (t: string)
    ensures 4 <= |t| && t[|t| - 3] == ':'
    ensures AllDigits(t[..|t| - 3]) && AllDigits(t[|t| - 2..])
    ensures ParseNat(t[..|t| - 3]) == seconds / 60
    ensures ParseNat(t[|t| - 2..]) == seconds % 60
    ensures |t| == 4 || t[0] != '0'
  {
    var minutes := NatToString(seconds / 60);
    var secs := seconds % 60;
    var secText := (if secs < 10 then "0" else "") + NatToString(secs);
    TwoDigitSeconds(secs);
    ParseNatToString(seconds / 60);
    assert (minutes + ":" + secText)[..|minutes|] == minutes;
    assert (minutes + ":" + secText)[0] == minutes[0];
    assert (minutes + ":" + secText)[|minutes| + 1..] == secText;
    minutes + ":" + secText
  }

  /** The seconds field is always two digits and denotes the seconds. */
  lemma TwoDigitSeconds(secs: nat)
    requires secs < 60
    ensures var t := (if secs < 10 then "0" else "") + NatToString(secs);
            |t| == 2 && AllDigits(t) && ParseNat(t) == secs
  {
    var t := (if secs < 10 then "0" else "") + NatToString(secs);
    ParseNatToString(secs);
    if secs < 10 {
      assert t[..1] == "0";
      assert ParseNat(t[..1]) == 0;
    } else {
      assert NatToString(secs) == NatToString(secs / 10) + [DigitChar(secs % 10)];
    }
  }

  /** Reads an `m:ss` clock back into seconds. */
  function ParseClock(t: string): nat
    requires 4 <= |t| && AllDigits(t[..|t| - 3]) && AllDigits(t[|t| - 2..])
  {
    ParseNat(t[..|t| - 3]) * 60 + ParseNat(t[|t| - 2..])
  }

  /** Formatting loses nothing: the clock reads back as the same number of
      seconds, so distinct durations are shown differently. */
  lemma FormatTimeRoundTrip(seconds: nat)
    ensures ParseClock(FormatTime(seconds)) == seconds
  {
  }

  lemma FormatTimeInjective(a: nat, b: nat)
    requires FormatTime(a) == FormatTime(b)
    ensures a == b
  {
    FormatTimeRoundTrip(a);
    FormatTimeRoundTrip(b);
  }

  // ---------------------------------------------------------------------
  // Score bands

  /** The three bands the page distinguishes. */
  datatype Band = High | Middle | Low

  /** The band of a score: at least 80, 60 to 79, below 60. */
  function BandOf(score: int): (b: Band)
    ensures b == High <==> 80 <= score
    ensures b == Middle <==> 60 <= score < 80
    ensures b == Low <==> score < 60
  {
    if score >= 80 then High else if score >= 60 then Middle else Low
  }

  /** The heading above the stats. */
  function Headline(score: int): string {
    if score >= 80 then "Excellent!" else if score >= 60 then "Good Job!" else "Keep Learning!"
  }

  datatype CircleColour = Success | Warning | Error

  /** The score circle's background (and glow) colour. */
  function ScoreColour(score: int): CircleColour {
    if score >= 80 then Success
    else if score >= 60 then Warning
    else Error
  }

  /** The recommended next step. */
  datatype Recommendation = AdvancedJavaScript | ReviewBasicProgramming | RevisitIntroduction

  function Recommend(score: int): Recommendation {
    if score >= 80 then AdvancedJavaScript
    else if score >= 60 then ReviewBasicProgramming
    else RevisitIntroduction
  }

  /** The headline, the circle colour and the recommendation are three
      separately written choices on the same 80/60 thresholds: each is a
      function of the band alone, and different bands give different
      headlines. */
  lemma ViewsFollowBand(score: int)
    ensures Headline(score) == "Excellent!" <==> BandOf(score) == High
    ensures Headline(score) == "Good Job!" <==> BandOf(score) == Middle
    ensures Headline(score) == "Keep Learning!" <==> BandOf(score) == Low
    ensures ScoreColour(score) == Success <==> BandOf(score) == High
    ensures ScoreColour(score) == Warning <==> BandOf(score) == Middle
    ensures ScoreColour(score) == Error <==> BandOf(score) == Low
    ensures Recommend(score) == AdvancedJavaScript <==> BandOf(score) == High
    ensures Recommend(score) == ReviewBasicProgramming <==> BandOf(score) == Middle
    ensures Recommend(score) == RevisitIntroduction <==> BandOf(score) == Low
  {
  }

  // ---------------------------------------------------------------------
  // Stats and the summary line

  datatype StatKind = CorrectStat | IncorrectStat | UnansweredStat
  datatype Stat = Stat(kind: StatKind, value: int)

  /** What the summary card shows for a result. */
  datatype Summary = Summary(
    score: int,
    colour: CircleColour,
    headline: string,
    stats: seq<Stat>,
    timeSpent: string,
    answeredCorrectly: int,
    outOf: int,
    recommendation: Recommendation)

  /** The stat row always lists the right and wrong counts; the unanswered
      count appears only when it is positive. */
  function Stats(r: QuizResult): (stats: seq<Stat>)
    ensures 2 <= |stats| <= 3
    ensures stats[0] == Stat(CorrectStat, r.correct) && stats[1] == Stat(IncorrectStat, r.incorrect)
    ensures (exists i :: 0 <= i < |stats| && stats[i].kind == UnansweredStat) <==> r.unanswered > 0
    ensures forall i :: 0 <= i < |stats| && stats[i].kind == UnansweredStat ==> stats[i].value == r.unanswered
  {
    var base := [Stat(CorrectStat, r.correct), Stat(IncorrectStat, r.incorrect)];
    if r.unanswered > 0 then
      var stats := base + [Stat(UnansweredStat, r.unanswered)];
      assert stats[2].kind == UnansweredStat;
      stats
    else base
  }

  /** The whole summary card for a result. */
  function Summarize(r: QuizResult): (v: Summary)
    requires 0 <= r.timeSpent
  {
    Summary(
      r.score,
      ScoreColour(r.score),
      Headline(r.score),
      Stats(r),
      FormatTime(r.timeSpent),
      r.correct,
      r.correct + r.incorrect + r.unanswered,
      Recommend(r.score))
  }

  /** For a result produced by finishing a quiz, the card's "out of" total
      is the number of questions, the right-answer count is at most that,
      and the shown time reads back as the seconds spent. */
  lemma SummaryOfFinishedQuiz(quiz: Quiz, routeId: string, s: Session)
    requires Valid(quiz, s)
    ensures var r := ResultOf(quiz, routeId, s);
            var v := Summarize(r);
            && v.outOf == |quiz.questions|
            && 0 <= v.answeredCorrectly <= v.outOf
            && ParseClock(v.timeSpent) == quiz.timeLimit - s.remaining
  {
    var r := ResultOf(quiz, routeId, s);
    FormatTimeRoundTrip(r.timeSpent);
  }

  // ---------------------------------------------------------------------
  // Handoff from the quiz page

  /** `getResultsData`: the handed-over result if there is one, otherwise a
      fixed sample record. */
  function ResultsData(stored: Option<QuizResult>): (r: QuizResult)
    ensures stored.Some? ==> r == stored.value
    ensures stored.None? ==> r.testId == "2" && r.correct == 4 && r.incorrect == 1
                              && r.unanswered == 0 && r.score == 80 && r.timeSpent == 450
  {
    match stored
    case Some(x) => x
    case None => QuizResult("2", 4, 1, 0, 80, [], 450)
  }

  /** The sample record is one a five-question quiz could produce: its
      counts add up to 5, its score is the rounded 4/5, it is in the top
      band and its time shows as 7:30. */
  lemma FallbackIsConsistent()
    ensures var r := ResultsData(None);
            && r.correct + r.incorrect + r.unanswered == 5
            && r.score == RoundedPercent(r.correct, 5)
            && Headline(r.score) == "Excellent!"
            && FormatTime(r.timeSpent) == "7:30"
  {
    assert NatToString(7) == "7";
    assert NatToString(30) == NatToString(3) + [DigitChar(0)];
  }
}

=== FILE: tests_page.dfy ===
/** The tests catalogue page: the category filter, the link of each card,
    and what a completed test shows instead of an open one. */
module TestsPage {
  import opened Common

  /** A test card's data. The result fields are shown only for completed
      tests. */
  datatype TestCard = TestCard(
    id: nat,
    category: string,
    completed: bool,
    correct: int,
    incorrect: int,
    score: int)

  /** The cards under the category button `active`, in catalogue order. */
  function Shown(tests: seq<TestCard>, active: string): (r: seq<TestCard>)
    ensures active == "All" ==> r == tests
    ensures forall t :: t in r ==> t in tests && (active == "All" || t.category == active)
    ensures forall t :: t in tests && (active == "All" || t.category == active) ==> t in r
  {
    ByCategory(tests, active, (t: TestCard) => t.category)
  }

  /** Filtering keeps the catalogue's order. */
  lemma ShownKeepsOrder(a: seq<TestCard>, b: seq<TestCard>, active: string)
    ensures Shown(a + b, active) == Shown(a, active) + Shown(b, active)
  {
    ByCategoryAppend(a, b, active, (t: TestCard) => t.category);
  }

  const ResultsSuffix := "/results"

  /** A completed test links to its results, any other test to itself:
      after `/tests/` comes the id in decimal without leading zeros, then
      `/results` exactly when the test was completed. */
  function Link(t: TestCard): (l: string)
    ensures 7 <= |l| && l[..7] == "/tests/"
    ensures var k := LeadingDigits(l[7..]);
            && 1 <= k && (k == 1 || l[7] != '0')
            && AllDigits(l[7..7 + k])
            && ParseNat(l[7..7 + k]) == t.id
            && (t.completed <==> 7 + k < |l|)
            && (t.completed ==> l[7 + k..] == ResultsSuffix)
  {
    var digits := NatToString(t.id);
    var rest := if t.completed then ResultsSuffix else "";
    var l := "/tests/" + digits + rest;
    assert ResultsSuffix[0] == '/';
    assert l[7..] == digits + rest;
    LeadingDigitsOfRun(digits, rest);
    assert l[7..7 + |digits|] == digits;
    assert l[7 + |digits|..] == rest;
    ParseNatToString(t.id);
    l
  }

  /** Links identify the test and whether it was completed: no two cards
      with different ids, or with different completion, share a link. */
  lemma LinkIdentifiesTest(a: TestCard, b: TestCard)
    requires Link(a) == Link(b)
    ensures a.id == b.id && a.completed == b.completed
  {
    var sa := if a.completed then ResultsSuffix else "";
    var sb := if b.completed then ResultsSuffix else "";
    assert ResultsSuffix[0] == '/';
    var ta := NatToString(a.id) + sa;
    var tb := NatToString(b.id) + sb;
    assert Link(a) == "/tests/" + ta;
    assert Link(b) == "/tests/" + tb;
    assert ta == Link(a)[7..] == Link(b)[7..] == tb;
    DigitRunSplit(NatToString(a.id), sa, NatToString(b.id), sb);
    NatToStringInjective(a.id, b.id);
  }

  /** The result line of a card: right, wrong and score. */
  datatype ResultLine = ResultLine(correct: int, incorrect: int, score: int)

  /** Only completed tests show their result line. */
  function ResultsOf(t: TestCard): (r: Option<ResultLine>)
    ensures r.Some? <==> t.completed
    ensures r.Some? ==> r.value == ResultLine(t.correct, t.incorrect, t.score)
  {
    if t.completed then Some(ResultLine(t.correct, t.incorrect, t.score)) else None
  }

  function ButtonLabel(t: TestCard): (s: string)
    ensures s == "View Results" <==> t.completed
    ensures s == "Start Test" <==> !t.completed
  {
    if t.completed then "View Results" else "Start Test"
  }

  /** The card's three completion-dependent parts agree: a card that shows
      results is labelled for them and links to them. */
  lemma CardIsConsistent(t: TestCard)
    ensures ResultsOf(t).Some? <==> ButtonLabel(t) == "View Results"
    ensures ResultsOf(t).Some? <==> Link(t) == "/tests/" + NatToString(t.id) + ResultsSuffix
  {
  }

  /** The "No tests found" message shows exactly when no test of the
      catalogue carries the chosen category. */
  lemma EmptyCategory(tests: seq<TestCard>, active: string)
    ensures |Shown(tests, active)| == 0 <==>
              forall t :: t in tests ==> active != "All" && t.category != active
  {
    var r := Shown(tests, active);
    if |r| != 0 {
      assert r[0] in r;
    }
    if active == "All" && |tests| != 0 {
      assert tests[0] in tests;
    }
  }
}

=== FILE: user_accounts.dfy ===
/** The custom user model and its manager, and the account serializers'
    validation rules: creating users and superusers, the defaults, the
    unique username and email, the password-confirmation check and the
    username check on profile updates. A user's id is their position in
    the table. */
module UserAccounts {
  import opened Common

  /** A stored user. `password` is None for an unusable password (one set
      from `None`). */
  datatype User = User(
    username: string,
    email: string,
    password: Option<string>,
    fullName: string,
    isStaff: bool,
    isSuperuser: bool,
    isVerified: bool,
    isOauth: bool,
    isActive: bool)

  /** The extra fields a caller may pass to the manager; a flag left out
      is None. */
  datatype Extras = Extras(
    username: string,
    fullName: string,
    isStaff: Option<bool>,
    isSuperuser: Option<bool>,
    isVerified: Option<bool>)

  /** Username and email are each unique across the table. */
  predicate Unique(users: seq<User>) {
    forall i, j :: 0 <= i < |users| && 0 <= j < |users| && i != j ==>
      users[i].username != users[j].username && users[i].email != users[j].email
  }

  predicate UsernameTaken(users: seq<User>, username: string) {
    exists i :: 0 <= i < |users| && users[i].username == username
  }

  predicate EmailTaken(users: seq<User>, email: string) {
    exists i :: 0 <= i < |users| && users[i].email == email
  }

  datatype Created = EmailRequired | AlreadyTaken | Created(users: seq<User>, id: nat)

  /** `create_user`: an empty email is refused; a username or email
      already in use is refused by the unique constraints; otherwise the
      user is stored with the given password and the model defaults (not
      staff, not verified, not an OAuth account, active). */
  function CreateUser(users: seq<User>, email: string, password: Option<string>, extras: Extras): (o: Created)
    ensures o.EmailRequired? <==> email == ""
    ensures o.AlreadyTaken? <==> email != "" && (UsernameTaken(users, extras.username) || EmailTaken(users, email))
    ensures o.Created? ==>
              && o.id == |users| && |o.users| == |users| + 1 && o.users[..|users|] == users
              && var u := o.users[o.id];
                 && u.email == email && u.username == extras.username && u.password == password
                 && u.fullName == extras.fullName && u.isActive && !u.isOauth
                 && u.isStaff == OrElse(extras.isStaff, false)
                 && u.isSuperuser == OrElse(extras.isSuperuser, false)
                 && u.isVerified == OrElse(extras.isVerified, false)
  {
    if email == "" then EmailRequired
    else if UsernameTaken(users, extras.username) || EmailTaken(users, email) then AlreadyTaken
    else
      var u := User(extras.username, email, password, extras.fullName,
                    OrElse(extras.isStaff, false), OrElse(extras.isSuperuser, false),
                    OrElse(extras.isVerified, false), false, true);
      Created(users + [u], |users|)
  }

  /** Creating a user keeps usernames and emails unique. */
  lemma CreateKeepsUnique(users: seq<User>, email: string, password: Option<string>, extras: Extras)
    requires Unique(users)
    ensures var o := CreateUser(users, email, password, extras);
            o.Created? ==> Unique(o.users)
  {
    var o := CreateUser(users, email, password, extras);
    if o.Created? {
      forall i | 0 <= i < |users|
        ensures users[i].username != extras.username && users[i].email != email
      {
      }
    }
  }

  /** `setdefault`: a flag the caller gave is kept, a missing one becomes
      true. Afterwards the flag is always present, so whatever default a
      later reader falls back on no longer matters: the flag reads as the
      caller's value, or as true when the caller gave none. */
  function SetDefault(b: Option<bool>): (v: Option<bool>)
    ensures v.Some?
    ensures b.Some? ==> v == b
    ensures forall d: bool :: OrElse(v, d) == OrElse(b, true)
  {
    if b.Some? then b else Some(true)
  }

  /** `create_superuser`: `create_user` with staff, superuser and verified
      defaulting to true. */
  function CreateSuperuser(users: seq<User>, email: string, password: Option<string>, extras: Extras): (o: Created)
    ensures o.EmailRequired? <==> email == ""
    ensures o.AlreadyTaken? <==> email != "" && (UsernameTaken(users, extras.username) || EmailTaken(users, email))
    ensures o.Created? ==> o.id == |users| && |o.users| == |users| + 1 && o.users[..|users|] == users
    ensures o.Created? ==>
              var u := o.users[o.id];
              && u.isStaff == OrElse(extras.isStaff, true)
              && u.isSuperuser == OrElse(extras.isSuperuser, true)
              && u.isVerified == OrElse(extras.isVerified, true)
              && u.email == email && u.username == extras.username && u.password == password
              && u.fullName == extras.fullName && u.isActive && !u.isOauth
  {
    CreateUser(users, email, password, SuperuserExtras(extras))
  }

  /** The extra fields `create_superuser` passes on to `create_user`. */
  function SuperuserExtras(extras: Extras): Extras
  {
    extras.(isStaff := SetDefault(extras.isStaff),
            isSuperuser := SetDefault(extras.isSuperuser),
            isVerified := SetDefault(extras.isVerified))
  }

  /** Creating a superuser keeps usernames and emails unique. */
  lemma CreateSuperuserKeepsUnique(users: seq<User>, email: string, password: Option<string>, extras: Extras)
    requires Unique(users)
    ensures var o := CreateSuperuser(users, email, password, extras);
            o.Created? ==> Unique(o.users)
  {
    CreateKeepsUnique(users, email, password, SuperuserExtras(extras));
  }

  /** The login identifier is the email: in a table with unique emails at
      most one user has a given email. */
  function FindByEmail(users: seq<User>, email: string): (r: Option<nat>)
    ensures r.Some? <==> EmailTaken(users, email)
    ensures r.Some? ==> r.value < |users| && users[r.value].email == email
  {
    if |users| == 0 then None
    else if users[|users| - 1].email == email then Some(|users| - 1)
    else
      var r := FindByEmail(users[..|users| - 1], email);
      assert forall i :: 0 <= i < |users| - 1 ==> users[..|users| - 1][i] == users[i];
      r
  }

  lemma EmailIdentifiesUser(users: seq<User>, email: string, i: nat)
    requires Unique(users)
    requires i < |users| && users[i].email == email
    ensures FindByEmail(users, email) == Some(i)
  {
  }

  // ---------------------------------------------------------------------
  // Serializers

  /** The registration form. */
  datatype Registration = Registration(
    username: string,
    email: string,
    password: string,
    passwordConfirm: string,
    fullName: string)

  /** The shape of an email address that Django's email validation
      demands at the least: at most 254 characters, with an `@` that has
      text on both sides. */
  predicate ValidEmail(email: string) {
    |email| <= 254 && exists i :: 0 < i < |email| - 1 && email[i] == '@'
  }

  /** The field checks `UserRegisterSerializer` runs before its own
      `validate`: the username (at most 150 characters) and a valid email
      are required and must not be in use already, both passwords are
      required, and the full name may be blank but holds at most 255
      characters. A missing field counts as blank. */
  predicate RegistrationFieldsValid(users: seq<User>, form: Registration) {
    && form.username != "" && |form.username| <= 150 && !UsernameTaken(users, form.username)
    && ValidEmail(form.email) && !EmailTaken(users, form.email)
    && form.password != "" && form.passwordConfirm != ""
    && |form.fullName| <= 255
  }

  datatype Registered = FieldInvalid | PasswordsDiffer | Registered(users: seq<User>, id: nat)

  /** `UserRegisterSerializer`: the field checks come first, then the two
      passwords must match; the confirmation is dropped and the rest goes
      to `create_user`, whose own refusals the field checks have already
      ruled out. */
  function Register(users: seq<User>, form: Registration): (o: Registered)
    ensures o.FieldInvalid? <==> !RegistrationFieldsValid(users, form)
    ensures o.PasswordsDiffer? <==> RegistrationFieldsValid(users, form) && form.password != form.passwordConfirm
    ensures o.Registered? ==>
              CreateUser(users, form.email, Some(form.password), Extras(form.username, form.fullName, None, None, None))
                == Created(o.users, o.id)
  {
    if !RegistrationFieldsValid(users, form) then FieldInvalid
    else if form.password != form.passwordConfirm then PasswordsDiffer
    else
      match CreateUser(users, form.email, Some(form.password), Extras(form.username, form.fullName, None, None, None))
      case Created(us, id) => Registered(us, id)
      case EmailRequired => assert false; FieldInvalid
      case AlreadyTaken => assert false; FieldInvalid
  }

  /** A registered user can sign in with the password typed twice, is not
      verified yet and is an ordinary user. */
  lemma RegisteredUser(users: seq<User>, form: Registration)
    ensures var o := Register(users, form);
            o.Registered? ==>
              var u := o.users[o.id];
              && u.password == Some(form.password) == Some(form.passwordConfirm)
              && !u.isVerified && !u.isStaff && !u.isSuperuser && u.email == form.email
  {
  }

  /** Registration succeeds exactly for a form that passes the field
      checks with matching passwords, and keeps usernames and emails
      unique. */
  lemma RegisterKeepsUnique(users: seq<User>, form: Registration)
    requires Unique(users)
    ensures Register(users, form).Registered? <==> RegistrationFieldsValid(users, form) && form.password == form.passwordConfirm
    ensures Register(users, form).Registered? ==> Unique(Register(users, form).users)
  {
    CreateKeepsUnique(users, form.email, Some(form.password), Extras(form.username, form.fullName, None, None, None));
  }

  /** `PasswordResetConfirmSerializer`'s field checks: the token and both
      passwords are required. */
  predicate ResetFieldsPresent(token: string, password: string, passwordConfirm: string) {
    token != "" && password != "" && passwordConfirm != ""
  }

  /** `PasswordResetConfirmSerializer.validate`: the same mismatch rule. */
  predicate ResetFormValid(password: string, passwordConfirm: string) {
    password == passwordConfirm
  }

  /** `UserLoginSerializer`'s field checks: a valid email and a password
      are required. */
  predicate LoginFieldsValid(email: string, password: string) {
    ValidEmail(email) && password != ""
  }

  /** `validate_username` for user `me`: a name is taken when some other
      user holds it. */
  predicate UsernameFree(users: seq<User>, me: nat, value: string) {
    forall j :: 0 <= j < |users| && j != me ==> users[j].username != value
  }

  /** A profile update: each field may be left out. */
  datatype ProfilePatch = ProfilePatch(username: Option<string>, fullName: Option<string>)

  datatype ProfileUpdate = ProfileFieldInvalid | UsernameInUse | Updated(users: seq<User>)

  /** The field checks of `UserProfileUpdateSerializer`, from the model's
      columns: a given username is non-blank and at most 150 characters, a
      given full name (blank allowed) at most 255. A PUT (`partial` false)
      must give the username, which has no default; the full name, being
      allowed blank, is optional either way. */
  predicate ProfileFieldsValid(patch: ProfilePatch, partial: bool)
  {
    && (patch.username.Some? ==> patch.username.value != "" && |patch.username.value| <= 150)
    && (patch.fullName.Some? ==> |patch.fullName.value| <= 255)
    && (!partial ==> patch.username.Some?)
  }

  /** `UserProfileView` with `UserProfileUpdateSerializer`: a PATCH
      (`partial`) or a PUT whose fields do not validate is refused, then a
      username held by another user; otherwise only the username and full
      name change, each only when given. DRF reports every failing field
      at once; the model names a field error ahead of a taken username,
      and both are a 400. */
  function UpdateProfile(users: seq<User>, me: nat, patch: ProfilePatch, partial: bool): (o: ProfileUpdate)
    requires me < |users|
    ensures o.ProfileFieldInvalid? <==> !ProfileFieldsValid(patch, partial)
    ensures o.UsernameInUse? <==>
              ProfileFieldsValid(patch, partial) && patch.username.Some? && !UsernameFree(users, me, patch.username.value)
    ensures o.Updated? ==>
              && |o.users| == |users|
              && (forall j :: 0 <= j < |users| && j != me ==> o.users[j] == users[j])
              && o.users[me].username == (if patch.username.Some? then patch.username.value else users[me].username)
              && o.users[me].fullName == (if patch.fullName.Some? then patch.fullName.value else users[me].fullName)
              && o.users[me] == users[me].(username := o.users[me].username, fullName := o.users[me].fullName)
  {
    if !ProfileFieldsValid(patch, partial) then ProfileFieldInvalid
    else if patch.username.Some? && !UsernameFree(users, me, patch.username.value) then UsernameInUse
    else
      var u := users[me];
      var u' := u.(username := if patch.username.Some? then patch.username.value else u.username,
                   fullName := if patch.fullName.Some? then patch.fullName.value else u.fullName);
      Updated(users[me := u'])
  }

  /** Keeping one's own username is never refused as taken, a valid
      update that keeps it is accepted, and an accepted update keeps
      usernames and emails unique. */
  lemma UpdateProfileKeepsUnique(users: seq<User>, me: nat, patch: ProfilePatch, partial: bool)
    requires me < |users| && Unique(users)
    ensures patch.username == Some(users[me].username) ==> !UpdateProfile(users, me, patch, partial).UsernameInUse?
    ensures patch.username == Some(users[me].username) && ProfileFieldsValid(patch, partial) ==>
              UpdateProfile(users, me, patch, partial).Updated?
    ensures UpdateProfile(users, me, patch, partial).Updated? ==> Unique(UpdateProfile(users, me, patch, partial).users)
  {
  }

  /** The fields `UserSerializer` accepts on input; the read-only id,
      verified flag and join date are not among them. */
  datatype UserPatch = UserPatch(username: Option<string>, email: Option<string>, fullName: Option<string>,
                                 isVerified: Option<bool>)

  /** `UserSerializer` writing a patch: `is_verified` is read-only and is
      ignored. */
  function ApplyUserSerializer(u: User, patch: UserPatch): (v: User)
    ensures v.isVerified == u.isVerified
    ensures v.username == (if patch.username.Some? then patch.username.value else u.username)
    ensures v.email == (if patch.email.Some? then patch.email.value else u.email)
    ensures v.fullName == (if patch.fullName.Some? then patch.fullName.value else u.fullName)
    ensures v.password == u.password && v.isStaff == u.isStaff && v.isActive == u.isActive
  {
    u.(username := if patch.username.Some? then patch.username.value else u.username,
       email := if patch.email.Some? then patch.email.value else u.email,
       fullName := if patch.fullName.Some? then patch.fullName.value else u.fullName)
  }

  /** Applying a patch twice is applying it once, and a patch that gives
      no username, email or full name leaves the user as stored, whatever
      verified flag it carries. */
  lemma UserSerializerPatches(u: User, patch: UserPatch, flag: Option<bool>)
    ensures ApplyUserSerializer(ApplyUserSerializer(u, patch), patch) == ApplyUserSerializer(u, patch)
    ensures ApplyUserSerializer(u, UserPatch(None, None, None, flag)) == u
  {
  }
}
